=== FILE: README.md ===
# Smart-home dashboard: device sync and automation, in Dafny

This project models the core of a SmartThings home dashboard. The server
keeps a directory of devices, their last status snapshots, their health
and types, and an event history. It refreshes all of this from the
SmartThings REST API on a light cadence (a round-robin batch of statuses)
and a heavy cadence (directory, health, everything). It turns status
changes into readings and alerts, sends device commands, and runs schedules
and automations as cron tasks. The browser dashboard then applies its own
rules to the server's data: weather animation, smart notifications, status
indicators, voice commands, grouped widgets, scene/schedule/automation
forms, the settings panel and the event list.

Every operation is a pure function (or, for the refresh batch, a method
with loops) over immutable datatypes. What the program reads from outside
is a parameter:
- the clock is `now`;
- every SmartThings reply is an argument (`Fetch`, `Reply`, or an oracle
  from device id to reply);
- the browser's `localStorage` and the form fields are arguments;
- `parseFloat` results are `Option<real>`, with `None` for NaN.

JavaScript's own semantics are written out where the code leans on them:
- `||` defaults and truthiness (`Truthy`, `JsonTruthy`, `LabelOr`, `OrDefault`);
- `parseInt` and `Number` (`Text.ParseInt`, `Text.JsNumber`);
- `toLowerCase` on Latin and Cyrillic letters (`Text.Lower`);
- `includes`, `split`, `join`, `trim` and `splice` (`Text.Contains`, `Text.Split`, `Text.Join`, `Text.Trim`, `Voice.DeleteAt`);
- the sign of `%` (`Settings.JsRem`);
- `Math.floor` on non-negative times, which is Dafny's `/` (`Arith`).

Modules follow the program:
- `RefreshQueue`, `ApiClient`, `Classify`, `EventLog`, `StateDiff`,
  `Automation`, `Offline` and `Hub` model `server.js`;
- `Weather`, `Notifications`, `Indicators`, `Voice`, `Widgets`, `Scenes`,
  `Settings` and `Statistics` model the matching files under `js/`;
- `Optional`, `Text`, `Arith` and `DeviceState` are shared vocabulary.

## Model

| member | source | states |
|---|---|---|
| ApiClient.CeilSeconds | server.js:121 | `Math.ceil(ms / 1000)`: the least whole number of seconds covering a positive wait |
| ApiClient.Backoffs | server.js:146-150 | the waits before retries are 1500 ms, 3000 ms, …: `(attempt + 1) * 1500` |
| ApiClient.SumBackoffs | server.js:146-150 | the recorded waits add up to the total time slept before an attempt |
| ApiClient.Attempt | server.js:131-151 | the fetch loop: every attempt before the last saw 429 or ≥ 500; the last one's status is returned, or its fetch threw; it stops early only on a status that is not retried; only a 401/403 moves the cooldown, to the time it was seen plus 15 minutes |
| ApiClient.Request | server.js:115-154 | no token refuses; inside the cooldown a call that allows it is refused with the rounded-up seconds left; otherwise between one and three fetches; a first reply that is not retried is returned after a single fetch; 401/403 blocks for 15 minutes from then, and nothing else changes the deadline |
| ApiClient.RetryBudget | server.js:131-154 | a call that is throttled or fails on the server every time makes exactly three fetches, sleeps 1500 and 3000 ms, and returns the third status |
| ApiClient.AuthFailureCooldown | server.js:107-141 | after a 401/403, calls that allow the cooldown are refused for the next 15 minutes, while device commands (which opt out) still go out |
| ApiClient.CooldownExpires | server.js:107-123 | once the deadline has passed, calls are no longer refused |
| ApiClient.MatchHere | server.js:766 | an anchored match of `retry in (\d+) millis` only succeeds on text that starts with `retry in ` |
| ApiClient.FirstRetryMatch | server.js:766 | text without `retry in ` never matches |
| ApiClient.FirstRetryMatchIsLeftmost | server.js:766 | `match` finds the leftmost position that matches: there is no match exactly when no position matches, and otherwise the number is the one at the first position that does |
| ApiClient.RetryAfterMs | server.js:762-773 | without a detail message the wait is the default 30000 ms; with one it is the number of the leftmost `retry in N millis` in the message, or the default when no position matches |
| ApiClient.RetryAfterSeconds | server.js:774 | the reported seconds are the least whole number covering the wait |
| ApiClient.RetryHintRoundTrip | server.js:766-769 | a detail message that carries `retry in N millis` after leading text without `retry in ` (such as "Too many requests, "), followed by anything, yields exactly N |
| ApiClient.CommandOutcome | server.js:758-826 | `controlDevice`: accepted exactly on a 2xx reply whose body reads as JSON other than `null`; a 429 is throttled, with the retry-after seconds from the hint; any other status is rejected with that status; no reply at all, or a 2xx body that does not read (the thrown `response.json()` or `data.results`), is a failure |
| RefreshQueue.Known | server.js:341-347 | the visited priority ids still in the queue: exactly those in both lists, as a subsequence of the visited ids, so in their insertion order |
| RefreshQueue.Window | server.js:355-366 | `count` ids taken cyclically from the cursor |
| RefreshQueue.Update | server.js:316-325 | the id list is replaced, the priority set is untouched, and the cursor is back in range, pointing at the same position modulo the new length (unchanged if already in range, 0 for an empty queue) |
| RefreshQueue.MarkPriority | server.js:327-331 | a non-empty id joins the insertion-ordered set; earlier members keep their order; an empty id is ignored; the set stays duplicate-free |
| RefreshQueue.MarkPriorityIdempotent | server.js:327-331 | marking the same id twice is marking it once |
| RefreshQueue.WindowStep | server.js:355-366 | less than a lap of a queue of distinct ids never repeats an id |
| RefreshQueue.TakePriority | server.js:340-349 | the priority phase visits ids in insertion order until the batch is full; it selects the visited ids still queued, without duplicates and within the batch size; it stops early only on a full batch |
| RefreshQueue.FillFromCursor | server.js:351-366 | the round-robin fill keeps what was selected, adds only queued ids, never duplicates, stays within the batch size and leaves the cursor in range; from scratch over distinct non-blank ids, with a batch no longer than the queue, it takes exactly the next `batchSize` ids and moves the cursor by `batchSize` |
| RefreshQueue.NextBatch | server.js:333-369 | an empty queue gives `[]` and leaves the priority set alone; otherwise the batch is duplicate-free, within the batch size and made of queued ids; the visited prefix leaves the priority set and its queued ids lead the batch in order; unvisited ids stay only because the batch filled; with no priority ids, distinct non-blank ids and a batch no longer than the queue, the batch is the next `batchSize` ids cyclically and the cursor advances by `batchSize` |
| RefreshQueue.ConsecutiveWindows | server.js:355-357 | two consecutive batches are one longer window |
| RefreshQueue.LapCoversQueue | server.js:352-366 | fairness: one lap of windows from any cursor selects every queued id exactly once |
| Classify.HasSizeMarkIff | server.js:398 | the `\d+\s*(series\|дюйм\|inch)` search succeeds iff some position starts such a match |
| Classify.TypeByLabel | server.js:385-414 | a TV keyword makes a TV; without a brand only a keyword does; a brand makes a TV unless the label names a non-TV device kind and carries no model or size word; a brand with a model word or a size mark is a TV even beside a non-TV word ("samsung qled light"); the temperature-sensor flag is exactly the temperature-word test of the lower-cased label |
| Classify.TempSensorLabelSimplified | server.js:408-414 | the temperature-sensor test reduces to: a temperature or thermometer word, or a sensor word with a `temp`/`темп` stem (the `датчик температ` clause adds nothing) |
| Classify.EnrichedType | server.js:424-470 | the stored type is the label's type OR-ed with what the capabilities say: power meters make a TV and temperature measurement a sensor, from the detail reply or, without one, from the last snapshot; nothing else makes a TV |
| Classify.Enrich | server.js:419-473 | a known type is kept unless forced; otherwise the device's entry is recomputed; every other entry is unchanged |
| Classify.StatusType | server.js:585-597 | the type from a status snapshot: a sensor iff it measures temperature; a TV if it meters power, and otherwise iff the lowercased label says `tv` or `телевизор` |
| Classify.DisplaySleepMinutes | server.js:98-105 | the display sleeps after 30 minutes from 23:00 to 07:59 and after 5 otherwise |
| EventLog.KeepLast | server.js:839-841 | `slice(-n)` for an over-long list: the last `n` entries |
| EventLog.Track | server.js:847-874 | a reading list grows, keeping the last 1000, only for an event of its own kind |
| EventLog.LogEvent | server.js:829-875 | the event is appended as the newest; the lists stay within 1000; only the list of the event's own kind changes |
| EventLog.KeepLastAppend | server.js:839-841 | trimming before an append keeps the same window as trimming after |
| EventLog.LogAllEvents | server.js:836-841 | from a history within the bound, after a run of events the event list is the last 1000 of old plus new |
| EventLog.LogAllReadings | server.js:847-874 | from a history within the bound, after a run each reading list is the last 1000 of its old readings plus the run's readings of its kind |
| EventLog.LogAllWindow | server.js:829-875 | the whole history after a run, list by list, as windows of the last 1000 |
| EventLog.LogAllBounded | server.js:839-874 | logging never lets any list exceed 1000 |
| Automation.CheckConditions | server.js:1443-1469 | a device condition compares the switch value; a contact condition compares the contact value; a temperature condition compares strictly above or below the threshold as JavaScript reads the operands (a reported `null` is 0, a missing attribute or absent threshold is NaN); anything else, or a device without that capability, holds |
| Automation.UnknownDeviceHolds | server.js:1445-1468 | a condition on a device with no snapshot holds |
| Automation.TemperatureThresholdIsStrict | server.js:1460-1464 | at the threshold itself a temperature condition fails in both directions |
| Automation.NullTemperatureReadsZero | server.js:1459-1464 | a thermometer reporting `null` compares as 0: a "below" rule fires for any positive threshold and an "above" rule for any negative one |
| Automation.NonNumericThresholdNeverHolds | server.js:1459-1464 | a temperature condition whose threshold is absent or a string never holds |
| Automation.NumberText | server.js:1396 | `${Number(field)}` is `NaN` exactly when the field is not a number |
| Automation.DayTexts | server.js:1397 | each day is written as its integer numeral |
| Automation.TimeFields | server.js:1396 | an `HH:MM` time splits into the hour and minute numerals, leading zeros dropped |
| Automation.ScheduleCronRoundTrip | server.js:1393-1397 | the schedule pattern built from `HH:MM` and a non-empty day list reads back the minute, the hour, two wildcards and the days |
| Automation.AutomationCronRoundTrip | server.js:1419-1421 | the automation pattern reads back the minute, the hour and three wildcards |
| Automation.Upsert | server.js:1283-1288 | the entry with the same id is replaced in place, everything else untouched; otherwise the entry is appended |
| Automation.Remove | server.js:1296 | the filter keeps exactly the entries with another id |
| Automation.RemoveKeepsCounts | server.js:1296 | every entry with another id survives as many times as it was stored, and none with the deleted id does |
| Automation.RemoveAppend | server.js:1296 | the filter works entry by entry in order: deleting from a concatenation deletes from each part |
| Automation.RemoveOne | server.js:1296 | a single entry survives exactly when it has another id |
| Automation.RemoveUpsert | server.js:1281-1299 | deleting an id after saving it is the same as deleting it before |
| Automation.FindBy | server.js:1379 | `find` yields an entry with that id, and fails only when there is none |
| Automation.FindByFirst | server.js:1379 | `find` yields the first entry with that id, the one `findIndex` gives |
| Automation.FindUpsert | server.js:1281-1291 | after saving, looking up the saved id yields the saved entry and any other id is unaffected |
| Automation.FindRemove | server.js:1294-1299 | after deleting, the deleted id is gone and any other id is unaffected |
| Automation.SetupScheduleCron | server.js:1393-1412 | an enabled schedule (re)registers its task under its id; a disabled one changes nothing |
| Automation.SetupAutomationCron | server.js:1415-1440 | an enabled time automation (re)registers its daily task; any other changes nothing |
| Automation.SetupScheduleCronFixed | server.js:1393-1412 | corrected: the registry holds exactly the schedule's task (none when disabled), other ids unchanged |
| Automation.SetupAutomationCronFixed | server.js:1415-1440 | corrected: the registry holds exactly the automation's task, other ids unchanged |
| Automation.PostScene | server.js:1281-1291 | the scene is stored under its id; rules, schedules and tasks are untouched |
| Automation.DeleteScene | server.js:1294-1299 | the scene is gone; nothing else changes |
| Automation.PostSchedule | server.js:1360-1374 | the schedule is stored and its cron task set up as written |
| Automation.PostRule | server.js:1322-1336 | the automation is stored and its cron task set up as written |
| Automation.PostScheduleFixed | server.js:1360-1374 | corrected: after the save the registry holds exactly the task the stored schedule calls for |
| Automation.PostRuleFixed | server.js:1322-1336 | corrected: after the save the registry holds exactly the task the stored automation calls for |
| Automation.DeleteSchedule | server.js:1377-1390 | the schedule is gone; its task is stopped when it existed; without the schedule the registry is untouched |
| Automation.DeleteRule | server.js:1339-1352 | the automation is gone; its task is stopped when it existed; without it the registry is untouched |
| Automation.DisabledScheduleKeepsTask | server.js:1393-1394 | saving a running schedule as disabled leaves its old task registered, so the registry no longer matches the stored schedules |
| Automation.DisabledRuleKeepsTask | server.js:1415-1416 | the same for a time automation |
| Automation.PostScheduleFixedConsistent | server.js:1360-1374 | the corrected save keeps the registry in step with the stored schedules and automations |
| Automation.PostRuleFixedConsistent | server.js:1322-1336 | the same for automations |
| Automation.DeleteScheduleConsistent | server.js:1377-1390 | deleting a schedule keeps the registry in step |
| Automation.DeleteRuleConsistent | server.js:1339-1352 | deleting an automation keeps the registry in step |
| Automation.SetupAllKeys | server.js:1475-1487 | at start-up an id ends up registered iff it was already, or it is an enabled schedule, or an enabled time automation |
| StateDiff.ReadingEvent | server.js:644-666 | a reading is logged exactly when the snapshot reports that attribute, with its value, the device and the time |
| StateDiff.Readings | server.js:643-667 | at most the temperature, humidity and power readings of the device, stamped now; none without a `main` component |
| StateDiff.Triggered | server.js:681-719 | at most one command per automation |
| StateDiff.TriggeredMembers | server.js:681-719 | a command is sent exactly for the automations that fire on this device, each one its automation's action |
| StateDiff.FiringIndices | server.js:681-719 | the positions of the automations that fire, strictly ascending, each one in range and firing, and every firing position listed |
| StateDiff.TriggeredAppend | server.js:681 | the commands for a list of automations are those for its first part followed by those for the rest |
| StateDiff.TriggeredInOrder | server.js:681-719 | one command per firing automation, in list order: the j-th command is the action of the j-th automation that fires |
| StateDiff.NullThenMissingFires | server.js:699-719 | `null !== undefined`: a switch reported as `null` and then missing from the next snapshot counts as a change, so a device automation on it whose condition holds fires |
| StateDiff.ProcessOne | server.js:633-723 | an unlisted id is forgotten and produces nothing; a listed one stores its current snapshot as the previous one, raises the door alert exactly when away mode is on and the contact turned `open` from a truthy earlier value, and sends the command of every enabled device/sensor automation on it whose watched value changed between two non-null snapshots (a missing attribute and a `null` one count as different) and whose condition holds; no other id changes |
| StateDiff.ProcessAll | server.js:632-724 | the ids are processed in order; ids outside the list keep their previous snapshots |
| StateDiff.ProcessAllKeeps | server.js:633-722 | after a pass every processed listed device's previous snapshot is its current one, and every processed unlisted id is forgotten |
| StateDiff.CommandsNeedChange | server.js:681-719 | only a change triggers: each command comes from an enabled automation on this device, with a previous snapshot, whose watched switch, contact or temperature value differs between the two snapshots |
| StateDiff.NoRefire | server.js:681-722 | running the same snapshots a second time fires nothing and raises no alert |
| StateDiff.NothingChanged | server.js:695-715 | with equal snapshots no automation fires |
| StateDiff.NoSnapshotNothingFires | server.js:692-694 | with no current snapshot no automation fires |
| StateDiff.BackFromNull | server.js:669-696 | a device with no previous snapshot (new, or offline last time) fires nothing and raises no alert |
| StateDiff.NoAlertAtHome | server.js:669 | away mode off means no door alert, whatever the doors do |
| StateDiff.ReadingsLogged | server.js:643-667 | the readings logged for a listed device are exactly the attributes its snapshot reports |
| Offline.HealthState | server.js:1577-1580 | the health word is `state`, else `deviceHealth`, else `status`, the first truthy one; only when none is truthy is the nested `device` object read the same way |
| Offline.NoWordNotOffline | server.js:1565-1585 | a device with no health report, or whose report names no string word, is not offline |
| Offline.TopLevelStateDecides | server.js:1577-1584 | a non-empty top-level `state` string alone decides: offline iff it reads OFFLINE or UNKNOWN in any case |
| Offline.NestedStateDecides | server.js:1578-1584 | without top-level words a nested `device.state` string decides the same way |
| Offline.SubType | server.js:1600-1613 | the sub-type follows the first matching keyword group, in the order light, outlet, fan, sensor, and is `other` when none matches |
| Offline.GroupOf | server.js:1589-1614 | TVs go first, then temperature sensors, then everything else |
| Offline.OfflineReport | server.js:1550-1625 | every line is a listed device (offline, not hidden), in the group its stored type picks; the total is the number of lines and at most the number of devices |
| Offline.OfflineReportComplete | server.js:1556-1615 | every offline device that is not hidden is reported, in its group |
| Offline.Hide | server.js:1628-1646 | a missing or empty id is refused with 400; otherwise the id is hidden, added only when new |
| Offline.FirstIndex | server.js:1655 | `indexOf` finds the first position of the id, and fails only when it is absent |
| Offline.Show | server.js:1648-1666 | a missing or empty id is refused with 400; otherwise one occurrence is removed, if any, and every other id keeps its membership |
| Offline.HideShowRoundTrip | server.js:1628-1666 | hiding a device then showing it restores the list exactly |
| Offline.HideIdempotent | server.js:1633-1638 | hiding twice is hiding once |
| Offline.HiddenNotReported | server.js:1559-1561 | a hidden device never appears in the offline report |
| Hub.Without | server.js:503 | deleting ids from the priority set keeps exactly the others, still without duplicates |
| Hub.Purge | server.js:494-504 | the state, previous state, health, type and last-seen entries of a device that left the directory go, as its priority mark does; the entries of listed devices stay; types of ids without a state are not touched |
| Hub.EnrichAll | server.js:509-518 | after the loop every listed device has a type and no entry is removed |
| Hub.EnrichAllKeeps | server.js:509-518 | without force a known type survives; the type of an unlisted id always does |
| Hub.EnrichAllComputes | server.js:509-518 | a listed device without a type, or any listed device on a forced run, gets the type its label and capability evidence give |
| Hub.LoadDevices | server.js:475-532 | on a successful call whose body reads, the directory is the reply, the queue holds its ids, departed devices are purged and every device has a type, with the capability stamp set on a forced run; on failure, an unreadable body included, the directory and queue are emptied and nothing else is touched |
| Hub.FetchHealth | server.js:535-559 | the health report, `null` included, is stored only when the call succeeds and its body parses; a failed call or a 2xx body that does not parse leaves the stored report unchanged; nothing but the report and the cooldown changes |
| Hub.FetchStatus | server.js:561-607 | a failed call, and a 2xx reply whose body does not parse or is `null`, records the device as null and changes no type or last-seen time; a successful readable one stamps it as seen at the time the call returned and stores the body's `components` (null when it has none, with no type) and its type, except that a listed device without a label whose body has `main` is stored as null with no type; other devices, the directory, queue, history, previous snapshots, health and timers are untouched |
| Hub.ComponentlessBodyFiresNothing | server.js:583-586 | a readable status body without `components` stamps the device as seen but leaves it without a snapshot, so the diff right after fires nothing, raises no alert and keeps null as the previous snapshot |
| Hub.FetchStatusFixed | server.js:561-607 | corrected: on a successful readable reply the snapshot itself is stored and the type recomputed from it, whatever the label |
| Hub.UnlabelledDeviceLosesStatus | server.js:585-597 | a listed device without a label that answers its status call is still stored as null, yet stamped as just seen; the corrected fetch stores the snapshot |
| Hub.RefreshStatuses | server.js:609-630 | the refreshed ids are exactly the requested ids of listed devices; each now has an entry; the snapshot, type, last-seen and health entries of every other id are untouched; without health calls no health entry changes; a pass ending outside the cooldown started outside it |
| Hub.RefreshedEntries | server.js:561-630 | each refreshed entry is null or the body of the device's status reply; it is null without a token, without a 2xx fetch, with an unreadable body, or for a listed device without a label whose body has `main`; when no call of the pass was refused by the cooldown, a first 2xx fetch with a readable body stores the body |
| Hub.ControlDevice | server.js:726-826 | a command bypasses the auth cooldown; its outcome is the reply classified; only an accepted command logs a device-control event and marks its (non-empty) id for the next light pass; the cooldown deadline is the one the call leaves; the directory, snapshots, previous snapshots, last-seen times, types, health and timers are untouched |
| Hub.CommandAuthFailureBlocksReads | server.js:752-758 | a command answered 401/403 is rejected with that status, and it blocks every cooldown-honouring call of the next 15 minutes |
| Hub.PlanRefresh | server.js:990-1031 | a heavy pass is skipped only while one is running, a light pass while either is; a light pass turns into a heavy one for an empty directory or one overdue by 1.5 heavy intervals; capabilities are refreshed when forced or after 24 hours |
| Hub.Settle | server.js:1040-1044 | after the diff each refreshed listed device's previous snapshot is its current one; the history stays bounded; no alerts when at home |
| Hub.LightRefresh | server.js:1033-1044 | a light pass refreshes at most six ids, all queued and listed, and leaves the directory alone |
| Hub.HeavyRefresh | server.js:990-1023 | a heavy pass stamps its time; with the directory loaded (a successful call with a readable body) it refreshes every listed device, and without it nothing |
| Hub.ListedAllRefreshed | server.js:1004-1005 | refreshing the whole directory reaches every listed device |
| Hub.RefreshAll | server.js:990-1051 | a skipped refresh changes nothing; a heavy pass stamps the time; a light pass refreshes at most six devices; the store's invariant is kept |
| DeviceState.LabelOr | server.js:517 | `label \|\| fallback`: the label when non-empty, the fallback otherwise |
| DeviceState.FindDevice | server.js:634 | `find` yields a device with that id, and fails only when none is listed |
| DeviceState.FindDeviceFirst | server.js:634 | `find` yields the first listed device with that id |
| DeviceState.InIdsOf | server.js:1004 | an id is among the directory's ids iff `find` locates its device |
| DeviceState.JsonOr | server.js:1577 | `a \|\| b` on JSON values: `a` when truthy, `b` otherwise |
| Weather.Pause | js/weather.js:29-32 | the reason joins the set; an omitted reason is `manual`, an explicit `null` is its own reason |
| Weather.Resume | js/weather.js:34-41 | `null` clears every reason; otherwise only the given reason (`manual` when omitted) leaves |
| Weather.PauseIdempotent | js/weather.js:12-32 | after any pause the animation is paused, and pausing the same reason twice is pausing once |
| Weather.ResumeKeepsOthers | js/weather.js:34-41 | resuming one reason keeps the others, so the animation stays paused |
| Weather.PauseResumeRoundTrip | js/weather.js:29-41 | resuming the reason a pause added restores the set |
| Weather.ResumeNullUnpauses | js/weather.js:35-36 | `resume(null)` unpauses whatever paused it |
| Weather.RainLevel | js/weather.js:64-73 | level 3 exactly for a storm icon or a heavy/shower/thunderstorm description, 1 exactly for a light/drizzle one otherwise, 2 in all other cases |
| Weather.AutoAnimation | js/weather.js:54-98 | snow in the main group always gives snow at level 2; a rainy main group gives rain at the rain level; sunlight exactly for icon 01d/02d between 06 and 11 o'clock with a clear/sun group or none; without a group a snow icon (13d/13n or one naming snow) gives snow, a storm icon heavy rain, and icon 10d/10n rain at level 2; every level is 1-3 and only rain varies it |
| Weather.Update | js/weather.js:54-106 | the applied pair becomes the chosen one, and the animation is rebuilt exactly when the pair changed |
| Weather.UpdateTwiceRedrawsOnce | js/weather.js:100-105 | the same forecast twice in a row never rebuilds the second time |
| Weather.LevelName | js/weather.js:132-135 | levels 0-3 index the name list, 1-3 to a non-empty name; other levels are `undefined` |
| Weather.CountsGrowWithLevel | js/weather.js:132-163 | a heavier level draws strictly more snowflakes and raindrops, and has a different name |
| Notifications.Check | js/notifications.js:52-73 | the temperature warning is shown iff it applies, the dry-air warning iff it applies, nothing else, and the temperature warning first when both apply |
| Notifications.TemperatureAlertIff | js/notifications.js:53-63 | the temperature warning holds iff there are at least three readings and each of the last three is strictly below the one before |
| Notifications.ShortHistoryNoTemperatureAlert | js/notifications.js:53-54 | no history, or fewer than three readings, means no temperature warning |
| Notifications.EqualPairBlocks | js/notifications.js:56-59 | two equal readings at the end block the temperature warning |
| Notifications.OnlyLastThree | js/notifications.js:55 | readings before the last three never change the temperature warning |
| Notifications.HumidityThreshold | js/notifications.js:66-71 | a numeric last reading warns iff it is below 35, so exactly 35 does not; a `null` reading compares as 0 and warns |
| Indicators.Elapsed | js/indicators.js:217-237 | a missing or zero timestamp is unknown; under one minute (or in the future) is "just now"; otherwise the count is the floor-divided elapsed time in the largest unit that reaches one, and positive |
| Indicators.FormatRelativeTime | js/indicators.js:217-238 | the text for each case, with the count followed by its unit word and "назад" |
| Indicators.FutureIsJustNow | js/indicators.js:222-236 | a timestamp in the future reads "только что" |
| Indicators.ClassOf | js/indicators.js:185-192 | high above 50, medium above 20 up to 50, low otherwise; the three are exclusive |
| Indicators.ClassMonotone | js/indicators.js:185-192 | a fuller battery never gets a lower class |
| Indicators.RenderBattery | js/indicators.js:176-210 | the text is the level with "%", the class is the level's class, the fill is between 0 and 12 wide and full from 100 %, the fill is drawn exactly when it has a width, and the tooltip says charging or level followed by the text |
| Indicators.FillWidthMonotone | js/indicators.js:196-197 | a fuller battery never draws a narrower fill |
| Indicators.BadgeVisible | js/indicators.js:270-278 | the badge is visible iff the report arrived with a positive total |
| Indicators.BadgeIffSomeOffline | js/indicators.js:270-278 | the badge shows exactly when some device is offline and not hidden |
| Voice.FirstMatch | js/voice.js:433-434 | the first command in list order whose lower-cased phrase occurs in the transcript; none only when no command matches |
| Voice.Process | js/voice.js:432-446 | no match changes nothing; a match remembers that command's device and sends its action only when it is `on` or `off` |
| Voice.OnResult | js/voice.js:30-34 | the transcript is lower-cased before matching, and only `on`/`off` is ever sent |
| Voice.ShadowedNeverWins | js/voice.js:433-445 | a command whose phrase contains an earlier command's phrase never wins |
| Voice.EmptyPhraseMatchesAll | js/voice.js:434 | a command with an empty phrase matches every transcript |
| Voice.StartAt | js/voice.js:245-260 | start is refused when either time does not split into two parts; otherwise listening iff the current minute lies in the window, ends included |
| Voice.NoWrapAround | js/voice.js:257-260 | a window that ends before it starts never listens |
| Voice.TimeInputMinutes | js/voice.js:249-258 | a `HH:MM` input reads back as its minute of the day |
| Voice.WindowOfTimeInputs | js/voice.js:245-260 | between two time inputs, listening holds exactly on the minutes from start to end |
| Voice.AddCommand | js/voice.js:512-534 | a blank phrase is refused; otherwise the trimmed command is appended and the earlier ones kept |
| Voice.DeleteAt | js/voice.js:552-554 | `splice(index, 1)`: removes exactly the entry at an index in range, counts a negative index from the end, and ignores an index past the end |
| Voice.AddDeleteRoundTrip | js/voice.js:512-554 | deleting the command just added restores the list |
| Voice.AddedCommandHeard | js/voice.js:512-534 | a new command is heard on its own phrase unless an earlier command already matches it |
| Widgets.VisibleDevices | js/widgets.js:22-35 | exactly the devices whose label lacks `outlet` and that are not hidden, in order |
| Widgets.RenderGroup | js/widgets.js:52-73 | lighting exactly for light capabilities or a switch with a light word; security exactly for contact, lock or presence when no lighting or energy rule applies; energy without a switch only from a power meter or an energy word |
| Widgets.GroupsAgree | js/widgets.js:510-527 | for a device with a switch the group `turnOffGroup` computes is the group the widget is drawn in |
| Widgets.DashSpaces | js/widgets.js:82 | text without white space is left alone |
| Widgets.NameIdRoundTrip | js/widgets.js:495-497 | a one-word capitalised name survives the trip to an id and back |
| Widgets.GroupIdRoundTrip | js/widgets.js:495-497 | each of the four group names is recovered from its id |
| Widgets.Members | js/widgets.js:44-76 | the devices drawn under a group: visible, with a `main` snapshot, and classified into that group |
| Widgets.TurnOffGroup | js/widgets.js:494-532 | every id sent `off` belongs to a visible device with a switch that is `on`, classified into the group the id names; at most one per device |
| Widgets.GroupNameInjective | js/widgets.js:37-42 | distinct groups have distinct names |
| Widgets.TurnOffDrawnGroup | js/widgets.js:494-532 | a group's button turns off exactly the drawn members of that group whose switch is on |
| Widgets.FirstPresent | js/widgets.js:104-224 | the first kind in order whose capability the snapshot has; none only when it has none |
| Widgets.KindPrecedence | js/widgets.js:104-224 | the widget kind follows lock, then contact, then temperature, then switch, then humidity |
| Scenes.BuiltInCommands | js/scenes.js:42-63 | every command goes to a listed device with a switch and is the one the scene gives its label; every such device with a command gets it |
| Scenes.ExecuteScene | js/scenes.js:41-71 | the four built-in ids run in the browser and send exactly the scene's command to every listed switch device its label selects; any other id is sent to the server only when found locally and the socket is connected |
| Scenes.NightAndWake | js/scenes.js:42-63 | `night` turns off every device with a switch and only turns off; `wake` sends nothing |
| Scenes.HomeAwayLights | js/scenes.js:49-61 | a lamp or light with a switch is turned on by `home` and off by `away`; `home` only turns on and `away` only off |
| Scenes.DayName | js/scenes.js:104-109 | defined exactly for days 1-7 |
| Scenes.DayNamesDistinct | js/scenes.js:104-109 | distinct days have distinct names, from Пн to Вс |
| Scenes.NewSchedule | js/scenes.js:369-409 | a blank name, an empty time or no days is refused, in that order, and otherwise the schedule is always created: enabled, with capability `switch`, the chosen time, days, device and action, keyed by the clock |
| Scenes.NewScheduleCron | js/scenes.js:369-409 | a schedule made from a time input runs at that minute and hour on its days |
| Scenes.NewAutomation | js/scenes.js:546-617 | a blank name, a time rule without time, a sensor without a snapshot, or a temperature rule without a number is refused, each exactly in its case, and otherwise the automation is created; it is enabled, keyed by the clock and switches the chosen device; a device condition waits for the chosen device's chosen state, a contact condition for the sensor's chosen state, a temperature condition compares the sensor with the entered number, and anything else keeps the empty condition |
| Scenes.NewDeviceRuleHolds | js/scenes.js:567-572 | a device automation made by the form holds exactly when the chosen device's switch reports the chosen state, or the device has no switch |
| Scenes.NewTemperatureRuleHolds | js/scenes.js:586-600 | a temperature automation holds exactly when the sensor's reading is strictly past the threshold in the chosen direction |
| Scenes.NewTimeRuleCron | js/scenes.js:556-566 | a time automation made from a time input runs daily at that hour and minute |
| Scenes.ToggleSchedule | js/scenes.js:185-200 | the stored schedule is posted back with only the flag changed; an unknown id posts nothing |
| Scenes.ToggleAutomation | js/scenes.js:213-228 | the same for automations |
| Scenes.ToggleOffKeepsScheduleRunning | js/scenes.js:185-200 | switching a running schedule off from the dashboard leaves its cron task live |
| Scenes.ToggleOffStopsScheduleFixed | js/scenes.js:185-200 | with the corrected route, switching a schedule off stops its task |
| Scenes.ToggleOffKeepsAutomationRunning | js/scenes.js:213-228 | switching a running time automation off leaves its task live |
| Settings.Flatten | js/settings.js:118-119 | an interface is in the flattened list iff some adapter has it |
| Settings.FirstExternal4 | js/settings.js:119 | the first IPv4 interface that is not internal; none only when there is none |
| Settings.IpAddress | js/settings.js:117-125 | the address of that interface, and "Не определен" without the data or the interface |
| Settings.NoExternalUnknown | js/settings.js:117-125 | no external IPv4 interface on any adapter means "Не определен" |
| Settings.JsRem | js/settings.js:129-130 | JavaScript's `%` agrees with the mathematical remainder for a non-negative dividend |
| Settings.SplitUptime | js/settings.js:127-131 | for a non-negative uptime, hours·3600 + minutes·60 + seconds is its floor, with minutes and seconds below 60 |
| Settings.OrDefault | js/settings.js:144-148 | the value when present and non-empty, the default otherwise |
| Settings.RenderSystemInfo | js/settings.js:117-148 | the address, uptime, version (`1.0.0` by default) and Node version (`N/A` by default) shown |
| Settings.CalibrationBody | js/settings.js:252-257 | one device, the `tempOffset` key iff the type is `temp` (else `humidityOffset`), and the parsed number or 0 |
| Settings.MergeCalibration | server.js:1261-1265 | each posted device takes the posted offsets over its stored ones (both 0 for a new device); other devices keep theirs |
| Settings.CalibrationReadBack | server.js:1253-1267 | after a calibration change the changed offset reads back as the entered number or 0, the device's other offset is unchanged (0 when new), and no other device changes |
| Settings.ScreenSleepMinutes | js/settings.js:166-167 | never 0; 10 for a missing, unparsable or zero input, the parsed value otherwise |
| Settings.ScreenSleepReadsBack | js/settings.js:166-167 | a positive number typed in is kept |
| Statistics.SortNewestFirst | js/statistics.js:236-237 | the sorted copy is newest first and a permutation of the log |
| Statistics.SortKeepsOrderWithinTime | js/statistics.js:236-237 | the sort is stable: events of one time keep their order, which with the two facts above fixes the result |
| Statistics.Shown | js/statistics.js:236-238 | at most fifty events, newest first, all from the log |
| Statistics.ShownAreNewest | js/statistics.js:236-238 | every event left off is no newer than any listed one |
| Statistics.ShortListComplete | js/statistics.js:236-238 | fifty events or fewer are all listed |
| Statistics.CommandText | js/statistics.js:257 | `on` and `off` become включено and выключено; anything else is shown as it is |
| Statistics.DeviceName | js/statistics.js:247-254 | the custom name, else the label, else the id, for a listed device; the id for any other |
| Statistics.UnknownDeviceShowsId | js/statistics.js:247-254 | a device not in the current list shows its id whatever the settings say |
| Statistics.UnlabelledDeviceShowsId | js/statistics.js:247-254 | a listed device with neither custom name nor label shows its id |
| Statistics.LineOf | js/statistics.js:246-265 | the line's kind follows the event's type, carrying its name and command text or its value; any other type is shown raw |
| Statistics.RenderEvents | js/statistics.js:226-270 | an empty log shows "Нет событий"; otherwise one line per shown event, in order |
| Statistics.NonEmptyLogListed | js/statistics.js:231-238 | a non-empty log lists between one and fifty lines |
| Text.Lower | js/voice.js:32 | `toLowerCase`: same length, each letter mapped to its lower case |
| Text.LowerIdempotent | js/voice.js:434 | lower-casing twice is lower-casing once |
| Text.TrimEmptyIff | js/voice.js:517-518 | `trim()` leaves nothing exactly when the text is all white space |
| Text.Split | js/voice.js:249-250 | `split` never returns an empty list, and no part holds the separator |
| Text.SplitJoin | server.js:1397 | splitting a joined list gives it back when no part holds the separator |
| Text.SplitTime | js/voice.js:249-250 | an `HH:MM` time input splits into its two fields |
| Text.ParseIntNatToString | js/settings.js:167 | `parseInt` reads a printed number back |
| Text.JsNumberPad2 | server.js:1396 | `Number` reads a two-digit time field back |
| Text.DigitsValueNatToString | server.js:1397 | reading a printed numeral back gives the number |
| Arith.FloorDivDiv | js/indicators.js:222-225 | flooring twice equals flooring once by the product, so minutes, hours and days are whole units of the elapsed time |

## Left out

- I/O is not modelled. Every HTTP reply, file load or save, socket emit and DOM update is an argument or is left out; the HTML the pages build is reduced to what it selects or shows.
- Timers are not modelled: the 200 ms delay between calls, the 10 s abort timeout, the intervals and the 1.5 s refresh after a command. The busy flags are kept as sequential guards in `Hub.PlanRefresh`.
- Async interleaving is not modelled. Each operation runs to completion, which is how a single Node event loop runs code between awaits.
- The clock is one parameter per operation, not `Date.now()` read at each step. The exception is a request's own retries, which advance it by the waits (`Hub.CallEnd`).
- The cron library's matching is not modelled; only the pattern strings and the task registry are.
- Weather and forecast refresh (server.js:881-935), chart hourly averages, brightness and colour conversion are left out, because they are floating-point formatting. `utils.js` is not part of this model.
- Timestamps are whole milliseconds, ISO dates included.
- Day checkboxes carry integers. The browser reads them with `parseInt`, which is not modelled.
- `toLocaleString`, and the formatting of values on the statistics lines, are left out. A line keeps the raw value.
- Text.Lower: lower-cases Latin and Cyrillic letters only, which are the alphabets the labels and keywords use. The full Unicode case mapping is not modelled.
- Text.JsNumber: reads only trimmed runs of decimal digits. Signs, decimals, exponents and hex are read as NaN. This is enough for the time and day fields the server turns into numbers.
- Settings.CalibrationBody: takes `parseFloat`'s result as `Option<real>`, with `None` for NaN. Parsing decimal text is not modelled.
- Indicators.RenderBattery: takes the rounded percentage as its input. `Math.round(battery.level * 100)` on the browser's fractional level is not modelled.
- Automation.CheckConditions: reads a string temperature or threshold as NaN, so the comparison is false. JavaScript would convert a numeric string, and compare two strings by code units; neither is modelled. An absent threshold is `undefined`; a stored `null` threshold, which would read as 0, is not distinguished from it.
- Notifications.Check: treats a string reading as NaN. `<` on a numeric string would convert it, which is not modelled.
- A missing attribute that JavaScript would throw a TypeError on is modelled as `undefined`. This covers `temperature.value` on a temperature capability without that attribute, and `device.label.toLowerCase()` on a label-less device outside `Hub.FetchStatus`. In `Hub.FetchStatus` the thrown error decides the outcome, and every refresh pass goes through it as written. In the automation form, `status.main` of a sensor without a snapshot throws and nothing is saved; `Scenes.NewAutomation` refuses it with `NoSensorState`.
- A time automation whose value is not a string gets no cron task in the model. The server would throw a TypeError in `split(':')` instead.
- Automation.PostRuleFixedConsistent, Automation.DeleteScheduleConsistent and Automation.DeleteRuleConsistent: assume schedules and automations never share an id. The server keeps one registry for both, so a shared id would let one overwrite the other's task. Ids are clock readings, so that does not happen in practice.
- Offline.HealthState: reads JSON objects, strings and scalars; arrays in a health report are not modelled.
- Classify.Enrich: the detail request is passed in as a reply. Its effect on the auth cooldown is not modelled.
- `null` and `undefined` snapshots are both read as "no snapshot". The server treats them alike in every branch modelled here. For an attribute, `DeviceState.Attr` also reads `null` and missing alike, which holds for every truthiness and `=== 'open'` test; the watched-value comparison `!==` of the automations tells them apart through `DeviceState.Observe`.
- "The input array is not mutated" holds by construction, because every operation is a pure function.
- Scene creation in the dashboard (`saveScene`) is not modelled. Only `executeScene` and the server's scene routes are.

## Findings

| source | as written | input that shows it | evidently intended | confidence | as-written member | corrected member |
|---|---|---|---|---|---|---|
| server.js:1393-1394 | saving a schedule with `enabled: false` returns from the cron setup before the old task is stopped; the automation setup does the same at line 1416, and the dashboard's toggles save exactly such entries | a running schedule toggled off from the dashboard: its task stays registered and keeps firing | disabling stops the task, so the registry matches the stored enabled entries | high, not executed | Automation.DisabledScheduleKeepsTask, Automation.DisabledRuleKeepsTask, Scenes.ToggleOffKeepsScheduleRunning, Scenes.ToggleOffKeepsAutomationRunning | Automation.PostScheduleFixed, Automation.PostRuleFixed, Automation.PostScheduleFixedConsistent, Automation.PostRuleFixedConsistent, Scenes.ToggleOffStopsScheduleFixed |
| server.js:585-597 | `device.label.toLowerCase()` throws for a listed device without a label, after the snapshot and last-seen time were stored; the catch then overwrites the snapshot with `null` | a device with no `label` whose status call returns 200 with a `main` component | the label is read as `device.label \|\| ''`, as the enrichment does, and the snapshot is kept | medium, not executed | Hub.FetchStatus, Hub.UnlabelledDeviceLosesStatus, Hub.RefreshedEntries | Hub.FetchStatusFixed |

=== FILE: api_client.dfy ===
/**
 * The remote-call policy of the cloud API client: the authorisation
 * cooldown, the bounded retry of throttled or failing calls, and the
 * retry-after hint of a throttled device command (status 429, "Too Many
 * Requests", section 4 of RFC 6585).
 *
 * Every fetch the client would make is an input: `replies[i]` is what the
 * i-th fetch of one call yields. The clock advances only by the waits the
 * client sleeps between attempts.
 */
module ApiClient {
  import opened Optional
  import opened Text

  const MaxRetries: nat := 2
  const AuthCooldownMs: int := 15 * 60 * 1000
  const RetryStepMs: nat := 1500
  const DefaultRetryAfterMs: nat := 30000

  /** What one fetch yields: an HTTP status, or a thrown network error. */
  datatype Fetch = Status(code: int) | Thrown

  datatype Outcome =
    | NoToken                                              // no access token configured
    | Blocked(waitSec: int)                                // refused inside the cooldown
    | Responded(code: int, fetches: nat, waits: seq<nat>)  // the last response
    | NetworkError(fetches: nat, waits: seq<nat>)          // a fetch threw

  /** The outcome of one call and the cooldown deadline afterwards. */
  datatype Call = Call(outcome: Outcome, blockedUntil: int)

  predicate IsAuthFailure(code: int) {
    code == 401 || code == 403
  }

  /** Statuses that are retried: throttling and server errors. */
  predicate Retryable(code: int) {
    code == 429 || code >= 500
  }

  predicate Ok(code: int) {
    200 <= code <= 299
  }

  /** `Math.ceil(ms / 1000)` for a positive duration. */
  function CeilSeconds(ms: int): (s: int)
    requires ms > 0
    ensures s > 0 && (s - 1) * 1000 < ms <= s * 1000
  {
    (ms + 999) / 1000
  }

  /** `canCallSmartThings`. */
  predicate CanCall(now: int, blockedUntil: int) {
    now >= blockedUntil
  }

  /** The wait before attempt `a + 1`: `(a + 1) * 1500` ms. */
  function Backoff(a: nat): nat {
    (a + 1) * RetryStepMs
  }

  function Sum(xs: seq<nat>): nat {
    if |xs| == 0 then 0 else Sum(xs[..|xs| - 1]) + xs[|xs| - 1]
  }

  /** The backoff schedule of the first `a` retries. */
  function Backoffs(a: nat): (ws: seq<nat>)
    ensures |ws| == a
    ensures forall i :: 0 <= i < a ==> ws[i] == Backoff(i)
  {
    seq(a, i requires 0 <= i < a => Backoff(i))
  }

  /** Total wait before attempt `a`. */
  function Elapsed(a: nat): nat {
    if a == 0 then 0 else Elapsed(a - 1) + Backoff(a - 1)
  }

  /** The waits recorded by a call add up to the time slept. */
  lemma {:induction false} SumBackoffs(a: nat)
    ensures Sum(Backoffs(a)) == Elapsed(a)
  {
    if a > 0 {
      assert Backoffs(a)[..a - 1] == Backoffs(a - 1);
      SumBackoffs(a - 1);
    }
  }

  /**
   * Attempt number `a` of the fetch loop of a call started at `now`. The
   * contract states the loop without the loop: which attempts happened,
   * what each saw, and what moved the cooldown.
   */
  function Attempt(a: nat, now: int, blockedUntil: int, replies: seq<Fetch>): (c: Call)
    requires a <= MaxRetries
    ensures c.outcome.Responded? || c.outcome.NetworkError?
    ensures a < c.outcome.fetches <= MaxRetries + 1
    ensures c.outcome.waits == Backoffs(c.outcome.fetches - 1)
    // every attempt before the last got a status that is retried
    ensures forall i :: a <= i < c.outcome.fetches - 1
              ==> i < |replies| && replies[i].Status? && Retryable(replies[i].code)
    // the last attempt's status is the one returned, or that fetch threw
    ensures c.outcome.Responded? ==> (c.outcome.fetches - 1 < |replies|
              && replies[c.outcome.fetches - 1] == Status(c.outcome.code))
    ensures c.outcome.NetworkError? ==> (c.outcome.fetches - 1 >= |replies|
              || replies[c.outcome.fetches - 1].Thrown?)
    // the loop ends before the retry budget only on a status that is not retried
    ensures c.outcome.Responded? && c.outcome.fetches <= MaxRetries ==> !Retryable(c.outcome.code)
    // an authorisation failure ends the loop and starts the cooldown; nothing else moves it
    ensures (c.outcome.Responded? && IsAuthFailure(c.outcome.code))
              ==> c.blockedUntil == now + Elapsed(c.outcome.fetches - 1) + AuthCooldownMs
    ensures !(c.outcome.Responded? && IsAuthFailure(c.outcome.code)) ==> c.blockedUntil == blockedUntil
    decreases MaxRetries - a
  {
    if a >= |replies| || replies[a].Thrown? then Call(NetworkError(a + 1, Backoffs(a)), blockedUntil)
    else
      var code := replies[a].code;
      if IsAuthFailure(code) then Call(Responded(code, a + 1, Backoffs(a)), now + Elapsed(a) + AuthCooldownMs)
      else if !Retryable(code) then Call(Responded(code, a + 1, Backoffs(a)), blockedUntil)
      else if a < MaxRetries then Attempt(a + 1, now, blockedUntil, replies)
      else Call(Responded(code, a + 1, Backoffs(a)), blockedUntil)
  }

  /**
   * `smartThingsRequest`: refuse without a token, refuse inside the cooldown
   * when the caller allows the cooldown, and otherwise fetch, retrying a
   * throttled or failing call up to twice.
   */
  function Request(now: int, blockedUntil: int, allowCooldown: bool, hasToken: bool, replies: seq<Fetch>): (c: Call)
    ensures !hasToken ==> c == Call(NoToken, blockedUntil)
    ensures hasToken && allowCooldown && !CanCall(now, blockedUntil)
            ==> c == Call(Blocked(CeilSeconds(blockedUntil - now)), blockedUntil)
    // otherwise the call goes out: at least one fetch and at most three
    ensures hasToken && (!allowCooldown || CanCall(now, blockedUntil))
            ==> (c.outcome.Responded? || c.outcome.NetworkError?) && 1 <= c.outcome.fetches <= 3
    // a first reply that is not retried is returned after that single fetch
    ensures hasToken && (!allowCooldown || CanCall(now, blockedUntil))
            && |replies| > 0 && replies[0].Status? && !Retryable(replies[0].code)
            ==> c.outcome == Responded(replies[0].code, 1, [])
    // an authorisation failure blocks for fifteen minutes from the moment it was seen
    ensures c.outcome.Responded? && IsAuthFailure(c.outcome.code)
            ==> c.blockedUntil == now + Sum(c.outcome.waits) + AuthCooldownMs
    ensures !(c.outcome.Responded? && IsAuthFailure(c.outcome.code)) ==> c.blockedUntil == blockedUntil
  {
    if !hasToken then Call(NoToken, blockedUntil)
    else if allowCooldown && !CanCall(now, blockedUntil) then
      Call(Blocked(CeilSeconds(blockedUntil - now)), blockedUntil)
    else
      var c := Attempt(0, now, blockedUntil, replies);
      SumBackoffs(c.outcome.fetches - 1);
      c
  }

  /**
   * The retry bound: a call whose every fetch is throttled or fails on the
   * server makes exactly three fetches, sleeps 1500 ms then 3000 ms, and
   * returns the third response.
   */
  lemma RetryBudget(now: int, blockedUntil: int, allowCooldown: bool, replies: seq<Fetch>)
    requires !allowCooldown || CanCall(now, blockedUntil)
    requires |replies| >= 3 && forall i :: 0 <= i < 3 ==> replies[i].Status? && Retryable(replies[i].code)
    ensures var c := Request(now, blockedUntil, allowCooldown, true, replies);
      c == Call(Responded(replies[2].code, 3, [1500, 3000]), blockedUntil)
  {
    assert Backoffs(2) == [1500, 3000];
  }

  /**
   * After an authorisation failure, calls that allow the cooldown are refused
   * for fifteen minutes while device commands, which opt out, still go out.
   */
  lemma AuthFailureCooldown(now: int, blockedUntil: int, allowCooldown: bool, replies: seq<Fetch>,
                            later: int, more: seq<Fetch>)
    requires !allowCooldown || CanCall(now, blockedUntil)
    requires |replies| > 0 && replies[0].Status? && IsAuthFailure(replies[0].code)
    requires now <= later < now + AuthCooldownMs
    ensures var c := Request(now, blockedUntil, allowCooldown, true, replies);
      && c.outcome == Responded(replies[0].code, 1, [])
      && Request(later, c.blockedUntil, true, true, more).outcome.Blocked?
      && !Request(later, c.blockedUntil, false, true, more).outcome.Blocked?
  {
  }

  /** Once the cooldown has passed, calls go out again. */
  lemma CooldownExpires(now: int, blockedUntil: int, hasToken: bool, replies: seq<Fetch>)
    requires hasToken && now >= blockedUntil
    ensures !Request(now, blockedUntil, true, hasToken, replies).outcome.Blocked?
  {
  }

  // ---------------------------------------------------------------------
  // The retry-after hint of a throttled command

  const RetryPrefix: string := "retry in "
  const RetrySuffix: string := " millis"

  /** `/retry in (\d+) millis/` anchored at the start of `s`: the captured number. */
  function MatchHere(s: string): (r: Option<nat>)
    ensures r.Some? ==> StartsWith(s, RetryPrefix)
  {
    if !StartsWith(s, RetryPrefix) then None
    else
      var rest := s[|RetryPrefix|..];
      var k := DigitRun(rest);
      if k > 0 && StartsWith(rest[k..], RetrySuffix) then Some(DigitsValue(rest[..k])) else None
  }

  /** The leftmost match of `/retry in (\d+) millis/` in `s`. */
  function FirstRetryMatch(s: string): (r: Option<nat>)
    ensures !Contains(s, RetryPrefix) ==> r.None?
    decreases |s|
  {
    if |s| == 0 then None
    else if MatchHere(s).Some? then MatchHere(s)
    else FirstRetryMatch(s[1..])
  }

  /**
   * The retry-after delay of a 429 reply: the number in the first error
   * detail's message, or 30000 ms when the body has no such message or it
   * does not match.
   */
  function RetryAfterMs(detailMessage: Option<string>): (ms: nat)
    ensures detailMessage.None? ==> ms == DefaultRetryAfterMs
    ensures detailMessage.Some? && !Contains(detailMessage.value, RetryPrefix) ==> ms == DefaultRetryAfterMs
    // with a message: the number of its leftmost match, or the default when no position matches
    ensures detailMessage.Some? ==> var m := detailMessage.value;
      || (ms == DefaultRetryAfterMs && forall i :: 0 <= i < |m| ==> MatchHere(m[i..]).None?)
      || (exists i :: 0 <= i < |m| && MatchHere(m[i..]) == Some(ms) && forall j :: 0 <= j < i ==> MatchHere(m[j..]).None?)
  {
    match detailMessage
    case None => DefaultRetryAfterMs
    case Some(m) =>
      FirstRetryMatchIsLeftmost(m);
      FirstRetryMatch(m).GetOr(DefaultRetryAfterMs)
  }

  /** The suffix after position `i`, one character further along. */
  lemma TailAt(s: string, i: nat)
    requires 0 < i <= |s|
    ensures s[1..][i - 1..] == s[i..]
  {
  }

  /**
   * `FirstRetryMatch` is the leftmost match: it is absent exactly when no
   * position matches, and otherwise it is the match at the first position
   * that has one.
   */
  lemma {:induction false} FirstRetryMatchIsLeftmost(s: string)
    ensures FirstRetryMatch(s).None? <==> forall i :: 0 <= i < |s| ==> MatchHere(s[i..]).None?
    ensures FirstRetryMatch(s).Some? ==> exists i :: (0 <= i < |s| && FirstRetryMatch(s) == MatchHere(s[i..])
              && forall j :: 0 <= j < i ==> MatchHere(s[j..]).None?)
    decreases |s|
  {
    if |s| == 0 {
    } else if MatchHere(s).Some? {
      assert s[0..] == s;
    } else {
      assert s[0..] == s;
      var t := s[1..];
      FirstRetryMatchIsLeftmost(t);
      forall i | 1 <= i < |s| ensures MatchHere(s[i..]) == MatchHere(t[i - 1..]) {
        TailAt(s, i);
      }
      if FirstRetryMatch(t).Some? {
        var i :| 0 <= i < |t| && FirstRetryMatch(t) == MatchHere(t[i..])
                 && forall j :: 0 <= j < i ==> MatchHere(t[j..]).None?;
        assert MatchHere(s[i + 1..]) == MatchHere(t[i..]);
        forall j | 0 <= j < i + 1 ensures MatchHere(s[j..]).None? {
          if j > 0 {
            assert MatchHere(s[j..]) == MatchHere(t[j - 1..]);
          }
        }
      } else {
        forall i | 0 <= i < |s| ensures MatchHere(s[i..]).None? {
          if i > 0 {
            assert MatchHere(s[i..]) == MatchHere(t[i - 1..]);
          }
        }
      }
    }
  }

  /** `retry in ` has no proper prefix that is also a suffix: only its start reads `re`. */
  lemma PrefixHasNoBorder(k: nat)
    requires 0 < k < |RetryPrefix|
    ensures RetryPrefix[k] != 'r' || (k + 1 < |RetryPrefix| && RetryPrefix[k + 1] != 'e')
  {
    assert k == 1 || k == 2 || k == 3 || k == 4 || k == 5 || k == 6 || k == 7 || k == 8;
  }

  /** A match cannot start inside text that does not contain `retry in ` and run into a hint after it. */
  lemma NoMatchBeforeHint(p: string, h: string)
    requires |p| > 0 && StartsWith(h, RetryPrefix) && !Contains(p, RetryPrefix)
    ensures !StartsWith(p + h, RetryPrefix)
  {
    if |p| >= |RetryPrefix| {
      NoMatchInLongText(p, h);
    } else {
      NoMatchAcrossHint(p, h);
    }
  }

  lemma NoMatchInLongText(p: string, h: string)
    requires |p| >= |RetryPrefix| && !StartsWith(p, RetryPrefix)
    ensures !StartsWith(p + h, RetryPrefix)
  {
    assert (p + h)[..|RetryPrefix|] == p[..|RetryPrefix|];
  }

  lemma NoMatchAcrossHint(p: string, h: string)
    requires 0 < |p| < |RetryPrefix| && StartsWith(h, RetryPrefix)
    ensures !StartsWith(p + h, RetryPrefix)
  {
    var m := p + h;
    var k := |p|;
    assert m[k] == h[0] == 'r';
    assert m[k + 1] == h[1] == 'e';
    PrefixHasNoBorder(k);
    if RetryPrefix[k] != 'r' {
      assert m[..|RetryPrefix|][k] != RetryPrefix[k];
    } else {
      assert m[..|RetryPrefix|][k + 1] != RetryPrefix[k + 1];
    }
  }

  /** The match of a message that opens with the hint is the number it carries. */
  lemma MatchHereHint(n: nat, tail: string)
    ensures MatchHere(RetryPrefix + NatToString(n) + RetrySuffix + tail) == Some(n)
  {
    var m := RetryPrefix + NatToString(n) + RetrySuffix + tail;
    var d := NatToString(n);
    assert m[..|RetryPrefix|] == RetryPrefix;
    var rest := m[|RetryPrefix|..];
    assert rest == d + (RetrySuffix + tail);
    DigitRunOfNumeral(d, RetrySuffix + tail);
    assert rest[..|d|] == d;
    assert rest[|d|..] == RetrySuffix + tail;
    assert (RetrySuffix + tail)[..|RetrySuffix|] == RetrySuffix;
    DigitsValueNatToString(n);
  }

  /**
   * A detail message that carries the hint after leading text without
   * `retry in ` (such as "Too many requests, ") yields the number the hint
   * carries, whatever follows it.
   */
  lemma RetryHintRoundTrip(p: string, n: nat, tail: string)
    requires !Contains(p, RetryPrefix)
    ensures RetryAfterMs(Some(p + RetryPrefix + NatToString(n) + RetrySuffix + tail)) == n
  {
    var h := RetryPrefix + NatToString(n) + RetrySuffix + tail;
    MatchHereHint(n, tail);
    assert h[..|RetryPrefix|] == RetryPrefix;
    HintAfterText(p, h, n);
    Regroup(p, RetryPrefix, NatToString(n), RetrySuffix, tail);
  }

  lemma Regroup(p: string, a: string, b: string, c: string, d: string)
    ensures p + a + b + c + d == p + (a + b + c + d)
  {
  }

  /** A message whose first `retry in ` opens a match of `n` yields `n`. */
  lemma HintAfterText(p: string, h: string, n: nat)
    requires !Contains(p, RetryPrefix) && StartsWith(h, RetryPrefix) && MatchHere(h) == Some(n)
    ensures RetryAfterMs(Some(p + h)) == n
  {
    FirstMatchSkipsText(p, h);
  }

  /** The search walks past leading text without `retry in ` to a match that starts at `h`. */
  lemma {:induction false} FirstMatchSkipsText(p: string, h: string)
    requires !Contains(p, RetryPrefix) && StartsWith(h, RetryPrefix)
    ensures FirstRetryMatch(p + h) == FirstRetryMatch(h)
    decreases |p|
  {
    if |p| == 0 {
      assert p + h == h;
    } else {
      NoMatchBeforeHint(p, h);
      assert MatchHere(p + h).None?;
      assert (p + h)[1..] == p[1..] + h;
      FirstMatchSkipsText(p[1..], h);
    }
  }

  /** The seconds reported to the user: `Math.ceil(retryAfter / 1000)`. */
  function RetryAfterSeconds(ms: nat): (s: nat)
    ensures s * 1000 >= ms && (s == 0 || (s - 1) * 1000 < ms)
  {
    (ms + 999) / 1000
  }

  // ---------------------------------------------------------------------
  // A device command

  /** What `controlDevice` reports for the reply of its command call. */
  datatype CommandResult =
    | Accepted
    | Throttled(retrySeconds: nat)
    | Rejected(code: int)
    | Failed

  /**
   * `controlDevice`'s reading of the call: a 2xx reply is accepted when its
   * body reads as JSON (`bodyReadable`: `response.json()` yields a value
   * other than `null`, so `data.results` does not throw); a 429 is reported
   * with its retry-after seconds, any other reply is rejected, and no reply
   * at all, or a 2xx body that does not read, is a failure.
   */
  function CommandOutcome(o: Outcome, detailMessage: Option<string>, bodyReadable: bool): (r: CommandResult)
    ensures r.Accepted? <==> o.Responded? && Ok(o.code) && bodyReadable
    ensures r.Throttled? <==> o.Responded? && o.code == 429
    ensures r.Throttled? ==> r.retrySeconds == RetryAfterSeconds(RetryAfterMs(detailMessage))
    ensures r.Rejected? <==> o.Responded? && !Ok(o.code) && o.code != 429
    ensures r.Rejected? ==> r.code == o.code
    ensures r.Failed? <==> !o.Responded? || (Ok(o.code) && !bodyReadable)
  {
    if !o.Responded? then Failed
    else if Ok(o.code) then (if bodyReadable then Accepted else Failed)
    else if o.code == 429 then Throttled(RetryAfterSeconds(RetryAfterMs(detailMessage)))
    else Rejected(o.code)
  }
}

=== FILE: arith.dfy ===
/**
 * Integer division facts behind the dashboard's time arithmetic. Dafny's
 * `/` and `%` are Euclidean; for the positive divisors used here `/` is
 * JavaScript's `Math.floor(a / b)`.
 */
module Arith {
  /** `Math.floor(Math.floor(a / b) / c)` is `Math.floor(a / (b * c))` for positive divisors. */
  lemma FloorDivDiv(a: int, b: int, c: int)
    requires b > 0 && c > 0
    ensures (a / b) / c == a / (b * c)
  {
    var q := a / b;
    var r := a % b;
    var q2 := q / c;
    var r2 := q % c;
    MulAssoc(b, c, q2, r2, r);
    MulBelow(b, r2, c);
    DivUnique(a, b * c, q2, b * r2 + r);
  }

  /** `b * (c * q + s) + r == (b * c) * q + (b * s + r)`. */
  lemma MulAssoc(b: int, c: int, q: int, s: int, r: int)
    ensures b * (c * q + s) + r == (b * c) * q + (b * s + r)
  {
    assert b * (c * q + s) == b * (c * q) + b * s;
    assert b * (c * q) == (b * c) * q;
  }

  /** A remainder below `c`, scaled by `b`, stays at least `b` below `b * c`. */
  lemma MulBelow(b: int, s: int, c: int)
    requires b > 0 && 0 <= s < c
    ensures 0 <= b * s <= b * c - b
  {
    assert b * c - b == b * (c - 1);
    MulMono(b, s, c - 1);
  }

  lemma MulMono(b: int, x: int, y: int)
    requires b > 0 && 0 <= x <= y
    ensures 0 <= b * x <= b * y
  {
    assert b * y - b * x == b * (y - x);
  }

  /** A quotient is determined by any decomposition with an in-range remainder. */
  lemma DivUnique(a: int, d: int, q: int, r: int)
    requires d > 0 && a == d * q + r && 0 <= r < d
    ensures a / d == q && a % d == r
  {
    var q0 := a / d;
    var r0 := a % d;
    assert d * q0 + r0 == d * q + r;
    if q0 < q {
      assert d * (q - q0) == d * q - d * q0;
      MulMono(d, 1, q - q0);
    } else if q0 > q {
      assert d * (q0 - q) == d * q0 - d * q;
      MulMono(d, 1, q0 - q);
    }
  }

  /** Adding a multiple of `d` does not change the remainder. */
  lemma ModShift(r: int, k: int, d: int)
    requires d > 0
    ensures (d * k + r) % d == r % d
  {
    var q := r / d;
    var m := r % d;
    assert d * k + r == d * (k + q) + m by {
      assert r == d * q + m;
      assert d * k + d * q == d * (k + q);
    }
    DivUnique(d * k + r, d, k + q, m);
  }
}

=== FILE: automation.dfy ===
/**
 * Scenes, automations and schedules as the server stores them, the
 * condition test of an automation, the cron patterns built for timed
 * schedules and automations, and the registry of live cron tasks.
 *
 * The cron library itself is not modelled: a task is its pattern and its
 * kind, and the registry maps an id to at most one live task.
 */
module Automation {
  import opened Optional
  import opened Text
  import opened DeviceState

  /** `automation.condition`; fields a condition type does not use are absent. */
  datatype Condition = Condition(
    ctype: string,               // "time", "device" or "sensor"
    deviceId: string,
    sensorType: string,          // "contact" or "temperature"
    state: Option<Value>,        // the switch or contact value waited for
    comparison: string,          // "above", or anything else for below
    value: Option<Value>)        // "HH:MM" for time, a number for temperature

  datatype Action = Action(deviceId: string, command: string, capability: Option<string>)

  datatype Rule = Rule(id: string, enabled: bool, condition: Condition, action: Action)

  datatype Schedule = Schedule(id: string, enabled: bool, time: string, days: seq<int>,
                               deviceId: string, command: string, capability: Option<string>)

  datatype Scene = Scene(id: string, name: string)

  /** A command the engine hands to `controlDevice`. */
  datatype Command = Command(deviceId: string, command: string, capability: string)

  /** `capability || 'switch'`. */
  function CapabilityOr(c: Option<string>): string {
    if c.Some? && c.value != "" then c.value else "switch"
  }

  function Dispatch(a: Action): Command {
    Command(a.deviceId, a.command, CapabilityOr(a.capability))
  }

  // ---------------------------------------------------------------------
  // The condition test

  /**
   * `status.main.temperatureMeasurement.temperature.value` as an operand of
   * `<` or `>`: a reported `null` reads as 0; a missing attribute reads as
   * `undefined`, which is NaN.
   */
  function CurrentTemp(st: Option<Status>): Option<real> {
    if AttrPresent(st, "temperatureMeasurement", "temperature") then AsNumber(TemperatureValue(st)) else None
  }

  /** `automation.condition.value` as an operand: an absent value is `undefined`, NaN. */
  function Threshold(v: Option<Value>): Option<real> {
    if v.Some? then AsNumber(v) else None
  }

  /** JavaScript `a > b` on two numeric readings; NaN compares false. */
  predicate JsGreater(a: Option<real>, b: Option<real>) {
    a.Some? && b.Some? && a.value > b.value
  }

  predicate JsLess(a: Option<real>, b: Option<real>) {
    a.Some? && b.Some? && a.value < b.value
  }

  predicate IsDeviceCondition(c: Condition) {
    c.ctype == "device"
  }

  predicate IsContactCondition(c: Condition) {
    c.ctype == "sensor" && c.sensorType == "contact"
  }

  predicate IsTemperatureCondition(c: Condition) {
    c.ctype == "sensor" && c.sensorType == "temperature"
  }

  /**
   * `checkAutomationConditions`: a device condition compares the switch, a
   * contact condition the contact, a temperature condition compares
   * strictly; a condition whose device lacks the capability, and every
   * other condition (time included), holds.
   */
  function CheckConditions(c: Condition, states: StateMap): (ok: bool)
    ensures IsDeviceCondition(c) && HasCap(StateOf(states, c.deviceId), "switch")
            ==> (ok <==> SwitchValue(StateOf(states, c.deviceId)) == c.state)
    ensures IsContactCondition(c) && HasCap(StateOf(states, c.deviceId), "contactSensor")
            ==> (ok <==> ContactValue(StateOf(states, c.deviceId)) == c.state)
    ensures IsTemperatureCondition(c) && HasCap(StateOf(states, c.deviceId), "temperatureMeasurement")
            ==> (ok <==> if c.comparison == "above"
                         then JsGreater(CurrentTemp(StateOf(states, c.deviceId)), Threshold(c.value))
                         else JsLess(CurrentTemp(StateOf(states, c.deviceId)), Threshold(c.value)))
    ensures !IsDeviceCondition(c) && !IsContactCondition(c) && !IsTemperatureCondition(c) ==> ok
  {
    var st := StateOf(states, c.deviceId);
    if IsDeviceCondition(c) then
      if HasCap(st, "switch") then SwitchValue(st) == c.state else true
    else if IsContactCondition(c) then
      if HasCap(st, "contactSensor") then ContactValue(st) == c.state else true
    else if IsTemperatureCondition(c) then
      if HasCap(st, "temperatureMeasurement") then
        if c.comparison == "above" then JsGreater(CurrentTemp(st), Threshold(c.value))
        else JsLess(CurrentTemp(st), Threshold(c.value))
      else true
    else true
  }

  /** A condition on a device the server knows nothing about holds. */
  lemma UnknownDeviceHolds(c: Condition, states: StateMap)
    requires StateOf(states, c.deviceId).None?
    ensures CheckConditions(c, states)
  {
  }

  /** At the threshold itself a temperature condition never holds, either way. */
  lemma TemperatureThresholdIsStrict(c: Condition, states: StateMap)
    requires IsTemperatureCondition(c) && HasCap(StateOf(states, c.deviceId), "temperatureMeasurement")
    requires TemperatureValue(StateOf(states, c.deviceId)) == c.value
    ensures !CheckConditions(c, states)
  {
  }

  /**
   * A thermometer that reports its temperature as `null` (an offline sensor)
   * compares as 0: below any positive threshold, above any negative one.
   */
  lemma NullTemperatureReadsZero(c: Condition, states: StateMap, t: real)
    requires IsTemperatureCondition(c) && AttrPresent(StateOf(states, c.deviceId), "temperatureMeasurement", "temperature")
    requires TemperatureValue(StateOf(states, c.deviceId)) == None && c.value == Some(Num(t))
    ensures CheckConditions(c, states) <==> if c.comparison == "above" then 0.0 > t else 0.0 < t
  {
  }

  /** A threshold that is not a number, or is absent, never lets a temperature condition hold. */
  lemma NonNumericThresholdNeverHolds(c: Condition, states: StateMap)
    requires IsTemperatureCondition(c) && HasCap(StateOf(states, c.deviceId), "temperatureMeasurement")
    requires c.value.None? || c.value.value.Str?
    ensures !CheckConditions(c, states)
  {
  }

  // ---------------------------------------------------------------------
  // Cron patterns

  /** `${Number(s)}` for a field of a time string. */
  function NumberText(s: string): (r: string)
    ensures JsNumber(s).None? <==> r == "NaN"
  {
    match JsNumber(s)
    case None => "NaN"
    case Some(n) => NatToString(n)
  }

  /** Field `i` of `time.split(':').map(Number)`, or `undefined` past the end. */
  function TimeField(time: string, i: nat): string {
    var parts := Split(time, ':');
    if i < |parts| then NumberText(parts[i]) else "undefined"
  }

  function DayTexts(days: seq<int>): (r: seq<string>)
    ensures |r| == |days|
    ensures forall i :: 0 <= i < |days| ==> r[i] == IntToString(days[i])
  {
    seq(|days|, i requires 0 <= i < |days| => IntToString(days[i]))
  }

  /** `${minutes} ${hours} * * ${days.join(',')}`: fires on the listed week days. */
  function ScheduleCronPattern(s: Schedule): string {
    TimeField(s.time, 1) + " " + TimeField(s.time, 0) + " * * " + Join(DayTexts(s.days), ",")
  }

  /** `${minutes} ${hours} * * *`: fires every day. */
  function AutomationCronPattern(time: string): string {
    TimeField(time, 1) + " " + TimeField(time, 0) + " * * *"
  }

  lemma TimeFields(h: nat, m: nat)
    requires h < 100 && m < 100
    ensures TimeField(TimeText(h, m), 0) == NatToString(h)
    ensures TimeField(TimeText(h, m), 1) == NatToString(m)
  {
    SplitTime(h, m);
    JsNumberPad2(h);
    JsNumberPad2(m);
  }

  /** A day numeral is digits, possibly after a minus sign, so it has no space or comma. */
  lemma DayTextChars(d: int, c: char)
    requires c == ' ' || c == ','
    ensures c !in IntToString(d)
  {
    if d < 0 {
      assert IntToString(d) == "-" + NatToString(-d);
    }
  }

  lemma JoinDaysNoSpace(days: seq<int>)
    ensures ' ' !in Join(DayTexts(days), ",")
    decreases |days|
  {
    var ts := DayTexts(days);
    if |days| > 0 {
      DayTextChars(days[0], ' ');
      if |days| > 1 {
        assert DayTexts(days[1..]) == ts[1..];
        JoinDaysNoSpace(days[1..]);
      }
    }
  }

  /** The cron fields of a pattern. */
  function CronFields(p: string): seq<string> {
    Split(p, ' ')
  }

  /** A space-free field, a space, and the rest: the field comes off first. */
  lemma SplitSpaced(a: string, rest: string)
    requires ' ' !in a
    ensures Split(a + " " + rest, ' ') == [a] + Split(rest, ' ')
  {
    assert a + " " + rest == a + [' '] + rest;
    SplitCons(a, ' ', rest);
  }

  /** Five space-free fields joined by spaces split back into themselves. */
  lemma SplitFive(a: string, b: string, c: string, d: string, e: string)
    requires ' ' !in a && ' ' !in b && ' ' !in c && ' ' !in d && ' ' !in e
    ensures Split(a + " " + b + " " + c + " " + d + " " + e, ' ') == [a, b, c, d, e]
  {
    var t3 := d + " " + e;
    var t2 := c + " " + t3;
    var t1 := b + " " + t2;
    SplitNoSep(e, ' ');
    SplitSpaced(d, e);
    SplitSpaced(c, t3);
    SplitSpaced(b, t2);
    SplitSpaced(a, t1);
    assert Split(a + " " + t1, ' ') == [a, b, c, d, e];
    SpacedAssoc(a, b, c, d, e);
  }

  lemma SpacedAssoc(a: string, b: string, c: string, d: string, e: string)
    ensures a + " " + b + " " + c + " " + d + " " + e == a + " " + (b + " " + (c + " " + (d + " " + e)))
  {
  }

  lemma NumeralNoSpace(n: nat)
    ensures ' ' !in NatToString(n)
  {
    DayTextChars(n, ' ');
  }

  lemma ScheduleShape(s: Schedule, h: nat, m: nat)
    requires h < 24 && m < 60 && s.time == TimeText(h, m)
    ensures ScheduleCronPattern(s)
            == NatToString(m) + " " + NatToString(h) + " " + "*" + " " + "*" + " " + Join(DayTexts(s.days), ",")
  {
    var a := TimeField(s.time, 1);
    var b := TimeField(s.time, 0);
    var d := Join(DayTexts(s.days), ",");
    TimeFields(h, m);
    assert ScheduleCronPattern(s) == a + " " + b + " * * " + d;
    Wildcards(a, b, d);
  }

  lemma Wildcards(a: string, b: string, c: string)
    ensures a + " " + b + " * * " + c == a + " " + b + " " + "*" + " " + "*" + " " + c
  {
  }

  lemma AutomationShape(h: nat, m: nat)
    requires h < 24 && m < 60
    ensures AutomationCronPattern(TimeText(h, m))
            == NatToString(m) + " " + NatToString(h) + " " + "*" + " " + "*" + " " + "*"
  {
    var t := TimeText(h, m);
    var a := TimeField(t, 1);
    var b := TimeField(t, 0);
    TimeFields(h, m);
    assert AutomationCronPattern(t) == a + " " + b + " * * *";
    Wildcards(a, b, "*");
    assert a + " " + b + " * * " + "*" == a + " " + b + " * * *";
  }

  /**
   * The schedule pattern round trip: the cron fields of the pattern built
   * from "HH:MM" and a non-empty day list read back the minute, the hour,
   * two wildcards and the days.
   */
  lemma ScheduleCronRoundTrip(s: Schedule, h: nat, m: nat)
    requires h < 24 && m < 60 && s.time == TimeText(h, m) && |s.days| > 0
    ensures var f := CronFields(ScheduleCronPattern(s));
      && |f| == 5
      && ParseInt(f[0]) == Some(m) && ParseInt(f[1]) == Some(h)
      && f[2] == "*" && f[3] == "*"
      && Split(f[4], ',') == DayTexts(s.days)
  {
    ScheduleTimeRoundTrip(s, h, m);
    ScheduleWildcards(s, h, m);
    ScheduleDaysRoundTrip(s, h, m);
  }

  lemma ScheduleTimeRoundTrip(s: Schedule, h: nat, m: nat)
    requires h < 24 && m < 60 && s.time == TimeText(h, m)
    ensures var f := CronFields(ScheduleCronPattern(s));
      |f| == 5 && ParseInt(f[0]) == Some(m) && ParseInt(f[1]) == Some(h)
  {
    ScheduleFields(s, h, m);
    ReadsBackFive(CronFields(ScheduleCronPattern(s)), h, m, "*", "*", Join(DayTexts(s.days), ","));
  }

  lemma ScheduleWildcards(s: Schedule, h: nat, m: nat)
    requires h < 24 && m < 60 && s.time == TimeText(h, m)
    ensures var f := CronFields(ScheduleCronPattern(s));
      |f| == 5 && f[2] == "*" && f[3] == "*"
  {
    ScheduleFields(s, h, m);
    ReadsBackFive(CronFields(ScheduleCronPattern(s)), h, m, "*", "*", Join(DayTexts(s.days), ","));
  }

  lemma ScheduleDaysRoundTrip(s: Schedule, h: nat, m: nat)
    requires h < 24 && m < 60 && s.time == TimeText(h, m) && |s.days| > 0
    ensures var f := CronFields(ScheduleCronPattern(s));
      |f| == 5 && Split(f[4], ',') == DayTexts(s.days)
  {
    ScheduleFields(s, h, m);
    DaysRoundTrip(s.days);
  }

  /** Five cron fields whose first two are numerals: those read back, the rest are as given. */
  lemma ReadsBackFive(f: seq<string>, h: nat, m: nat, c: string, d: string, e: string)
    requires f == [NatToString(m), NatToString(h), c, d, e]
    ensures |f| == 5 && ParseInt(f[0]) == Some(m) && ParseInt(f[1]) == Some(h)
    ensures f[2] == c && f[3] == d && f[4] == e
  {
    ReadsBack(f, h, m);
  }

  lemma ReadsBack(f: seq<string>, h: nat, m: nat)
    requires |f| >= 2 && f[0] == NatToString(m) && f[1] == NatToString(h)
    ensures ParseInt(f[0]) == Some(m) && ParseInt(f[1]) == Some(h)
  {
    ParseIntNatToString(m);
    ParseIntNatToString(h);
  }

  lemma ScheduleFields(s: Schedule, h: nat, m: nat)
    requires h < 24 && m < 60 && s.time == TimeText(h, m)
    ensures CronFields(ScheduleCronPattern(s))
            == [NatToString(m), NatToString(h), "*", "*", Join(DayTexts(s.days), ",")]
  {
    var days := Join(DayTexts(s.days), ",");
    ScheduleShape(s, h, m);
    NumeralNoSpace(m);
    NumeralNoSpace(h);
    JoinDaysNoSpace(s.days);
    SplitFive(NatToString(m), NatToString(h), "*", "*", days);
  }

  lemma DaysRoundTrip(days: seq<int>)
    requires |days| > 0
    ensures Split(Join(DayTexts(days), ","), ',') == DayTexts(days)
  {
    forall k | 0 <= k < |days| ensures ',' !in DayTexts(days)[k] {
      DayTextChars(days[k], ',');
    }
    SplitJoin(DayTexts(days), ',');
  }

  /** The automation pattern round trip: minute, hour and three wildcards. */
  lemma AutomationCronRoundTrip(h: nat, m: nat)
    requires h < 24 && m < 60
    ensures var f := CronFields(AutomationCronPattern(TimeText(h, m)));
      && |f| == 5
      && ParseInt(f[0]) == Some(m) && ParseInt(f[1]) == Some(h)
      && f[2] == "*" && f[3] == "*" && f[4] == "*"
  {
    var mt := NatToString(m);
    var ht := NatToString(h);
    AutomationShape(h, m);
    NumeralNoSpace(m);
    NumeralNoSpace(h);
    SplitFive(mt, ht, "*", "*", "*");
    ReadsBackFive(CronFields(AutomationCronPattern(TimeText(h, m))), h, m, "*", "*", "*");
  }

  // ---------------------------------------------------------------------
  // Stored lists: upsert by id, delete by filter

  /** `findIndex` by id. */
  function IndexOf<T>(xs: seq<T>, id: T -> string, key: string): (r: Option<nat>)
    ensures r.Some? ==> r.value < |xs| && id(xs[r.value]) == key
                        && forall j :: 0 <= j < r.value ==> id(xs[j]) != key
    ensures r.None? ==> forall j :: 0 <= j < |xs| ==> id(xs[j]) != key
    decreases |xs|
  {
    if |xs| == 0 then None
    else if id(xs[0]) == key then Some(0)
    else match IndexOf(xs[1..], id, key)
      case None => None
      case Some(j) => Some(j + 1)
  }

  /** The POST routes: replace the first entry with the same id, or append. */
  function Upsert<T>(xs: seq<T>, x: T, id: T -> string): (r: seq<T>)
    ensures x in r
    ensures IndexOf(xs, id, id(x)).Some? ==> (|r| == |xs| && r[IndexOf(xs, id, id(x)).value] == x
            && forall j :: 0 <= j < |xs| && j != IndexOf(xs, id, id(x)).value ==> r[j] == xs[j])
    ensures IndexOf(xs, id, id(x)).None? ==> r == xs + [x]
  {
    match IndexOf(xs, id, id(x))
    case Some(i) => assert xs[i := x][i] == x; xs[i := x]
    case None => xs + [x]
  }

  /** The DELETE routes: `filter(x => x.id !== key)`. */
  function Remove<T(!new)>(xs: seq<T>, id: T -> string, key: string): (r: seq<T>)
    ensures |r| <= |xs|
    ensures forall y :: y in r <==> y in xs && id(y) != key
    decreases |xs|
  {
    if |xs| == 0 then []
    else (if id(xs[0]) == key then [] else [xs[0]]) + Remove(xs[1..], id, key)
  }

  /** Every survivor of the filter keeps its multiplicity; deleted entries are gone. */
  lemma {:induction false} RemoveKeepsCounts<T(!new)>(xs: seq<T>, id: T -> string, key: string, y: T)
    ensures multiset(Remove(xs, id, key))[y] == if id(y) == key then 0 else multiset(xs)[y]
    decreases |xs|
  {
    if |xs| > 0 {
      assert xs == [xs[0]] + xs[1..];
      RemoveKeepsCounts(xs[1..], id, key, y);
    }
  }

  /**
   * `filter` works entry by entry, in order: deleting from a concatenation
   * deletes from each part. With `RemoveOne` this fixes the result, order
   * included.
   */
  lemma {:induction false} RemoveAppend<T(!new)>(a: seq<T>, b: seq<T>, id: T -> string, key: string)
    ensures Remove(a + b, id, key) == Remove(a, id, key) + Remove(b, id, key)
    decreases |a|
  {
    if |a| > 0 {
      var head := if id(a[0]) == key then [] else [a[0]];
      assert (a + b)[1..] == a[1..] + b;
      assert (a + b)[0] == a[0];
      assert Remove(a + b, id, key) == head + Remove(a[1..] + b, id, key);
      assert Remove(a, id, key) == head + Remove(a[1..], id, key);
      RemoveAppend(a[1..], b, id, key);
    } else {
      assert a + b == b;
    }
  }

  /** A single entry survives exactly when it has another id. */
  lemma RemoveOne<T(!new)>(x: T, id: T -> string, key: string)
    ensures Remove([x], id, key) == if id(x) == key then [] else [x]
  {
    assert [x][1..] == [];
  }

  /** Saving an item and then deleting its id is deleting its id. */
  lemma {:induction false} RemoveUpsert<T(!new)>(xs: seq<T>, x: T, id: T -> string)
    ensures Remove(Upsert(xs, x, id), id, id(x)) == Remove(xs, id, id(x))
    decreases |xs|
  {
    var k := id(x);
    if |xs| == 0 {
      assert Upsert(xs, x, id) == [x];
      assert Remove([x], id, k) == [] + Remove([x][1..], id, k);
    } else if id(xs[0]) == k {
      var u := Upsert(xs, x, id);
      assert u == xs[0 := x];
      assert u[1..] == xs[1..];
    } else {
      var u := Upsert(xs, x, id);
      assert u[1..] == Upsert(xs[1..], x, id);
      RemoveUpsert(xs[1..], x, id);
    }
  }

  function SceneId(s: Scene): string { s.id }
  function RuleId(a: Rule): string { a.id }
  function ScheduleId(s: Schedule): string { s.id }

  /** The first entry with the given id (`find`). */
  function FindBy<T>(xs: seq<T>, id: T -> string, key: string): (r: Option<T>)
    ensures r.Some? ==> r.value in xs && id(r.value) == key
    ensures r.None? <==> forall j :: 0 <= j < |xs| ==> id(xs[j]) != key
    decreases |xs|
  {
    if |xs| == 0 then None
    else if id(xs[0]) == key then Some(xs[0])
    else FindBy(xs[1..], id, key)
  }

  /** `find` yields the first entry with the key: the one at `findIndex`. */
  lemma {:induction false} FindByFirst<T>(xs: seq<T>, id: T -> string, key: string)
    ensures FindBy(xs, id, key) == if IndexOf(xs, id, key).Some? then Some(xs[IndexOf(xs, id, key).value]) else None
    decreases |xs|
  {
    if |xs| > 0 && id(xs[0]) != key {
      FindByFirst(xs[1..], id, key);
    }
  }

  /** After an upsert, looking up its id finds the new item and every other id finds what it found before. */
  lemma {:induction false} FindUpsert<T>(xs: seq<T>, x: T, id: T -> string, key: string)
    ensures FindBy(Upsert(xs, x, id), id, key) == if key == id(x) then Some(x) else FindBy(xs, id, key)
    decreases |xs|
  {
    var u := Upsert(xs, x, id);
    if |xs| == 0 {
      assert u == [x];
      assert FindBy(u, id, key) == if id(x) == key then Some(x) else FindBy(u[1..], id, key);
    } else if id(xs[0]) == id(x) {
      assert u == xs[0 := x];
      assert u[1..] == xs[1..];
    } else {
      assert u[0] == xs[0] && u[1..] == Upsert(xs[1..], x, id);
      FindUpsert(xs[1..], x, id, key);
    }
  }

  /** After a delete, its id finds nothing and every other id finds what it found before. */
  lemma {:induction false} FindRemove<T(!new)>(xs: seq<T>, id: T -> string, key: string, k: string)
    ensures FindBy(Remove(xs, id, key), id, k) == if k == key then None else FindBy(xs, id, k)
    decreases |xs|
  {
    if |xs| > 0 {
      var rest := Remove(xs[1..], id, key);
      FindRemove(xs[1..], id, key, k);
      if id(xs[0]) == key {
        assert Remove(xs, id, key) == rest;
      } else {
        var r := [xs[0]] + rest;
        assert Remove(xs, id, key) == r;
        assert r[1..] == rest;
        assert FindBy(r, id, k) == if id(xs[0]) == k then Some(xs[0]) else FindBy(rest, id, k);
      }
    }
  }

  // ---------------------------------------------------------------------
  // The cron-task registry

  datatype TaskKind = ScheduleTask | AutomationTask

  /** A live cron task: when it fires and what kind of item it runs. */
  datatype Task = Task(pattern: string, kind: TaskKind)

  /** The stored lists and the live tasks, keyed by item id. */
  datatype Engine = Engine(scenes: seq<Scene>, rules: seq<Rule>, schedules: seq<Schedule>, tasks: map<string, Task>)

  function TaskOf(tasks: map<string, Task>, id: string): Option<Task> {
    if id in tasks then Some(tasks[id]) else None
  }

  /** The time of a time condition, when its value is a string. */
  function TimeOf(c: Condition): Option<string> {
    if c.value.Some? && c.value.value.Str? then Some(c.value.value.s) else None
  }

  /** The task an enabled schedule should have. */
  function ScheduleTaskFor(s: Schedule): Option<Task> {
    if s.enabled then Some(Task(ScheduleCronPattern(s), ScheduleTask)) else None
  }

  /** The task an enabled time automation should have; other automations have none. */
  function RuleTaskFor(a: Rule): Option<Task> {
    if a.enabled && a.condition.ctype == "time" && TimeOf(a.condition).Some?
    then Some(Task(AutomationCronPattern(TimeOf(a.condition).value), AutomationTask))
    else None
  }

  /** What the registry should hold for `id`, judged from the stored lists. */
  function ExpectedTask(e: Engine, id: string): Option<Task> {
    match FindBy(e.schedules, ScheduleId, id)
    case Some(s) => ScheduleTaskFor(s)
    case None =>
      match FindBy(e.rules, RuleId, id)
      case Some(a) => RuleTaskFor(a)
      case None => None
  }

  /** Every stored item has exactly the live task it should have, and no other task is live. */
  ghost predicate Consistent(e: Engine) {
    forall id :: ExpectedTask(e, id) == TaskOf(e.tasks, id)
  }

  /**
   * `setupScheduleCron` as written: a disabled schedule returns at once,
   * leaving any task it had running; an enabled one replaces its task.
   */
  function SetupScheduleCron(tasks: map<string, Task>, s: Schedule): (r: map<string, Task>)
    ensures s.enabled ==> r == tasks[s.id := Task(ScheduleCronPattern(s), ScheduleTask)]
    ensures !s.enabled ==> r == tasks
  {
    if !s.enabled then tasks
    else tasks[s.id := Task(ScheduleCronPattern(s), ScheduleTask)]
  }

  /**
   * `setupAutomationCron` as written: only an enabled time automation
   * touches the registry; any other leaves a task it had running.
   */
  function SetupAutomationCron(tasks: map<string, Task>, a: Rule): (r: map<string, Task>)
    ensures RuleTaskFor(a).Some? ==> r == tasks[a.id := RuleTaskFor(a).value]
    ensures RuleTaskFor(a).None? ==> r == tasks
  {
    if !a.enabled then tasks
    else if a.condition.ctype == "time" then
      match TimeOf(a.condition)
      case Some(t) => tasks[a.id := Task(AutomationCronPattern(t), AutomationTask)]
      case None => tasks  // `split` on a non-string throws before the registry changes
    else tasks
  }

  /** `setupScheduleCron` corrected: a disabled schedule also stops its task. */
  function SetupScheduleCronFixed(tasks: map<string, Task>, s: Schedule): (r: map<string, Task>)
    ensures TaskOf(r, s.id) == ScheduleTaskFor(s)
    ensures forall k :: k != s.id ==> TaskOf(r, k) == TaskOf(tasks, k)
  {
    if !s.enabled then tasks - {s.id}
    else tasks[s.id := Task(ScheduleCronPattern(s), ScheduleTask)]
  }

  /** `setupAutomationCron` corrected: an automation that should not run stops its task. */
  function SetupAutomationCronFixed(tasks: map<string, Task>, a: Rule): (r: map<string, Task>)
    ensures TaskOf(r, a.id) == RuleTaskFor(a)
    ensures forall k :: k != a.id ==> TaskOf(r, k) == TaskOf(tasks, k)
  {
    match RuleTaskFor(a)
    case Some(t) => tasks[a.id := t]
    case None => tasks - {a.id}
  }

  // ---------------------------------------------------------------------
  // Routes

  /** `POST /api/scenes`. */
  function PostScene(e: Engine, sc: Scene): (r: Engine)
    ensures FindBy(r.scenes, SceneId, sc.id) == Some(sc)
    ensures r.rules == e.rules && r.schedules == e.schedules && r.tasks == e.tasks
  {
    FindUpsert(e.scenes, sc, SceneId, sc.id);
    e.(scenes := Upsert(e.scenes, sc, SceneId))
  }

  /** `DELETE /api/scenes/:id`. */
  function DeleteScene(e: Engine, id: string): (r: Engine)
    ensures FindBy(r.scenes, SceneId, id).None?
    ensures r.rules == e.rules && r.schedules == e.schedules && r.tasks == e.tasks
  {
    FindRemove(e.scenes, SceneId, id, id);
    e.(scenes := Remove(e.scenes, SceneId, id))
  }

  /** `POST /api/schedule` as written. */
  function PostSchedule(e: Engine, s: Schedule): (r: Engine)
    ensures FindBy(r.schedules, ScheduleId, s.id) == Some(s)
    ensures r.tasks == SetupScheduleCron(e.tasks, s)
  {
    FindUpsert(e.schedules, s, ScheduleId, s.id);
    e.(schedules := Upsert(e.schedules, s, ScheduleId), tasks := SetupScheduleCron(e.tasks, s))
  }

  /** `POST /api/automation` as written. */
  function PostRule(e: Engine, a: Rule): (r: Engine)
    ensures FindBy(r.rules, RuleId, a.id) == Some(a)
    ensures r.tasks == SetupAutomationCron(e.tasks, a)
  {
    FindUpsert(e.rules, a, RuleId, a.id);
    e.(rules := Upsert(e.rules, a, RuleId), tasks := SetupAutomationCron(e.tasks, a))
  }

  /** `POST /api/schedule` with the corrected setup. */
  function PostScheduleFixed(e: Engine, s: Schedule): (r: Engine)
    ensures FindBy(r.schedules, ScheduleId, s.id) == Some(s)
    ensures TaskOf(r.tasks, s.id) == ScheduleTaskFor(s)
  {
    FindUpsert(e.schedules, s, ScheduleId, s.id);
    e.(schedules := Upsert(e.schedules, s, ScheduleId), tasks := SetupScheduleCronFixed(e.tasks, s))
  }

  /** `POST /api/automation` with the corrected setup. */
  function PostRuleFixed(e: Engine, a: Rule): (r: Engine)
    ensures FindBy(r.rules, RuleId, a.id) == Some(a)
    ensures TaskOf(r.tasks, a.id) == RuleTaskFor(a)
  {
    FindUpsert(e.rules, a, RuleId, a.id);
    e.(rules := Upsert(e.rules, a, RuleId), tasks := SetupAutomationCronFixed(e.tasks, a))
  }

  /** `DELETE /api/schedule/:id`: stop the task of a stored schedule, then drop the schedule. */
  function DeleteSchedule(e: Engine, id: string): (r: Engine)
    ensures FindBy(r.schedules, ScheduleId, id).None?
    ensures FindBy(e.schedules, ScheduleId, id).Some? ==> id !in r.tasks
    ensures FindBy(e.schedules, ScheduleId, id).None? ==> r.tasks == e.tasks
    ensures r.rules == e.rules && r.scenes == e.scenes
  {
    FindRemove(e.schedules, ScheduleId, id, id);
    var tasks := if FindBy(e.schedules, ScheduleId, id).Some? then e.tasks - {id} else e.tasks;
    e.(schedules := Remove(e.schedules, ScheduleId, id), tasks := tasks)
  }

  /** `DELETE /api/automation/:id`: stop the task of a stored automation, then drop it. */
  function DeleteRule(e: Engine, id: string): (r: Engine)
    ensures FindBy(r.rules, RuleId, id).None?
    ensures FindBy(e.rules, RuleId, id).Some? ==> id !in r.tasks
    ensures FindBy(e.rules, RuleId, id).None? ==> r.tasks == e.tasks
    ensures r.schedules == e.schedules && r.scenes == e.scenes
  {
    FindRemove(e.rules, RuleId, id, id);
    var tasks := if FindBy(e.rules, RuleId, id).Some? then e.tasks - {id} else e.tasks;
    e.(rules := Remove(e.rules, RuleId, id), tasks := tasks)
  }

  /**
   * The defect: re-posting an enabled schedule with `enabled: false` (what
   * the schedule toggle of the dashboard does) stores it disabled but leaves
   * its cron task live, so the registry no longer matches the stored lists.
   */
  lemma DisabledScheduleKeepsTask(e: Engine, s: Schedule)
    requires Consistent(e) && FindBy(e.schedules, ScheduleId, s.id) == Some(s) && s.enabled
    ensures var r := PostSchedule(e, s.(enabled := false));
      s.id in r.tasks && r.tasks[s.id] == Task(ScheduleCronPattern(s), ScheduleTask) && !Consistent(r)
  {
    var r := PostSchedule(e, s.(enabled := false));
    assert ExpectedTask(e, s.id) == Some(Task(ScheduleCronPattern(s), ScheduleTask));
    assert TaskOf(e.tasks, s.id) == ExpectedTask(e, s.id);
    assert ExpectedTask(r, s.id) == None;
  }

  /** The same defect for a timed automation switched off. */
  lemma DisabledRuleKeepsTask(e: Engine, a: Rule)
    requires Consistent(e) && FindBy(e.schedules, ScheduleId, a.id).None?
    requires FindBy(e.rules, RuleId, a.id) == Some(a) && RuleTaskFor(a).Some?
    ensures var r := PostRule(e, a.(enabled := false));
      a.id in r.tasks && r.tasks[a.id] == RuleTaskFor(a).value && !Consistent(r)
  {
    var r := PostRule(e, a.(enabled := false));
    assert TaskOf(e.tasks, a.id) == ExpectedTask(e, a.id);
    assert ExpectedTask(r, a.id) == None;
  }

  /** The corrected routes keep the registry in step with the stored lists. */
  lemma PostScheduleFixedConsistent(e: Engine, s: Schedule)
    requires Consistent(e)
    ensures Consistent(PostScheduleFixed(e, s))
  {
    var r := PostScheduleFixed(e, s);
    forall id ensures ExpectedTask(r, id) == TaskOf(r.tasks, id) {
      FindUpsert(e.schedules, s, ScheduleId, id);
      assert r.rules == e.rules;
    }
  }

  lemma PostRuleFixedConsistent(e: Engine, a: Rule)
    requires Consistent(e) && FindBy(e.schedules, ScheduleId, a.id).None?
    ensures Consistent(PostRuleFixed(e, a))
  {
    var r := PostRuleFixed(e, a);
    forall id ensures ExpectedTask(r, id) == TaskOf(r.tasks, id) {
      FindUpsert(e.rules, a, RuleId, id);
      assert r.schedules == e.schedules;
    }
  }

  lemma DeleteScheduleConsistent(e: Engine, id: string)
    requires Consistent(e) && FindBy(e.rules, RuleId, id).None?
    ensures Consistent(DeleteSchedule(e, id))
  {
    var r := DeleteSchedule(e, id);
    forall k ensures ExpectedTask(r, k) == TaskOf(r.tasks, k) {
      FindRemove(e.schedules, ScheduleId, id, k);
      assert TaskOf(e.tasks, k) == ExpectedTask(e, k);
    }
  }

  lemma DeleteRuleConsistent(e: Engine, id: string)
    requires Consistent(e) && FindBy(e.schedules, ScheduleId, id).None?
    ensures Consistent(DeleteRule(e, id))
  {
    var r := DeleteRule(e, id);
    forall k ensures ExpectedTask(r, k) == TaskOf(r.tasks, k) {
      FindRemove(e.rules, RuleId, id, k);
      assert TaskOf(e.tasks, k) == ExpectedTask(e, k);
    }
  }

  /** `setupAllCronTasks`: every enabled schedule, then every enabled time automation. */
  function SetupAll(tasks: map<string, Task>, schedules: seq<Schedule>, rules: seq<Rule>): (r: map<string, Task>)
    decreases |schedules| + |rules|
  {
    if |schedules| > 0 then
      SetupAll(if schedules[0].enabled then SetupScheduleCron(tasks, schedules[0]) else tasks, schedules[1..], rules)
    else if |rules| > 0 then
      var a := rules[0];
      SetupAll(if a.enabled && a.condition.ctype == "time" then SetupAutomationCron(tasks, a) else tasks, [], rules[1..])
    else tasks
  }

  /** Some schedule of the list with this id should have a task. */
  predicate ScheduledAmong(schedules: seq<Schedule>, id: string) {
    exists i :: 0 <= i < |schedules| && schedules[i].id == id && ScheduleTaskFor(schedules[i]).Some?
  }

  /** Some automation of the list with this id should have a task. */
  predicate TimedAmong(rules: seq<Rule>, id: string) {
    exists j :: 0 <= j < |rules| && rules[j].id == id && RuleTaskFor(rules[j]).Some?
  }

  lemma ScheduledAmongCons(schedules: seq<Schedule>, id: string)
    requires |schedules| > 0
    ensures ScheduledAmong(schedules, id) <==>
      (schedules[0].id == id && ScheduleTaskFor(schedules[0]).Some?) || ScheduledAmong(schedules[1..], id)
  {
    if ScheduledAmong(schedules[1..], id) {
      var i :| 0 <= i < |schedules[1..]| && schedules[1..][i].id == id && ScheduleTaskFor(schedules[1..][i]).Some?;
      assert schedules[i + 1] == schedules[1..][i];
    }
    if ScheduledAmong(schedules, id) {
      var i :| 0 <= i < |schedules| && schedules[i].id == id && ScheduleTaskFor(schedules[i]).Some?;
      if i > 0 { assert schedules[1..][i - 1] == schedules[i]; }
    }
  }

  lemma TimedAmongCons(rules: seq<Rule>, id: string)
    requires |rules| > 0
    ensures TimedAmong(rules, id) <==> (rules[0].id == id && RuleTaskFor(rules[0]).Some?) || TimedAmong(rules[1..], id)
  {
    if TimedAmong(rules[1..], id) {
      var j :| 0 <= j < |rules[1..]| && rules[1..][j].id == id && RuleTaskFor(rules[1..][j]).Some?;
      assert rules[j + 1] == rules[1..][j];
    }
    if TimedAmong(rules, id) {
      var j :| 0 <= j < |rules| && rules[j].id == id && RuleTaskFor(rules[j]).Some?;
      if j > 0 { assert rules[1..][j - 1] == rules[j]; }
    }
  }

  /** At start-up the registry gets a task for exactly the items that should run. */
  lemma {:induction false} SetupAllKeys(tasks: map<string, Task>, schedules: seq<Schedule>, rules: seq<Rule>, id: string)
    ensures id in SetupAll(tasks, schedules, rules) <==>
      id in tasks || ScheduledAmong(schedules, id) || TimedAmong(rules, id)
    decreases |schedules| + |rules|
  {
    if |schedules| > 0 {
      var s0 := schedules[0];
      var t1 := if s0.enabled then SetupScheduleCron(tasks, s0) else tasks;
      assert id in t1 <==> id in tasks || (s0.id == id && ScheduleTaskFor(s0).Some?);
      SetupAllKeys(t1, schedules[1..], rules, id);
      ScheduledAmongCons(schedules, id);
    } else if |rules| > 0 {
      var a := rules[0];
      var t1 := if a.enabled && a.condition.ctype == "time" then SetupAutomationCron(tasks, a) else tasks;
      assert id in t1 <==> id in tasks || (a.id == id && RuleTaskFor(a).Some?);
      SetupAllKeys(t1, [], rules[1..], id);
      TimedAmongCons(rules, id);
    }
  }
}

=== FILE: classify.dfy ===
/**
 * How the server decides what kind of device it is looking at: by name
 * words, by the capabilities the device reports, and (for the display) by
 * the hour of the day.
 */
module Classify {
  import opened Optional
  import opened Text
  import opened DeviceState

  /** The per-device type record kept between refreshes. */
  datatype DeviceType = DeviceType(isTV: bool, isTemperatureSensor: bool)

  /** True when some word of `words` occurs in `s` (`words.some(w => s.includes(w))`). */
  predicate AnyIn(s: string, words: seq<string>) {
    exists i :: 0 <= i < |words| && Contains(s, words[i])
  }

  const TVBrands: seq<string> := ["samsung", "lg", "sony", "panasonic", "philips", "toshiba", "sharp", "hisense", "tcl"]
  const TVKeywords: seq<string> := ["tv", "телевизор", "television"]
  const TVModelKeywords: seq<string> := ["series", "qled", "oled", "led", "smart tv", "android tv"]
  const NotTVKeywords: seq<string> := ["лампочка", "bulb", "light", "розетка", "outlet", "socket", "switch", "датчик", "sensor"]
  const SizeUnits: seq<string> := ["series", "дюйм", "inch"]

  /** `/\d+\s*(series|дюйм|inch)/` matching with its last digit at the start of `s`. */
  predicate SizeMarkHere(s: string) {
    |s| > 0 && IsDigit(s[0]) && AnyStart(TrimStart(s[1..]), SizeUnits)
  }

  predicate AnyStart(s: string, words: seq<string>) {
    exists i :: 0 <= i < |words| && StartsWith(s, words[i])
  }

  /** The scanner behind the regex: try every start position in turn. */
  predicate HasSizeMark(s: string)
    decreases |s|
  {
    |s| > 0 && (SizeMarkHere(s) || HasSizeMark(s[1..]))
  }

  /**
   * The regex matches somewhere exactly when some position holds a digit
   * followed, after white space, by a size unit. (A longer digit run
   * `\d+` matches iff its last digit does.)
   */
  lemma {:induction false} HasSizeMarkIff(s: string)
    ensures HasSizeMark(s) <==> exists i :: 0 <= i < |s| && SizeMarkHere(s[i..])
  {
    if HasSizeMark(s) {
      var i := SizeMarkWitness(s);
    }
    if exists i :: 0 <= i < |s| && SizeMarkHere(s[i..]) {
      var i :| 0 <= i < |s| && SizeMarkHere(s[i..]);
      SizeMarkAt(s, i);
    }
  }

  lemma {:induction false} SizeMarkWitness(s: string) returns (i: nat)
    requires HasSizeMark(s)
    ensures i < |s| && SizeMarkHere(s[i..])
    decreases |s|
  {
    if SizeMarkHere(s) {
      i := 0;
      assert s[0..] == s;
    } else {
      var j := SizeMarkWitness(s[1..]);
      assert s[1..][j..] == s[j + 1..];
      i := j + 1;
    }
  }

  lemma {:induction false} SizeMarkAt(s: string, i: nat)
    requires i < |s| && SizeMarkHere(s[i..])
    ensures HasSizeMark(s)
    decreases i
  {
    if i > 0 {
      assert s[1..][i - 1..] == s[i..];
      SizeMarkAt(s[1..], i - 1);
    } else {
      assert s[0..] == s;
    }
  }

  /** `determineTypeByLabel(name)`. */
  function TypeByLabel(name: string): (t: DeviceType)
    // a TV keyword alone makes a TV
    ensures AnyIn(Lower(name), TVKeywords) ==> t.isTV
    // without a brand, only a TV keyword makes a TV
    ensures !AnyIn(Lower(name), TVBrands) ==> (t.isTV <==> AnyIn(Lower(name), TVKeywords))
    // a brand makes a TV unless the name names a non-TV kind of device
    // and carries no model or size word
    ensures AnyIn(Lower(name), TVBrands) && !AnyIn(Lower(name), NotTVKeywords) ==> t.isTV
    ensures (AnyIn(Lower(name), TVBrands) && AnyIn(Lower(name), NotTVKeywords)
             && !AnyIn(Lower(name), TVKeywords) && !AnyIn(Lower(name), TVModelKeywords)
             && !HasSizeMark(Lower(name))) ==> !t.isTV
    // a brand with a model word or a size mark is a TV even beside a non-TV word
    ensures AnyIn(Lower(name), TVBrands) && (AnyIn(Lower(name), TVModelKeywords) || HasSizeMark(Lower(name))) ==> t.isTV
    // the temperature-sensor flag depends on the temperature words only
    ensures t.isTemperatureSensor == TempSensorLabel(Lower(name))
  {
    var l := Lower(name);
    var hasBrand := AnyIn(l, TVBrands);
    var hasKeyword := AnyIn(l, TVKeywords);
    var hasModel := AnyIn(l, TVModelKeywords);
    assert Contains(l, "series") ==> hasModel by { assert TVModelKeywords[0] == "series"; }
    var tv := hasKeyword || (hasBrand && (hasModel || Contains(l, "series") || HasSizeMark(l)));
    var tv2 := if !tv && hasBrand && !AnyIn(l, NotTVKeywords) then true else tv;
    DeviceType(tv2, TempSensorLabel(l))
  }

  /** The temperature-sensor words of `determineTypeByLabel`, on a lower-cased name. */
  predicate TempSensorLabel(l: string) {
    Contains(l, "температур") || Contains(l, "temperature") || Contains(l, "датчик температ")
    || (Contains(l, "датчик") && (Contains(l, "темп") || Contains(l, "temp")))
    || (Contains(l, "sensor") && (Contains(l, "temp") || Contains(l, "темп")))
    || Contains(l, "термометр") || Contains(l, "thermometer")
  }

  /**
   * The temperature words reduce to four: a name is a temperature sensor
   * exactly when it names temperature, a thermometer, or a sensor ("датчик"
   * or "sensor") together with a "temp"/"темп" stem.
   */
  lemma TempSensorLabelSimplified(l: string)
    ensures TempSensorLabel(l) <==>
      Contains(l, "температур") || Contains(l, "temperature") || Contains(l, "термометр") || Contains(l, "thermometer")
      || ((Contains(l, "датчик") || Contains(l, "sensor")) && (Contains(l, "темп") || Contains(l, "temp")))
  {
    if Contains(l, "датчик температ") {
      var i := ContainsWitness(l, "датчик температ");
      SliceWithin(l, i, "датчик температ", 0, 6);
      SliceWithin(l, i, "датчик температ", 7, 11);
      assert "датчик температ"[0..6] == "датчик";
      assert "датчик температ"[7..11] == "темп";
      ContainsAt(l, "датчик", i);
      ContainsAt(l, "темп", i + 7);
    }
  }

  // ---------------------------------------------------------------------
  // Capability enrichment

  /** What the device-detail request produced. */
  datatype Detail =
    | DetailLoaded(capabilityIds: seq<string>)  // the ids of all components' capabilities
    | DetailMissing                              // the request failed or was refused

  /**
   * `enrichDeviceCapabilities`, once it decided to look: the detail's
   * capabilities when it loaded, otherwise the stored snapshot's `main`
   * component; either evidence is OR-ed with the name rules.
   */
  function EnrichedType(detail: Detail, existing: Option<Status>, name: string): (t: DeviceType)
    ensures TypeByLabel(name).isTV ==> t.isTV
    ensures TypeByLabel(name).isTemperatureSensor ==> t.isTemperatureSensor
    ensures (detail.DetailLoaded? && ("powerMeter" in detail.capabilityIds
             || "powerMeterPowerConsumption" in detail.capabilityIds)) ==> t.isTV
    ensures detail.DetailLoaded? && "temperatureMeasurement" in detail.capabilityIds ==> t.isTemperatureSensor
    ensures detail.DetailMissing? && HasCap(existing, "powerMeter") ==> t.isTV
    ensures detail.DetailMissing? && HasCap(existing, "temperatureMeasurement") ==> t.isTemperatureSensor
    ensures t.isTV ==> (TypeByLabel(name).isTV
            || (detail.DetailLoaded? && ("powerMeter" in detail.capabilityIds
                || "powerMeterPowerConsumption" in detail.capabilityIds))
            || (detail.DetailMissing? && HasCap(existing, "powerMeter")))
  {
    var power := match detail
      case DetailLoaded(caps) => "powerMeter" in caps || "powerMeterPowerConsumption" in caps
      case DetailMissing => HasCap(existing, "powerMeter");
    var temp := match detail
      case DetailLoaded(caps) => "temperatureMeasurement" in caps
      case DetailMissing => HasCap(existing, "temperatureMeasurement");
    var byLabel := TypeByLabel(name);
    DeviceType(power || byLabel.isTV, temp || byLabel.isTemperatureSensor)
  }

  /**
   * `enrichDeviceCapabilities(device, {force})`: a known type is kept
   * unless forced; otherwise it is recomputed and stored.
   */
  function Enrich(types: map<string, DeviceType>, id: string, force: bool,
                  detail: Detail, existing: Option<Status>, name: string): (r: map<string, DeviceType>)
    ensures id in r && r.Keys == types.Keys + {id}
    ensures forall k :: k in types && k != id ==> r[k] == types[k]
    ensures !force && id in types ==> r == types
    ensures force || id !in types ==> r[id] == EnrichedType(detail, existing, name)
  {
    if !force && id in types then types
    else types[id := EnrichedType(detail, existing, name)]
  }

  /**
   * The type `getDeviceStatus` records from a fresh snapshot with a `main`
   * component: "tv"/"телевизор" in the name or a power meter make a TV,
   * and only a temperature capability makes a temperature sensor.
   */
  function StatusType(main: Component, name: string): (t: DeviceType)
    ensures t.isTemperatureSensor <==> "temperatureMeasurement" in main
    ensures "powerMeter" in main ==> t.isTV
    ensures !("powerMeter" in main) ==> (t.isTV <==> Contains(Lower(name), "tv") || Contains(Lower(name), "телевизор"))
  {
    var l := Lower(name);
    DeviceType(Contains(l, "tv") || Contains(l, "телевизор") || "powerMeter" in main,
               "temperatureMeasurement" in main)
  }

  // ---------------------------------------------------------------------
  // Night mode of the wall display

  /** `isNightModeActive`: from 23:00 to 07:59. */
  predicate NightMode(hour: int)
    requires 0 <= hour < 24
  {
    hour >= 23 || hour < 8
  }

  /** `getDisplaySleepMinutes`: 30 at night, 5 by day. */
  function DisplaySleepMinutes(hour: int): (m: int)
    requires 0 <= hour < 24
    ensures m == 30 || m == 5
    ensures m == 30 <==> hour == 23 || 0 <= hour <= 7
  {
    if NightMode(hour) then 30 else 5
  }
}

=== FILE: device_state.dfy ===
/**
 * Devices of the cloud registry and their status snapshots.
 *
 * A snapshot is the provider's `components` object: component name ("main")
 * to capability name to attribute name to the attribute's `value`. Lookups
 * follow JavaScript's optional chaining: a missing level reads as absent.
 */
module DeviceState {
  import opened Optional

  /** A JSON attribute value. */
  datatype Value = Str(s: string) | Num(x: real)

  /**
   * JavaScript's numeric reading of a value in a `<` or `>` comparison:
   * `null` is 0, a number is itself. A string operand is read as NaN here,
   * so every comparison with it is false.
   */
  function AsNumber(v: Option<Value>): (r: Option<real>)
    ensures v.None? ==> r == Some(0.0)
    ensures v.Some? && v.value.Num? ==> r == Some(v.value.x)
    ensures v.Some? && v.value.Str? ==> r.None?
  {
    match v
    case None => Some(0.0)
    case Some(Num(x)) => Some(x)
    case Some(Str(_)) => None
  }

  /** JavaScript truthiness of a value that may be missing. */
  predicate Truthy(v: Option<Value>) {
    match v
    case None => false
    case Some(Str(s)) => s != ""
    case Some(Num(x)) => x != 0.0
  }

  /** Attribute name to its `value` (None: the attribute has no value). */
  type Capability = map<string, Option<Value>>

  /** Capability name to its attributes. */
  type Component = map<string, Capability>

  datatype Status = Status(components: map<string, Component>)

  /** Per-device snapshots; a missing key is `undefined`, `None` is `null`. */
  type StateMap = map<string, Option<Status>>

  /** A directory entry; `label` is optional in the provider's JSON. */
  datatype Device = Device(deviceId: string, deviceLabel: Option<string>)

  /** `device.label || fallback`. */
  function LabelOr(d: Device, fallback: string): (r: string)
    ensures d.deviceLabel.Some? && d.deviceLabel.value != "" ==> r == d.deviceLabel.value
    ensures (d.deviceLabel.None? || d.deviceLabel.value == "") ==> r == fallback
  {
    if d.deviceLabel.Some? && d.deviceLabel.value != "" then d.deviceLabel.value else fallback
  }

  /** The label shown for a device that has none. */
  const DefaultLabel: string := "Устройство"

  /**
   * The dashboard's per-device settings; an empty custom name is the same as
   * none, as `customName || …` reads it.
   */
  datatype DeviceSettings = DeviceSettings(hidden: bool, customName: string)

  /** `deviceSettings[id] || {}`. */
  function SettingsOf(settings: map<string, DeviceSettings>, id: string): DeviceSettings {
    if id in settings then settings[id] else DeviceSettings(false, "")
  }

  /** A control command the dashboard sends for one device (`controlDevice(id, command)`). */
  datatype Control = Control(deviceId: string, command: string)

  /** A JSON document whose shape the server does not fix (the health report). Arrays are left out. */
  datatype Json = JNull | JBool(b: bool) | JNum(x: real) | JStr(s: string) | JObj(fields: map<string, Json>)

  /** JavaScript truthiness of a JSON value that may be `undefined`. */
  predicate JsonTruthy(j: Option<Json>) {
    match j
    case None => false
    case Some(JNull) => false
    case Some(JBool(b)) => b
    case Some(JNum(x)) => x != 0.0
    case Some(JStr(s)) => s != ""
    case Some(JObj(_)) => true
  }

  /** `j.key`, `undefined` when `j` is not an object or lacks the key. */
  function Field(j: Option<Json>, key: string): Option<Json> {
    if j.Some? && j.value.JObj? && key in j.value.fields then Some(j.value.fields[key]) else None
  }

  /** `a || b`. */
  function JsonOr(a: Option<Json>, b: Option<Json>): (r: Option<Json>)
    ensures JsonTruthy(a) ==> r == a
    ensures !JsonTruthy(a) ==> r == b
  {
    if JsonTruthy(a) then a else b
  }

  /** `deviceStates[id]`, with `undefined` and `null` both read as None. */
  function StateOf(states: StateMap, id: string): Option<Status> {
    if id in states then states[id] else None
  }

  /** `status.main`, when the snapshot has one. */
  function Main(st: Option<Status>): Option<Component> {
    if st.Some? && "main" in st.value.components then Some(st.value.components["main"]) else None
  }

  /** `status && status.main && status.main[cap]`. */
  predicate HasCap(st: Option<Status>, cap: string) {
    Main(st).Some? && cap in Main(st).value
  }

  /** `status?.main?.[cap]?.[attr]?.value`. */
  function Attr(st: Option<Status>, cap: string, attr: string): Option<Value> {
    if HasCap(st, cap) && attr in Main(st).value[cap] then Main(st).value[cap][attr] else None
  }

  /**
   * `status.main[cap]?.[attr]?.value !== undefined`: the attribute is
   * reported (an entry always carries a `value` key, `null` or not).
   */
  predicate AttrPresent(st: Option<Status>, cap: string, attr: string) {
    HasCap(st, cap) && attr in Main(st).value[cap]
  }

  /** What `status?.main?.[cap]?.[attr]?.value` yields, with `undefined` kept apart from `null`. */
  datatype Observed = Undefined | Reported(value: Option<Value>)

  function Observe(st: Option<Status>, cap: string, attr: string): (r: Observed)
    ensures r.Undefined? <==> !AttrPresent(st, cap, attr)
    ensures r.Reported? ==> r.value == Attr(st, cap, attr)
  {
    if AttrPresent(st, cap, attr) then Reported(Attr(st, cap, attr)) else Undefined
  }

  /** A snapshot whose `main` component carries the given capabilities. */
  function MainOnly(main: Component): (st: Status)
    ensures forall cap :: HasCap(Some(st), cap) <==> cap in main
  {
    Status(map["main" := main])
  }

  function SwitchValue(st: Option<Status>): Option<Value> { Attr(st, "switch", "switch") }
  function ContactValue(st: Option<Status>): Option<Value> { Attr(st, "contactSensor", "contact") }
  function TemperatureValue(st: Option<Status>): Option<Value> { Attr(st, "temperatureMeasurement", "temperature") }
  function HumidityValue(st: Option<Status>): Option<Value> { Attr(st, "relativeHumidityMeasurement", "humidity") }
  function PowerValue(st: Option<Status>): Option<Value> { Attr(st, "powerMeter", "power") }

  /** `devices.find(d => d.deviceId === id)`. */
  function FindDevice(devices: seq<Device>, id: string): (r: Option<Device>)
    ensures r.Some? ==> r.value in devices && r.value.deviceId == id
    ensures r.None? <==> forall d :: d in devices ==> d.deviceId != id
  {
    if |devices| == 0 then None
    else if devices[0].deviceId == id then Some(devices[0])
    else FindDevice(devices[1..], id)
  }

  /** `find` yields the first listed device with that id. */
  lemma {:induction false} FindDeviceFirst(devices: seq<Device>, id: string, i: nat)
    requires i < |devices| && devices[i].deviceId == id
    requires forall j :: 0 <= j < i ==> devices[j].deviceId != id
    ensures FindDevice(devices, id) == Some(devices[i])
    decreases i
  {
    if i > 0 {
      assert devices[0].deviceId != id;
      FindDeviceFirst(devices[1..], id, i - 1);
    }
  }

  /** `devices.map(d => d.deviceId)`. */
  function IdsOf(devices: seq<Device>): (ids: seq<string>)
    ensures |ids| == |devices|
    ensures forall i :: 0 <= i < |devices| ==> ids[i] == devices[i].deviceId
  {
    seq(|devices|, i requires 0 <= i < |devices| => devices[i].deviceId)
  }

  lemma InIdsOf(devices: seq<Device>, id: string)
    ensures id in IdsOf(devices) <==> FindDevice(devices, id).Some?
  {
    var ids := IdsOf(devices);
    if id in ids {
      var i :| 0 <= i < |ids| && ids[i] == id;
      assert devices[i] in devices;
    }
  }
}

=== FILE: event_log.dfy ===
/**
 * The event history: one list of all events and one list each of
 * temperature, humidity and power readings, every list keeping only its
 * most recent 1000 entries.
 */
module EventLog {
  import opened Optional
  import opened DeviceState

  const HistoryLimit: nat := 1000

  /** An event as `logEvent` stores it; fields a kind does not carry are empty. */
  datatype Event = Event(kind: string, deviceId: string, value: Option<Value>, command: string, capability: string, timestamp: int)

  datatype Reading = Reading(value: Option<Value>, deviceId: string, timestamp: int)

  datatype History = History(events: seq<Event>, temperature: seq<Reading>, humidity: seq<Reading>, power: seq<Reading>)

  const EmptyHistory := History([], [], [], [])

  /** `xs.slice(-n)` when the list is longer than `n`, else `xs`. */
  function KeepLast<T>(xs: seq<T>, n: nat): (r: seq<T>)
    ensures |r| == if |xs| > n then n else |xs|
    ensures r == xs[|xs| - |r|..]
  {
    if |xs| > n then xs[|xs| - n..] else xs
  }

  predicate Bounded(h: History) {
    |h.events| <= HistoryLimit && |h.temperature| <= HistoryLimit
    && |h.humidity| <= HistoryLimit && |h.power| <= HistoryLimit
  }

  function ReadingOf(e: Event): Reading {
    Reading(e.value, e.deviceId, e.timestamp)
  }

  /** Append `e` to `xs` when it is of kind `k`, keeping the last 1000. */
  function Track(xs: seq<Reading>, e: Event, k: string): (r: seq<Reading>)
    ensures e.kind != k ==> r == xs
    ensures e.kind == k ==> r == KeepLast(xs + [ReadingOf(e)], HistoryLimit)
  {
    if e.kind == k then KeepLast(xs + [ReadingOf(e)], HistoryLimit) else xs
  }

  /** `logEvent`. */
  function LogEvent(h: History, e: Event): (r: History)
    ensures r.events == KeepLast(h.events + [e], HistoryLimit)
    ensures |r.events| > 0 && r.events[|r.events| - 1] == e
    ensures Bounded(h) ==> Bounded(r)
    // only the list of the event's own kind grows
    ensures e.kind != "temperature" ==> r.temperature == h.temperature
    ensures e.kind != "humidity" ==> r.humidity == h.humidity
    ensures e.kind != "power" ==> r.power == h.power
  {
    History(KeepLast(h.events + [e], HistoryLimit),
            Track(h.temperature, e, "temperature"),
            Track(h.humidity, e, "humidity"),
            Track(h.power, e, "power"))
  }

  /** Logging a sequence of events in order. */
  function LogAll(h: History, es: seq<Event>): History
    decreases |es|
  {
    if |es| == 0 then h else LogAll(LogEvent(h, es[0]), es[1..])
  }

  /** The readings of the events of kind `k`, in order. */
  function ReadingsOf(es: seq<Event>, k: string): (r: seq<Reading>)
    ensures |r| <= |es|
    decreases |es|
  {
    if |es| == 0 then []
    else (if es[0].kind == k then [ReadingOf(es[0])] else []) + ReadingsOf(es[1..], k)
  }

  /** Trimming before an append keeps the same window as trimming after it. */
  lemma KeepLastAppend<T>(xs: seq<T>, ys: seq<T>, n: nat)
    ensures KeepLast(KeepLast(xs, n) + ys, n) == KeepLast(xs + ys, n)
  {
    var k := KeepLast(xs, n);
    var a := KeepLast(k + ys, n);
    var b := KeepLast(xs + ys, n);
    assert |a| == |b|;
    forall i | 0 <= i < |a| ensures a[i] == b[i] {
      var off := |xs| - |k|;
      assert (k + ys)[|k + ys| - |a| + i] == (xs + ys)[|xs + ys| - |b| + i];
    }
  }

  /** One reading list after one event, as a window over its kind's readings. */
  lemma TrackWindow(xs: seq<Reading>, e: Event, k: string)
    requires |xs| <= HistoryLimit
    ensures Track(xs, e, k) == KeepLast(xs + ReadingsOf([e], k), HistoryLimit)
  {
    assert ReadingsOf([e], k) == (if e.kind == k then [ReadingOf(e)] else []) + ReadingsOf([], k);
    if e.kind != k {
      assert xs + ReadingsOf([e], k) == xs;
    }
  }

  lemma ReadingsOfCons(es: seq<Event>, k: string)
    requires |es| > 0
    ensures ReadingsOf(es, k) == ReadingsOf([es[0]], k) + ReadingsOf(es[1..], k)
  {
    assert ReadingsOf([es[0]], k) == (if es[0].kind == k then [ReadingOf(es[0])] else []) + ReadingsOf([], k);
  }

  /** The reading list of kind `k`; any other kind names the power list, which only `"power"` feeds. */
  function ReadingsField(h: History, k: string): seq<Reading> {
    if k == "temperature" then h.temperature
    else if k == "humidity" then h.humidity
    else h.power
  }

  predicate TrackedKind(k: string) {
    k == "temperature" || k == "humidity" || k == "power"
  }

  lemma LogEventField(h: History, e: Event, k: string)
    requires TrackedKind(k)
    ensures ReadingsField(LogEvent(h, e), k) == Track(ReadingsField(h, k), e, k)
  {
  }

  /** The list of all events after a run: the last 1000 of the old list followed by the run. */
  lemma {:induction false} LogAllEvents(h: History, es: seq<Event>)
    requires Bounded(h)
    ensures LogAll(h, es).events == KeepLast(h.events + es, HistoryLimit)
    decreases |es|
  {
    if |es| == 0 {
      assert h.events + es == h.events;
    } else {
      var e := es[0];
      LogAllEvents(LogEvent(h, e), es[1..]);
      KeepLastAppend(h.events + [e], es[1..], HistoryLimit);
      assert h.events + [e] + es[1..] == h.events + es;
    }
  }

  /** One reading list after a run: the last 1000 of its old readings and the run's readings of its kind. */
  lemma {:induction false} LogAllReadings(h: History, es: seq<Event>, k: string)
    requires Bounded(h) && TrackedKind(k)
    ensures ReadingsField(LogAll(h, es), k) == KeepLast(ReadingsField(h, k) + ReadingsOf(es, k), HistoryLimit)
    decreases |es|
  {
    var xs := ReadingsField(h, k);
    if |es| == 0 {
      assert xs + ReadingsOf(es, k) == xs;
    } else {
      var e := es[0];
      var h1 := LogEvent(h, e);
      LogAllReadings(h1, es[1..], k);
      LogEventField(h, e, k);
      StepWindow(xs, e, es, k);
    }
  }

  /**
   * The history after logging a run of events is the last 1000 of all the
   * events so far, and each reading list is the last 1000 readings of its
   * own kind.
   */
  lemma LogAllWindow(h: History, es: seq<Event>)
    requires Bounded(h)
    ensures LogAll(h, es).events == KeepLast(h.events + es, HistoryLimit)
    ensures LogAll(h, es).temperature == KeepLast(h.temperature + ReadingsOf(es, "temperature"), HistoryLimit)
    ensures LogAll(h, es).humidity == KeepLast(h.humidity + ReadingsOf(es, "humidity"), HistoryLimit)
    ensures LogAll(h, es).power == KeepLast(h.power + ReadingsOf(es, "power"), HistoryLimit)
  {
    LogAllEvents(h, es);
    LogAllReadings(h, es, "temperature");
    LogAllReadings(h, es, "humidity");
    LogAllReadings(h, es, "power");
  }

  /** Logging keeps every list within 1000 entries. */
  lemma {:induction false} LogAllBounded(h: History, es: seq<Event>)
    ensures Bounded(h) ==> Bounded(LogAll(h, es))
    decreases |es|
  {
    if |es| > 0 {
      LogAllBounded(LogEvent(h, es[0]), es[1..]);
    }
  }

  lemma AppendAssoc(xs: seq<Reading>, a: seq<Reading>, b: seq<Reading>)
    ensures xs + (a + b) == (xs + a) + b
  {
  }

  lemma WindowStep(trimmed: seq<Reading>, ys: seq<Reading>, more: seq<Reading>, all: seq<Reading>)
    requires trimmed == KeepLast(ys, HistoryLimit) && all == ys + more
    ensures KeepLast(trimmed + more, HistoryLimit) == KeepLast(all, HistoryLimit)
  {
    KeepLastAppend(ys, more, HistoryLimit);
  }

  lemma StepWindow(xs: seq<Reading>, e: Event, es: seq<Event>, k: string)
    requires |xs| <= HistoryLimit && |es| > 0 && es[0] == e
    ensures KeepLast(Track(xs, e, k) + ReadingsOf(es[1..], k), HistoryLimit)
            == KeepLast(xs + ReadingsOf(es, k), HistoryLimit)
  {
    var a := ReadingsOf([e], k);
    var b := ReadingsOf(es[1..], k);
    TrackWindow(xs, e, k);
    ReadingsOfCons(es, k);
    AppendAssoc(xs, a, b);
    WindowStep(Track(xs, e, k), xs + a, b, xs + ReadingsOf(es, k));
  }
}

=== FILE: hub.dfy ===
/**
 * The server's device store and the operations that move it: loading the
 * device directory, fetching one device's health and status, sending a
 * command, and the light and heavy refresh passes that the timers start.
 *
 * Every remote call is given its replies as inputs (`Reply`): the fetches
 * the call would see and the JSON body of a successful one. A pass uses
 * one clock reading `now` for all its calls.
 */
module Hub {
  import opened Optional
  import opened Text
  import opened DeviceState
  import opened Classify
  import opened RefreshQueue
  import opened ApiClient
  import opened EventLog
  import opened StateDiff
  import opened Automation

  const HeavyRefreshIntervalMs: int := 1800000
  /** A light pass escalates to a heavy one after `HEAVY_REFRESH_INTERVAL * 1.5`. */
  const HeavyOverdueMs: int := 2700000
  const CapabilityRefreshIntervalMs: int := 24 * 60 * 60 * 1000

  datatype Store = Store(
    devices: seq<Device>,             // `currentDevices`
    states: StateMap,                 // `deviceStates`
    previous: StateMap,               // `previousDeviceStates`
    lastSeen: map<string, int>,       // `deviceLastSeen`
    types: map<string, DeviceType>,   // `deviceTypes`
    health: map<string, Json>,        // `deviceHealth`
    queue: Queue,
    history: History,
    blockedUntil: int,                // `smartThingsAuthBlockedUntil`
    hasToken: bool,                   // whether SMARTTHINGS_PAT is set
    lastHeavy: int,
    lastCapabilityRefresh: int,
    heavyBusy: bool,
    lightBusy: bool)

  /** The timer bookkeeping and the token are untouched. */
  predicate SameTimers(a: Store, b: Store) {
    a.lastHeavy == b.lastHeavy && a.lastCapabilityRefresh == b.lastCapabilityRefresh
    && a.heavyBusy == b.heavyBusy && a.lightBusy == b.lightBusy && a.hasToken == b.hasToken
  }

  /** What the store keeps between operations. */
  predicate Inv(s: Store) {
    Valid(s.queue) && Bounded(s.history)
  }

  /**
   * The replies of one remote call: its fetches, the body a successful one
   * parses to, and whether that body can be read at all. `readable` is
   * false when `response.json()` throws on the 2xx reply, or when the JSON
   * is `null` and the handler reads a field of it (`data.items`,
   * `data.components`); either way the handler's `catch` runs.
   */
  datatype Reply<T> = Reply(fetches: seq<Fetch>, body: T, readable: bool)

  /** The call as `smartThingsRequest` makes it, cooldown honoured. */
  function CallOf<T>(s: Store, now: int, reply: Reply<T>): Call {
    Request(now, s.blockedUntil, true, s.hasToken, reply.fetches)
  }

  predicate Succeeded(c: Call) {
    c.outcome.Responded? && Ok(c.outcome.code)
  }

  /** The call succeeds and its body reads: the handler gets past `response.json()`. */
  predicate Delivered<T>(s: Store, now: int, reply: Reply<T>) {
    Succeeded(CallOf(s, now, reply)) && reply.readable
  }

  /** The clock when the call returns: the start plus the time slept between retries. */
  function CallEnd(now: int, c: Call): int {
    if c.outcome.Responded? then now + Sum(c.outcome.waits)
    else if c.outcome.NetworkError? then now + Sum(c.outcome.waits)
    else now
  }

  // ---------------------------------------------------------------------
  // The device directory

  /** `priorityDeviceIds.delete` of every id in `gone`. */
  function Without(xs: seq<string>, gone: set<string>): (r: seq<string>)
    ensures forall x :: x in r <==> x in xs && x !in gone
    ensures Distinct(xs) ==> Distinct(r)
    decreases |xs|
  {
    if |xs| == 0 then []
    else
      var rest := Without(xs[1..], gone);
      if xs[0] in gone then rest
      else
        assert Distinct(xs) ==> xs[0] !in xs[1..];
        [xs[0]] + rest
  }

  /**
   * The purge of `fetchDevicesList`: every id that has a stored snapshot
   * but is no longer listed loses its snapshot, previous snapshot, health,
   * type, last-seen time and priority mark.
   */
  function Purge(s: Store, ids: seq<string>): (r: Store)
    ensures forall k :: k in r.states <==> k in s.states && k in ids
    ensures forall k :: k in r.states ==> r.states[k] == s.states[k]
    // only ids with a stored snapshot are purged from the other tables
    ensures forall k :: k in s.states || k in ids ==> (k in r.types <==> k in s.types && k in ids)
    ensures forall k :: k !in s.states ==> (k in r.types <==> k in s.types)
    ensures forall k :: k in r.types ==> r.types[k] == s.types[k]
    ensures forall k :: k in r.previous ==> k in s.previous && r.previous[k] == s.previous[k]
    ensures forall k :: k in r.health ==> k in s.health && r.health[k] == s.health[k]
    ensures forall x :: x in r.queue.priority <==> x in s.queue.priority && !(x in s.states && x !in ids)
    ensures r.queue.ids == s.queue.ids && r.queue.cursor == s.queue.cursor
    ensures Valid(s.queue) ==> Valid(r.queue)
    ensures r.devices == s.devices && r.history == s.history && r.blockedUntil == s.blockedUntil
  {
    var gone := set k | k in s.states && k !in ids;
    s.(states := s.states - gone, previous := s.previous - gone, health := s.health - gone,
       types := s.types - gone, lastSeen := s.lastSeen - gone,
       queue := s.queue.(priority := Without(s.queue.priority, gone)))
  }

  /** The ids of a directory, as a set. */
  function IdSet(devices: seq<Device>): set<string> {
    set d | d in devices :: d.deviceId
  }

  /**
   * The enrichment loop of `fetchDevicesList`: each listed device is
   * enriched (forced on a capability refresh), which keeps an existing type
   * unless forced.
   */
  function EnrichAll(types: map<string, DeviceType>, devices: seq<Device>, force: bool,
                     detailFor: string -> Detail, states: StateMap): (r: map<string, DeviceType>)
    ensures r.Keys == types.Keys + IdSet(devices)
    decreases |devices|
  {
    if |devices| == 0 then types
    else
      var d := devices[0];
      var t1 := Enrich(types, d.deviceId, force, detailFor(d.deviceId), StateOf(states, d.deviceId), LabelOr(d, ""));
      assert IdSet(devices) == {d.deviceId} + IdSet(devices[1..]) by { IdSetCons(devices); }
      EnrichAll(t1, devices[1..], force, detailFor, states)
  }

  lemma IdSetCons(devices: seq<Device>)
    requires |devices| > 0
    ensures IdSet(devices) == {devices[0].deviceId} + IdSet(devices[1..])
  {
    assert forall x :: x in devices <==> x == devices[0] || x in devices[1..];
  }

  /** Without force, a known type survives the loop; a type of an unlisted id always does. */
  lemma {:induction false} EnrichAllKeeps(types: map<string, DeviceType>, devices: seq<Device>, force: bool,
                                          detailFor: string -> Detail, states: StateMap, k: string)
    requires k in types && (!force || k !in IdSet(devices))
    ensures EnrichAll(types, devices, force, detailFor, states)[k] == types[k]
    decreases |devices|
  {
    if |devices| > 0 {
      var d := devices[0];
      IdSetCons(devices);
      var t1 := Enrich(types, d.deviceId, force, detailFor(d.deviceId), StateOf(states, d.deviceId), LabelOr(d, ""));
      EnrichAllKeeps(t1, devices[1..], force, detailFor, states, k);
    }
  }

  /** A listed device that had no type, or every listed device on a forced run, gets the type its evidence gives. */
  lemma {:induction false} EnrichAllComputes(types: map<string, DeviceType>, devices: seq<Device>, force: bool,
                                             detailFor: string -> Detail, states: StateMap, k: string)
    requires k in IdSet(devices) && (force || k !in types)
    ensures exists d :: (d in devices && d.deviceId == k
      && EnrichAll(types, devices, force, detailFor, states)[k] == EnrichedType(detailFor(k), StateOf(states, k), LabelOr(d, "")))
    decreases |devices|
  {
    var d := devices[0];
    IdSetCons(devices);
    var t1 := Enrich(types, d.deviceId, force, detailFor(d.deviceId), StateOf(states, d.deviceId), LabelOr(d, ""));
    var tail := devices[1..];
    if k in IdSet(tail) && (force || k !in t1) {
      EnrichAllComputes(t1, tail, force, detailFor, states, k);
      var d2 :| d2 in tail && d2.deviceId == k
        && EnrichAll(t1, tail, force, detailFor, states)[k] == EnrichedType(detailFor(k), StateOf(states, k), LabelOr(d2, ""));
      assert d2 in devices;
    } else {
      assert k == d.deviceId;
      EnrichAllKeeps(t1, tail, force, detailFor, states, k);
    }
  }

  /**
   * `fetchDevicesList(includeCapabilities)`: on a successful list the store
   * takes the new directory, purges vanished devices and enriches the
   * listed ones; on any failure the directory empties but the stored
   * snapshots stay.
   */
  function LoadDevices(s: Store, now: int, includeCaps: bool, reply: Reply<seq<Device>>,
                       detailFor: string -> Detail): (r: (Store, bool))
    ensures r.0.blockedUntil == CallOf(s, now, reply).blockedUntil
    ensures r.1 <==> Delivered(s, now, reply)
    ensures r.1 ==> r.0.devices == reply.body && r.0.queue.ids == IdsOf(reply.body)
    ensures r.1 ==> forall k :: k in r.0.states <==> k in s.states && k in IdsOf(reply.body)
    ensures r.1 ==> forall d :: d in reply.body ==> d.deviceId in r.0.types
    ensures r.1 && includeCaps ==> r.0.lastCapabilityRefresh == now
    ensures !r.1 ==> r.0.devices == [] && r.0.queue.ids == [] && r.0.states == s.states && r.0.types == s.types
    ensures r.0.history == s.history
    ensures Inv(s) ==> Inv(r.0)
  {
    var c := CallOf(s, now, reply);
    var s1 := s.(blockedUntil := c.blockedUntil);
    if Succeeded(c) && reply.readable then
      var ids := IdsOf(reply.body);
      var p := Purge(s1, ids);
      var s2 := p.(devices := reply.body, queue := Update(p.queue, ids),
                   types := EnrichAll(p.types, reply.body, includeCaps, detailFor, p.states));
      assert forall d :: d in reply.body ==> d.deviceId in s2.types;
      (if includeCaps then s2.(lastCapabilityRefresh := now) else s2, true)
    else
      (s1.(devices := [], queue := Update(s1.queue, [])), false)
  }

  // ---------------------------------------------------------------------
  // One device

  /**
   * `getDeviceHealth`: the report (`null` included) is stored only when the
   * call succeeds and its body parses; a failed call or a body that
   * `response.json()` rejects leaves the stored report alone.
   */
  function FetchHealth(s: Store, id: string, now: int, reply: Reply<Json>): (r: Store)
    ensures Delivered(s, now, reply) ==> r.health == s.health[id := reply.body]
    ensures !Delivered(s, now, reply) ==> r.health == s.health
    ensures Succeeded(CallOf(s, now, reply)) && !reply.readable ==> r.health == s.health
    ensures r.blockedUntil == CallOf(s, now, reply).blockedUntil
    ensures r == s.(health := r.health, blockedUntil := r.blockedUntil)
  {
    var c := CallOf(s, now, reply);
    s.(health := if Succeeded(c) && reply.readable then s.health[id := reply.body] else s.health, blockedUntil := c.blockedUntil)
  }

  /**
   * The `main` component of a status body's `components`; the body is
   * `None` when the JSON carries no `components` (absent or `null`).
   */
  function MainOf(body: Option<Status>): Option<Component> {
    Main(body)
  }

  /**
   * The reply that makes `getDeviceStatus` throw after storing the snapshot:
   * a body with `main` for a listed device without a label, whose
   * `device.label.toLowerCase()` is a TypeError.
   */
  predicate LabelThrows(devices: seq<Device>, id: string, body: Option<Status>) {
    MainOf(body).Some? && FindDevice(devices, id).Some? && FindDevice(devices, id).value.deviceLabel.None?
  }

  /** The type `getDeviceStatus` records for a body with `main`, reading the label as `label || ''`. */
  function TypeFromStatus(devices: seq<Device>, id: string, main: Component): DeviceType {
    StatusType(main, if FindDevice(devices, id).Some? then LabelOr(FindDevice(devices, id).value, "") else "")
  }

  /**
   * `getDeviceStatus` as written: a successful body's `components` become
   * the snapshot (`null` when the body has none) and stamp the last-seen
   * time; a body with `main` also records the
   * device type, reading `device.label.toLowerCase()`, which throws for a
   * listed device without a label, and the handler then stores `null`.
   * Any failed or refused call, and a 2xx reply whose body cannot be read,
   * stores `null` without stamping the last-seen time.
   */
  function FetchStatus(s: Store, id: string, now: int, reply: Reply<Option<Status>>): (r: Store)
    ensures r.blockedUntil == CallOf(s, now, reply).blockedUntil
    ensures id in r.states
    ensures !Delivered(s, now, reply) ==> r.states[id] == None && r.lastSeen == s.lastSeen && r.types == s.types
    ensures Succeeded(CallOf(s, now, reply)) && !reply.readable
            ==> r.states[id] == None && r.lastSeen == s.lastSeen && r.types == s.types
    ensures Delivered(s, now, reply) ==> r.lastSeen == s.lastSeen[id := CallEnd(now, CallOf(s, now, reply))]
    // a readable body without `components` stores no snapshot, yet the device is stamped as seen
    ensures Delivered(s, now, reply) && reply.body.None? ==> r.states[id] == None && r.types == s.types
    // the thrown label read overwrites the stored snapshot with null and records no type
    ensures Delivered(s, now, reply) && LabelThrows(s.devices, id, reply.body)
            ==> r.states[id] == None && r.types == s.types
    ensures Delivered(s, now, reply) && !LabelThrows(s.devices, id, reply.body)
            ==> r.states[id] == reply.body
    ensures Delivered(s, now, reply) && !LabelThrows(s.devices, id, reply.body) && MainOf(reply.body).Some?
            ==> r.types == s.types[id := TypeFromStatus(s.devices, id, MainOf(reply.body).value)]
    ensures MainOf(reply.body).None? ==> r.types == s.types
    ensures forall k :: k != id ==> (k in r.states <==> k in s.states) && (k in s.states ==> r.states[k] == s.states[k])
    ensures r.devices == s.devices && r.queue == s.queue && r.history == s.history
    ensures r.previous == s.previous && r.health == s.health
    ensures SameTimers(r, s)
  {
    var c := CallOf(s, now, reply);
    var s1 := s.(blockedUntil := c.blockedUntil);
    if !Succeeded(c) || !reply.readable then s1.(states := s.states[id := None])
    else
      var s2 := s1.(lastSeen := s.lastSeen[id := CallEnd(now, c)]);
      match MainOf(reply.body)
      case None => s2.(states := s.states[id := reply.body])
      case Some(main) =>
        match FindDevice(s.devices, id)
        case None => s2.(states := s.states[id := reply.body], types := s.types[id := StatusType(main, "")])
        case Some(d) =>
          if d.deviceLabel.None? then s2.(states := s.states[id := None])  // TypeError caught
          else s2.(states := s.states[id := reply.body], types := s.types[id := StatusType(main, d.deviceLabel.value)])
  }

  /** `getDeviceStatus` reading the label as `device.label || ''`, as the enrichment does. */
  function FetchStatusFixed(s: Store, id: string, now: int, reply: Reply<Option<Status>>): (r: Store)
    ensures r.blockedUntil == CallOf(s, now, reply).blockedUntil
    ensures id in r.states
    ensures !Delivered(s, now, reply) ==> r.states[id] == None && r.lastSeen == s.lastSeen && r.types == s.types
    ensures Delivered(s, now, reply) ==> (r.states[id] == reply.body
              && r.lastSeen == s.lastSeen[id := CallEnd(now, CallOf(s, now, reply))])
    ensures Delivered(s, now, reply) && MainOf(reply.body).Some? ==>
              r.types == s.types[id := TypeFromStatus(s.devices, id, MainOf(reply.body).value)]
    ensures MainOf(reply.body).None? ==> r.types == s.types
    ensures forall k :: k != id ==> (k in r.states <==> k in s.states) && (k in s.states ==> r.states[k] == s.states[k])
    ensures r.devices == s.devices && r.queue == s.queue && r.history == s.history
    ensures r.previous == s.previous && r.health == s.health
    ensures SameTimers(r, s)
  {
    var c := CallOf(s, now, reply);
    var s1 := s.(blockedUntil := c.blockedUntil);
    if !Succeeded(c) || !reply.readable then s1.(states := s.states[id := None])
    else
      var s2 := s1.(lastSeen := s.lastSeen[id := CallEnd(now, c)], states := s.states[id := reply.body]);
      match MainOf(reply.body)
      case None => s2
      case Some(main) =>
        var name := match FindDevice(s.devices, id) case Some(d) => LabelOr(d, "") case None => "";
        s2.(types := s.types[id := StatusType(main, name)])
  }

  /** The defect: a listed device without a label answers its status call and is still recorded offline, yet stamped as just seen. */
  lemma UnlabelledDeviceLosesStatus(s: Store, id: string, now: int, reply: Reply<Option<Status>>)
    requires s.hasToken && CanCall(now, s.blockedUntil)
    requires |reply.fetches| > 0 && reply.fetches[0] == ApiClient.Status(200) && reply.readable
    requires reply.body.Some? && "main" in reply.body.value.components
    requires FindDevice(s.devices, id) == Some(Device(id, None))
    ensures FetchStatus(s, id, now, reply).states[id] == None
    ensures id in FetchStatus(s, id, now, reply).lastSeen
    ensures FetchStatusFixed(s, id, now, reply).states[id] == reply.body
  {
    var c := CallOf(s, now, reply);
    assert c.outcome == Responded(200, 1, []);
  }

  /**
   * A readable status body without `components` leaves the device without a
   * snapshot: the diff right after it fires no automation, raises no alert,
   * and keeps `null` as the previous snapshot of a listed device.
   */
  lemma ComponentlessBodyFiresNothing(s: Store, id: string, now: int, reply: Reply<Option<Status>>,
                                      rules: seq<Rule>, awayMode: bool, t: int)
    requires Delivered(s, now, reply) && reply.body.None?
    ensures var r := FetchStatus(s, id, now, reply);
      var p := ProcessOne(r.devices, r.states, r.previous, rules, awayMode, t, id);
      && id in r.lastSeen
      && p.1.commands == [] && p.1.alerts == []
      && (FindDevice(r.devices, id).Some? ==> id in p.0 && p.0[id] == None)
  {
    var r := FetchStatus(s, id, now, reply);
    var cur := StateOf(r.states, id);
    assert cur == None;
    var cmds := ProcessOne(r.devices, r.states, r.previous, rules, awayMode, t, id).1.commands;
    if FindDevice(r.devices, id).Some? {
      NoSnapshotNothingFires(rules, id, StateOf(r.previous, id), r.states);
    }
  }

  /** Key `k` has the same entry, or the same absence, in both maps. */
  predicate SameEntry<V(==)>(a: map<string, V>, b: map<string, V>, k: string) {
    (k in a <==> k in b) && (k in a ==> a[k] == b[k])
  }

  /** The snapshot, type, last-seen and health entries of `k` agree in both stores. */
  predicate EntriesAgree(a: Store, b: Store, k: string) {
    SameEntry(a.states, b.states, k) && SameEntry(a.types, b.types, k)
    && SameEntry(a.lastSeen, b.lastSeen, k) && SameEntry(a.health, b.health, k)
  }

  /** Some fetch of the reply is a 2xx response. */
  predicate HasOkFetch(f: seq<Fetch>) {
    exists i :: 0 <= i < |f| && f[i].Status? && Ok(f[i].code)
  }

  /** The first fetch of the reply is a 2xx response. */
  predicate FirstFetchOk(f: seq<Fetch>) {
    |f| > 0 && f[0].Status? && Ok(f[0].code)
  }

  /** A call succeeds only on a 2xx fetch it was given. */
  lemma SucceededHasOkFetch(now: int, blockedUntil: int, allowCooldown: bool, hasToken: bool, f: seq<Fetch>)
    requires Succeeded(Request(now, blockedUntil, allowCooldown, hasToken, f))
    ensures HasOkFetch(f)
  {
    var c := Request(now, blockedUntil, allowCooldown, hasToken, f);
    var i := c.outcome.fetches - 1;
    assert f[i] == ApiClient.Status(c.outcome.code);
  }

  /** A call refused by nothing whose first fetch is a 2xx response succeeds; a call never clears the cooldown. */
  lemma OpenCallSucceeds(s: Store, now: int, reply: Reply<Option<Status>>)
    ensures CallOf(s, now, reply).blockedUntil <= now ==> s.blockedUntil <= now
    ensures s.hasToken && s.blockedUntil <= now && FirstFetchOk(reply.fetches) ==> Succeeded(CallOf(s, now, reply))
  {
  }

  /**
   * `refreshDeviceStatuses(ids, {includeHealth})`: health (when `healthFor`
   * is given) then status of every listed id; unlisted ids are skipped.
   */
  function RefreshStatuses(s: Store, ids: seq<string>, now: int,
                           statusFor: string -> Reply<Option<Status>>, healthFor: Option<string -> Reply<Json>>): (r: (Store, seq<string>))
    ensures forall x :: x in r.1 <==> x in ids && FindDevice(s.devices, x).Some?
    ensures |r.1| <= |ids|
    ensures forall x :: x in r.1 ==> x in r.0.states
    ensures r.0.blockedUntil <= now ==> s.blockedUntil <= now
    ensures forall k :: k !in r.1 ==> EntriesAgree(r.0, s, k)
    ensures healthFor.None? ==> r.0.health == s.health
    ensures r.0.devices == s.devices && r.0.queue == s.queue && r.0.history == s.history && r.0.previous == s.previous
    ensures SameTimers(r.0, s)
    decreases |ids|
  {
    if |ids| == 0 then (s, [])
    else
      var id := ids[0];
      if FindDevice(s.devices, id).None? then
        var rest := RefreshStatuses(s, ids[1..], now, statusFor, healthFor);
        assert forall x :: x in ids <==> x == id || x in ids[1..];
        rest
      else
        var s2 := RefreshOne(s, if healthFor.Some? then Some(healthFor.value(id)) else None, id, now, statusFor(id));
        var rest := RefreshStatuses(s2, ids[1..], now, statusFor, healthFor);
        assert forall x :: x in ids <==> x == id || x in ids[1..];
        AgreeAcrossStep(s, s2, rest.0, id, rest.1);
        (rest.0, [id] + rest.1)
  }

  /** Entries untouched by one device's step and by the rest of the pass are untouched by the whole pass. */
  lemma AgreeAcrossStep(s: Store, s2: Store, r: Store, id: string, later: seq<string>)
    requires forall k :: k != id ==> EntriesAgree(s2, s, k)
    requires forall k :: k !in later ==> EntriesAgree(r, s2, k)
    ensures forall k :: k !in [id] + later ==> EntriesAgree(r, s, k)
  {
    forall k | k !in [id] + later
      ensures EntriesAgree(r, s, k)
    {
      assert k != id && k !in later;
      assert EntriesAgree(s2, s, k) && EntriesAgree(r, s2, k);
    }
  }

  /** One device's step of a refresh: its health call (when asked for) then its status call; every other device's entries stay. */
  function RefreshOne(s: Store, health: Option<Reply<Json>>, id: string, now: int, reply: Reply<Option<Status>>): (r: Store)
    ensures forall k :: k != id ==> EntriesAgree(r, s, k)
    ensures id in r.states
    ensures health.None? ==> r.health == s.health
    ensures r.blockedUntil <= now ==> s.blockedUntil <= now
    ensures r.devices == s.devices && r.queue == s.queue && r.history == s.history && r.previous == s.previous
    ensures SameTimers(r, s)
  {
    var s1 := if health.Some? then FetchHealth(s, id, now, health.value) else s;
    HealthKeepsOthers(s, s1, health, id, now);
    StatusKeepsOthers(s1, id, now, reply);
    FetchStatus(s1, id, now, reply)
  }

  lemma HealthKeepsOthers(s: Store, s1: Store, health: Option<Reply<Json>>, id: string, now: int)
    requires s1 == if health.Some? then FetchHealth(s, id, now, health.value) else s
    ensures s1.states == s.states && s1.types == s.types && s1.lastSeen == s.lastSeen
    ensures forall k :: k != id ==> SameEntry(s1.health, s.health, k)
    ensures health.None? ==> s1.health == s.health
    ensures s1.blockedUntil <= now ==> s.blockedUntil <= now
    ensures s1.devices == s.devices && s1.queue == s.queue && s1.history == s.history && s1.previous == s.previous
    ensures SameTimers(s1, s) && s1.hasToken == s.hasToken
  {
  }

  lemma StatusKeepsOthers(s: Store, id: string, now: int, reply: Reply<Option<Status>>)
    ensures var r := FetchStatus(s, id, now, reply);
      && (forall k :: k != id ==> (SameEntry(r.states, s.states, k) && SameEntry(r.types, s.types, k)
            && SameEntry(r.lastSeen, s.lastSeen, k)))
      && (r.blockedUntil <= now ==> s.blockedUntil <= now)
  {
    OpenCallSucceeds(s, now, reply);
  }

  /**
   * What a refresh leaves in the entry of each refreshed device: null or
   * the body its status reply carried; null without a token, without a 2xx
   * fetch, or (as written) for a listed device without a label whose body
   * has `main`; and the body itself after a first 2xx fetch when no call of
   * the pass was refused by the cooldown.
   */
  lemma {:induction false} RefreshedEntries(s: Store, ids: seq<string>, now: int,
                                            statusFor: string -> Reply<Option<Status>>, healthFor: Option<string -> Reply<Json>>, x: string)
    requires x in RefreshStatuses(s, ids, now, statusFor, healthFor).1
    ensures var r := RefreshStatuses(s, ids, now, statusFor, healthFor).0;
      && (r.states[x] == None || r.states[x] == statusFor(x).body)
      && (!s.hasToken || !HasOkFetch(statusFor(x).fetches) || !statusFor(x).readable ==> r.states[x] == None)
      && (LabelThrows(s.devices, x, statusFor(x).body) ==> r.states[x] == None)
      && ((s.hasToken && r.blockedUntil <= now && FirstFetchOk(statusFor(x).fetches) && statusFor(x).readable
           && !LabelThrows(s.devices, x, statusFor(x).body)) ==> r.states[x] == statusFor(x).body)
    decreases |ids|
  {
    var id := ids[0];
    if FindDevice(s.devices, id).None? {
      RefreshedEntries(s, ids[1..], now, statusFor, healthFor, x);
    } else {
      var s1 := if healthFor.Some? then FetchHealth(s, id, now, healthFor.value(id)) else s;
      var s2 := FetchStatus(s1, id, now, statusFor(id));
      assert s2 == RefreshOne(s, if healthFor.Some? then Some(healthFor.value(id)) else None, id, now, statusFor(id));
      var rest := RefreshStatuses(s2, ids[1..], now, statusFor, healthFor);
      assert RefreshStatuses(s, ids, now, statusFor, healthFor) == (rest.0, [id] + rest.1);
      if x in rest.1 {
        RefreshedEntries(s2, ids[1..], now, statusFor, healthFor, x);
      } else {
        assert x == id;
        RefreshStep(s, s1, s2, id, now, statusFor(id), healthFor.Some?);
      }
    }
  }

  /** What the health and status calls of one device leave in its entry. */
  lemma RefreshStep(s: Store, s1: Store, s2: Store, id: string, now: int, reply: Reply<Option<Status>>, withHealth: bool)
    requires s1 == s || (withHealth && exists h :: s1 == FetchHealth(s, id, now, h))
    requires s2 == FetchStatus(s1, id, now, reply)
    ensures s2.states[id] == None || s2.states[id] == reply.body
    ensures !s.hasToken || !HasOkFetch(reply.fetches) || !reply.readable ==> s2.states[id] == None
    ensures LabelThrows(s.devices, id, reply.body) ==> s2.states[id] == None
    ensures s.hasToken && s2.blockedUntil <= now && FirstFetchOk(reply.fetches) && reply.readable
            && !LabelThrows(s.devices, id, reply.body)
            ==> s2.states[id] == reply.body
    ensures s2.blockedUntil <= now ==> s.blockedUntil <= now
  {
    if Succeeded(CallOf(s1, now, reply)) {
      SucceededHasOkFetch(now, s1.blockedUntil, true, s1.hasToken, reply.fetches);
    }
    OpenCallSucceeds(s1, now, reply);
    if s1 != s {
      var h :| s1 == FetchHealth(s, id, now, h);
      assert s1.blockedUntil == CallOf(s, now, h).blockedUntil;
    }
  }

  // ---------------------------------------------------------------------
  // Commands

  /**
   * `controlDevice`: the command call skips the cooldown; an accepted
   * command is logged and its device marked for the next light pass.
   * `bodyReadable` says whether a 2xx reply's body reads as a JSON value
   * other than `null`.
   */
  function ControlDevice(s: Store, deviceId: string, command: string, capability: string, now: int,
                         fetches: seq<Fetch>, detailMessage: Option<string>, bodyReadable: bool): (r: (Store, CommandResult))
    ensures s.hasToken ==> !Request(now, s.blockedUntil, false, s.hasToken, fetches).outcome.Blocked?
    ensures r.1 == CommandOutcome(Request(now, s.blockedUntil, false, s.hasToken, fetches).outcome, detailMessage, bodyReadable)
    ensures r.1.Accepted? ==> (|r.0.history.events| > 0
              && r.0.history.events[|r.0.history.events| - 1].kind == "device-control"
              && r.0.history.events[|r.0.history.events| - 1].deviceId == deviceId
              && (deviceId != "" ==> deviceId in r.0.queue.priority))
    ensures !r.1.Accepted? ==> r.0.history == s.history && r.0.queue == s.queue
    // a 401 or 403 to the command starts the cooldown for the calls that honour it
    ensures r.0.blockedUntil == Request(now, s.blockedUntil, false, s.hasToken, fetches).blockedUntil
    ensures r.0.states == s.states && r.0.devices == s.devices && r.0.previous == s.previous
    ensures r.0.lastSeen == s.lastSeen && r.0.types == s.types && r.0.health == s.health
    ensures SameTimers(r.0, s)
    ensures Inv(s) ==> Inv(r.0)
  {
    var c := Request(now, s.blockedUntil, false, s.hasToken, fetches);
    var res := CommandOutcome(c.outcome, detailMessage, bodyReadable);
    var s1 := s.(blockedUntil := c.blockedUntil);
    if res.Accepted? then
      var e := Event("device-control", deviceId, None, command, capability, CallEnd(now, c));
      (s1.(history := LogEvent(s.history, e), queue := MarkPriority(s.queue, deviceId)), res)
    else (s1, res)
  }

  /**
   * A command goes out even inside the cooldown, and when it is refused
   * with 401 or 403 the next call that honours the cooldown is blocked.
   */
  lemma CommandAuthFailureBlocksReads(s: Store, deviceId: string, command: string, capability: string, now: int,
                                      fetches: seq<Fetch>, detailMessage: Option<string>, bodyReadable: bool,
                                      later: int, more: seq<Fetch>)
    requires s.hasToken && |fetches| > 0 && fetches[0].Status? && IsAuthFailure(fetches[0].code)
    requires now <= later < now + AuthCooldownMs
    ensures var r := ControlDevice(s, deviceId, command, capability, now, fetches, detailMessage, bodyReadable);
      && r.1 == Rejected(fetches[0].code)
      && Request(later, r.0.blockedUntil, true, true, more).outcome.Blocked?
  {
  }

  // ---------------------------------------------------------------------
  // The refresh timers

  datatype Mode = LightMode | HeavyMode

  datatype Plan = Skip | HeavyPass(refreshCaps: bool) | LightPass

  /**
   * What `refreshAllData({mode, forceCapabilities})` does first: a heavy
   * pass skips while one runs; a light pass skips while either runs, and
   * escalates to a heavy pass when the directory is empty or the last
   * heavy pass is overdue. A heavy pass reloads capabilities when forced
   * or a day after the last reload.
   */
  function PlanRefresh(s: Store, mode: Mode, forceCaps: bool, now: int): (p: Plan)
    ensures p.HeavyPass? ==> !s.heavyBusy
    ensures p.LightPass? ==> (mode == LightMode && !s.heavyBusy && !s.lightBusy
              && |s.devices| > 0 && now - s.lastHeavy <= HeavyOverdueMs)
    ensures p.Skip? <==> (if mode == HeavyMode then s.heavyBusy else s.heavyBusy || s.lightBusy)
    ensures p.HeavyPass? ==> (p.refreshCaps <==> forceCaps || now - s.lastCapabilityRefresh > CapabilityRefreshIntervalMs)
    ensures mode == LightMode && p.HeavyPass? ==> |s.devices| == 0 || now - s.lastHeavy > HeavyOverdueMs
  {
    var caps := forceCaps || now - s.lastCapabilityRefresh > CapabilityRefreshIntervalMs;
    match mode
    case HeavyMode => if s.heavyBusy then Skip else HeavyPass(caps)
    case LightMode =>
      if s.lightBusy || s.heavyBusy then Skip
      else if |s.devices| == 0 || now - s.lastHeavy > HeavyOverdueMs then HeavyPass(caps)
      else LightPass
  }

  /** What a pass hands on: the devices it refreshed, and the alerts and commands of the state diff. */
  datatype PassResult = PassResult(store: Store, refreshed: seq<string>, alerts: seq<Alert>, commands: seq<Command>)

  /** The diff step shared by both passes: kept snapshots move on and the readings are logged. */
  function Settle(s: Store, refreshed: seq<string>, rules: seq<Rule>, awayMode: bool, now: int): (r: PassResult)
    ensures r.refreshed == refreshed
    ensures forall k :: k in refreshed && FindDevice(s.devices, k).Some? ==> k in r.store.previous && r.store.previous[k] == StateOf(s.states, k)
    ensures r.store.states == s.states && r.store.devices == s.devices && r.store.queue == s.queue
    ensures SameTimers(r.store, s)
    ensures Bounded(s.history) ==> Bounded(r.store.history)
    ensures !awayMode ==> r.alerts == []
  {
    if |refreshed| == 0 then PassResult(s, [], [], [])
    else
      var d := ProcessAll(s.devices, s.states, s.previous, rules, awayMode, now, refreshed);
      forall k | k in refreshed ensures (FindDevice(s.devices, k).Some? ==> k in d.0 && d.0[k] == StateOf(s.states, k)) {
        ProcessAllKeeps(s.devices, s.states, s.previous, rules, awayMode, now, refreshed, k);
      }
      NoAlertAtHome(s.devices, s.states, s.previous, rules, awayMode, now, refreshed);
      LogAllBounded(s.history, d.1.events);
      PassResult(s.(previous := d.0, history := LogAll(s.history, d.1.events)), refreshed, d.1.alerts, d.1.commands)
  }

  /** The light pass: the next batch of at most six ids, their statuses, then the diff. */
  method LightRefresh(s: Store, now: int, statusFor: string -> Reply<Option<Status>>, rules: seq<Rule>, awayMode: bool)
    returns (r: PassResult)
    requires Inv(s)
    ensures |r.refreshed| <= StatusRefreshBatchSize
    ensures forall x :: x in r.refreshed ==> x in s.queue.ids && FindDevice(s.devices, x).Some?
    ensures forall x :: x in r.refreshed ==> (x in r.store.states && x in r.store.previous
              && r.store.previous[x] == r.store.states[x])
    ensures r.store.devices == s.devices && SameTimers(r.store, s)
    ensures Inv(r.store)
  {
    var batch, q := NextBatch(s.queue, StatusRefreshBatchSize);
    var s1 := s.(queue := q);
    assert Inv(s1);
    if |batch| == 0 {
      return PassResult(s1, [], [], []);
    }
    var fetched := RefreshStatuses(s1, batch, now, statusFor, None);
    assert forall x :: x in fetched.1 ==> x in batch && x in fetched.0.states;
    r := Settle(fetched.0, fetched.1, rules, awayMode, now);
    assert r.store.states == fetched.0.states;
    forall x | x in r.refreshed ensures x in r.store.previous && r.store.previous[x] == r.store.states[x] {
      assert FindDevice(fetched.0.devices, x).Some?;
    }
  }

  /**
   * The heavy pass: reload the directory, and when it loaded with devices,
   * fetch health and status of every listed device, then the diff.
   */
  function HeavyRefresh(s: Store, now: int, refreshCaps: bool, listReply: Reply<seq<Device>>,
                        detailFor: string -> Detail, statusFor: string -> Reply<Option<Status>>,
                        healthFor: string -> Reply<Json>, rules: seq<Rule>, awayMode: bool): (r: PassResult)
    ensures r.store.lastHeavy == now
    ensures !Delivered(s, now, listReply) ==> r.refreshed == [] && r.store.devices == []
    ensures Delivered(s, now, listReply) ==> r.store.devices == listReply.body
    ensures Delivered(s, now, listReply) ==> forall d :: d in listReply.body ==> d.deviceId in r.refreshed
    ensures Inv(s) ==> Inv(r.store)
  {
    var loaded := LoadDevices(s, now, refreshCaps, listReply, detailFor);
    var s1 := loaded.0.(lastHeavy := now);
    if !loaded.1 || |s1.devices| == 0 then PassResult(s1, [], [], [])
    else
      var ids := IdsOf(s1.devices);
      var fetched := RefreshStatuses(s1, ids, now, statusFor, Some(healthFor));
      ListedAllRefreshed(s1.devices, fetched.1);
      var r := Settle(fetched.0, fetched.1, rules, awayMode, now);
      assert r.store.devices == s1.devices;
      r
  }

  /** Every listed device is refreshed when the refresh runs over the whole directory. */
  lemma ListedAllRefreshed(devices: seq<Device>, refreshed: seq<string>)
    requires forall x :: x in refreshed <==> x in IdsOf(devices) && FindDevice(devices, x).Some?
    ensures forall d :: d in devices ==> d.deviceId in refreshed
  {
    forall d | d in devices ensures d.deviceId in refreshed {
      InIdsOf(devices, d.deviceId);
    }
  }

  /** The replies one refresh may consume. */
  datatype Inputs = Inputs(listReply: Reply<seq<Device>>, detailFor: string -> Detail,
                           statusFor: string -> Reply<Option<Status>>, healthFor: string -> Reply<Json>)

  /** `refreshAllData({mode, forceCapabilities})`, weather left aside. */
  method RefreshAll(s: Store, mode: Mode, forceCaps: bool, now: int, inputs: Inputs, rules: seq<Rule>, awayMode: bool)
    returns (r: PassResult)
    requires Inv(s)
    ensures PlanRefresh(s, mode, forceCaps, now).Skip? ==> r == PassResult(s, [], [], [])
    ensures PlanRefresh(s, mode, forceCaps, now).HeavyPass? ==> r.store.lastHeavy == now
    ensures PlanRefresh(s, mode, forceCaps, now).LightPass? ==> (|r.refreshed| <= StatusRefreshBatchSize
              && r.store.lastHeavy == s.lastHeavy && r.store.devices == s.devices)
    ensures Inv(r.store)
  {
    var plan := PlanRefresh(s, mode, forceCaps, now);
    match plan {
      case Skip =>
        r := PassResult(s, [], [], []);
      case HeavyPass(caps) =>
        r := HeavyRefresh(s, now, caps, inputs.listReply, inputs.detailFor, inputs.statusFor, inputs.healthFor, rules, awayMode);
      case LightPass =>
        r := LightRefresh(s, now, inputs.statusFor, rules, awayMode);
    }
  }
}

=== FILE: indicators.dfy ===
/**
 * Status-bar indicators of the dashboard: the relative "last seen" text,
 * the battery gauge and the offline-devices badge.
 */
module Indicators {
  import opened Optional
  import opened Text
  import opened DeviceState
  import Offline
  import Classify
  import opened Arith

  const MinuteMs: int := 60000
  const HourMs: int := 3600000
  const DayMs: int := 86400000

  // ---------------------------------------------------------------------
  // Relative time

  datatype Unit = Minutes | Hours | Days

  /** What `formatRelativeTime` shows: no timestamp, "just now", or a count of one unit. */
  datatype Shown = Unknown | JustNow | Ago(count: nat, unit: Unit)

  /**
   * The largest whole unit in `now - ts`, each computed from the previous one
   * by floor division; a missing or zero timestamp is unknown.
   */
  function Elapsed(ts: Option<int>, now: int): (r: Shown)
    ensures r.Unknown? <==> ts.None? || ts.value == 0
    ensures r.JustNow? <==> ts.Some? && ts.value != 0 && now - ts.value < MinuteMs
    ensures r.Ago? ==> r.count > 0
    ensures r.Ago? && r.unit == Days ==> r.count == (now - ts.value) / DayMs
    ensures r.Ago? && r.unit == Hours ==> r.count == (now - ts.value) / HourMs && now - ts.value < DayMs
    ensures r.Ago? && r.unit == Minutes ==> r.count == (now - ts.value) / MinuteMs && now - ts.value < HourMs
  {
    if ts.None? || ts.value == 0 then Unknown
    else
      var diff := now - ts.value;
      var seconds := diff / 1000;
      var minutes := seconds / 60;
      var hours := minutes / 60;
      var days := hours / 24;
      FloorDivDiv(diff, 1000, 60);
      FloorDivDiv(diff, MinuteMs, 60);
      FloorDivDiv(diff, HourMs, 24);
      if days > 0 then Ago(days, Days)
      else if hours > 0 then Ago(hours, Hours)
      else if minutes > 0 then Ago(minutes, Minutes)
      else JustNow
  }

  /** Russian noun form after a count: 1, 2-4, otherwise (so 21 takes the plural). */
  function UnitWord(n: nat, u: Unit): string {
    match u
    case Days => if n == 1 then "день" else if n < 5 then "дня" else "дней"
    case Hours => if n == 1 then "час" else if n < 5 then "часа" else "часов"
    case Minutes => if n == 1 then "минуту" else if n < 5 then "минуты" else "минут"
  }

  /** `formatRelativeTime(timestamp)` with `Date.now()` given as `now`. */
  function FormatRelativeTime(ts: Option<int>, now: int): (r: string)
    ensures Elapsed(ts, now).Unknown? ==> r == "Неизвестно"
    ensures Elapsed(ts, now).JustNow? ==> r == "только что"
    ensures Elapsed(ts, now).Ago? ==>
              r == IntToString(Elapsed(ts, now).count) + " " + UnitWord(Elapsed(ts, now).count, Elapsed(ts, now).unit) + " назад"
  {
    match Elapsed(ts, now)
    case Unknown => "Неизвестно"
    case JustNow => "только что"
    case Ago(n, u) => IntToString(n) + " " + UnitWord(n, u) + " назад"
  }

  /** A timestamp in the future reads as "just now". */
  lemma FutureIsJustNow(ts: int, now: int)
    requires ts != 0 && now < ts
    ensures FormatRelativeTime(Some(ts), now) == "только что"
  {
  }

  // ---------------------------------------------------------------------
  // Battery gauge

  datatype BatteryClass = Low | Medium | High

  /** The gauge's colour class for a rounded percentage. */
  function ClassOf(level: int): (c: BatteryClass)
    ensures c == High <==> level > 50
    ensures c == Medium <==> 20 < level <= 50
    ensures c == Low <==> level <= 20
  {
    if level > 50 then High else if level > 20 then Medium else Low
  }

  function Rank(c: BatteryClass): nat {
    match c
    case Low => 0
    case Medium => 1
    case High => 2
  }

  /** A fuller battery never shows a lower class. */
  lemma ClassMonotone(a: int, b: int)
    requires a <= b
    ensures Rank(ClassOf(a)) <= Rank(ClassOf(b))
  {
  }

  /** What `updateBatteryIndicator` draws for a rounded percentage. */
  datatype BatteryView = BatteryView(text: string, cls: BatteryClass, fillWidth: real, fillShown: bool, title: string)

  /**
   * `updateBatteryIndicator(battery)` with `Math.round(battery.level * 100)`
   * given as `level`: the percentage text, the colour class, the fill bar
   * `Math.max(0, Math.min(12, level / 100 * 12))` wide and shown only for a
   * positive level, and the tooltip.
   */
  function RenderBattery(level: int, charging: bool): (v: BatteryView)
    ensures v.text == IntToString(level) + "%"
    ensures v.cls == ClassOf(level)
    ensures 0.0 <= v.fillWidth <= 12.0
    // the bar is drawn exactly when it has a width
    ensures v.fillShown <==> v.fillWidth > 0.0
    ensures level >= 100 ==> v.fillWidth == 12.0
    ensures v.title == (if charging then "Заряжается: " else "Уровень заряда: ") + v.text
  {
    var w := (level as real / 100.0) * 12.0;
    var width := if w > 12.0 then 12.0 else if w < 0.0 then 0.0 else w;
    var text := IntToString(level) + "%";
    BatteryView(text, ClassOf(level), width, level > 0,
                (if charging then "Заряжается: " else "Уровень заряда: ") + text)
  }

  /** The bar grows with the level and never shrinks as the battery fills. */
  lemma FillWidthMonotone(a: int, b: int, charging: bool)
    requires a <= b
    ensures RenderBattery(a, charging).fillWidth <= RenderBattery(b, charging).fillWidth
  {
  }

  // ---------------------------------------------------------------------
  // Offline badge

  /**
   * `updateOfflineDevicesIndicator`: visible when `data.total || 0` is
   * positive; a failed load reads as a report with total 0.
   */
  function BadgeVisible(reply: Option<Offline.Report>): (visible: bool)
    ensures visible <==> reply.Some? && reply.value.total > 0
  {
    var total := if reply.Some? then reply.value.total else 0;
    total > 0
  }

  /** The badge shows exactly when some device is offline and not hidden. */
  lemma BadgeIffSomeOffline(devices: seq<Device>, hidden: seq<string>, health: map<string, Json>,
                            types: map<string, Classify.DeviceType>, lastSeen: map<string, int>)
    ensures BadgeVisible(Some(Offline.OfflineReport(devices, hidden, health, types, lastSeen)))
            <==> exists d :: d in devices && Offline.Listed(d, hidden, health)
  {
    var r := Offline.OfflineReport(devices, hidden, health, types, lastSeen);
    if r.total > 0 {
      if |r.tvs| > 0 {
        assert r.tvs[0] in r.tvs;
      } else if |r.sensors| > 0 {
        assert r.sensors[0] in r.sensors;
      } else {
        assert r.other[0] in r.other;
      }
    }
    if d :| d in devices && Offline.Listed(d, hidden, health) {
      var e := Offline.EntryOf(d, types, lastSeen);
      Offline.OfflineReportComplete(devices, hidden, health, types, lastSeen, d);
      match Offline.GroupOf(Offline.TypeOf(types, d.deviceId))
      case TvGroup => assert e in r.tvs;
      case SensorGroup => assert e in r.sensors;
      case OtherGroup => assert e in r.other;
    }
  }
}

=== FILE: notifications.dfy ===
/**
 * The dashboard's smart notifications, computed from the event history the
 * server hands out: a falling-temperature warning and a dry-air warning.
 */
module Notifications {
  import opened Optional
  import opened DeviceState
  import opened EventLog

  /** `a < b` on two logged values. */
  predicate Below(a: Option<Value>, b: Option<Value>) {
    AsNumber(a).Some? && AsNumber(b).Some? && AsNumber(a).value < AsNumber(b).value
  }

  /** `recent.every((item, i) => i === 0 || item.value < recent[i - 1].value)`. */
  predicate Decreasing(recent: seq<Reading>) {
    forall i :: 1 <= i < |recent| ==> Below(recent[i].value, recent[i - 1].value)
  }

  /** `eventHistory?.temperature || []`. */
  function TemperatureList(h: Option<History>): seq<Reading> {
    if h.Some? then h.value.temperature else []
  }

  function HumidityList(h: Option<History>): seq<Reading> {
    if h.Some? then h.value.humidity else []
  }

  /** The temperature warning: at least three readings, and the last three fall strictly. */
  predicate TemperatureAlert(h: Option<History>) {
    var t := TemperatureList(h);
    |t| >= 3 && Decreasing(t[|t| - 3..])
  }

  /** The humidity warning: the newest reading is below 35. */
  predicate HumidityAlert(h: Option<History>) {
    var t := HumidityList(h);
    |t| > 0 && Below(t[|t| - 1].value, Some(Num(35.0)))
  }

  datatype Notice = FallingTemperature | DryAir

  /** `checkSmartNotifications`: the warnings shown, temperature first. */
  function Check(h: Option<History>): (r: seq<Notice>)
    ensures FallingTemperature in r <==> TemperatureAlert(h)
    ensures DryAir in r <==> HumidityAlert(h)
    ensures |r| <= 2
    // when both apply, the temperature warning comes first
    ensures TemperatureAlert(h) && HumidityAlert(h) ==> r == [FallingTemperature, DryAir]
  {
    (if TemperatureAlert(h) then [FallingTemperature] else [])
      + (if HumidityAlert(h) then [DryAir] else [])
  }

  /** The temperature warning, spelled out on the last three readings. */
  lemma TemperatureAlertIff(h: Option<History>)
    ensures TemperatureAlert(h) <==>
      var t := TemperatureList(h);
      |t| >= 3 && Below(t[|t| - 1].value, t[|t| - 2].value) && Below(t[|t| - 2].value, t[|t| - 3].value)
  {
    var t := TemperatureList(h);
    if |t| >= 3 {
      var recent := t[|t| - 3..];
      assert recent[1] == t[|t| - 2] && recent[2] == t[|t| - 1] && recent[0] == t[|t| - 3];
    }
  }

  /** Without a history, or with fewer than three temperature readings, nothing warns about temperature. */
  lemma ShortHistoryNoTemperatureAlert(h: Option<History>)
    requires h.None? || |h.value.temperature| < 3
    ensures !TemperatureAlert(h) && FallingTemperature !in Check(h)
  {
  }

  /** Two equal numeric readings in a row at the end block the temperature warning. */
  lemma EqualPairBlocks(h: Option<History>)
    requires |TemperatureList(h)| >= 3
    requires var t := TemperatureList(h); t[|t| - 1].value == t[|t| - 2].value
    ensures !TemperatureAlert(h)
  {
    TemperatureAlertIff(h);
  }

  /** Only the last three readings matter: older ones can be anything. */
  lemma {:induction false} OnlyLastThree(older: seq<Reading>, last: seq<Reading>, rest: History)
    requires |last| == 3
    ensures TemperatureAlert(Some(rest.(temperature := older + last)))
            == TemperatureAlert(Some(rest.(temperature := last)))
  {
    var t := older + last;
    assert t[|t| - 3..] == last;
    assert last[|last| - 3..] == last;
  }

  /** The dry-air threshold is strict: 35 does not warn, anything lower does, and a `null` reading counts as 0. */
  lemma HumidityThreshold(h: History, x: real)
    requires |h.humidity| > 0
    ensures h.humidity[|h.humidity| - 1].value == Some(Num(x)) ==> (HumidityAlert(Some(h)) <==> x < 35.0)
    ensures h.humidity[|h.humidity| - 1].value.None? ==> HumidityAlert(Some(h))
  {
  }
}

=== FILE: offline.dfy ===
/**
 * The offline report of the dashboard (`GET /api/offline-devices`) and the
 * list of devices the user has hidden from it (`POST /api/device/hide`,
 * `POST /api/device/show`).
 *
 * A device is offline only by its stored health report; the report groups
 * offline devices into TVs, temperature sensors and the rest, the rest
 * with a sub-type read off the device name.
 */
module Offline {
  import opened Optional
  import opened Text
  import opened DeviceState
  import opened Classify

  /** `state || deviceHealth || status` of one object. */
  function StateField(j: Option<Json>): Option<Json> {
    JsonOr(JsonOr(Field(j, "state"), Field(j, "deviceHealth")), Field(j, "status"))
  }

  /**
   * The health word of a report: the first truthy of `state`,
   * `deviceHealth`, `status`; when none is, the same three of the nested
   * `device` object.
   */
  function HealthState(h: Option<Json>): (r: Option<Json>)
    ensures JsonTruthy(Field(h, "state")) ==> r == Field(h, "state")
    ensures !JsonTruthy(Field(h, "state")) && JsonTruthy(Field(h, "deviceHealth")) ==> r == Field(h, "deviceHealth")
    ensures !JsonTruthy(Field(h, "state")) && !JsonTruthy(Field(h, "deviceHealth")) && JsonTruthy(Field(h, "status"))
            ==> r == Field(h, "status")
    // the nested object is consulted only when no top-level word is truthy
    ensures JsonTruthy(StateField(h)) ==> r == StateField(h)
    ensures !JsonTruthy(StateField(h)) && JsonTruthy(Field(h, "device")) && Field(h, "device").value.JObj?
            ==> r == StateField(Field(h, "device"))
  {
    var top := StateField(h);
    var dev := Field(h, "device");
    if !JsonTruthy(top) && JsonTruthy(dev) && dev.value.JObj? then StateField(dev) else top
  }

  /** The health words that mean offline, after upper-casing. */
  predicate OfflineWord(s: string) {
    s == "OFFLINE" || s == "UNKNOWN"
  }

  /** A device is offline when its report's health word is a string reading OFFLINE or UNKNOWN in any case. */
  predicate IsOffline(h: Option<Json>) {
    JsonTruthy(h) && JsonTruthy(HealthState(h)) && HealthState(h).value.JStr?
    && OfflineWord(Upper(HealthState(h).value.s))
  }

  /** A device whose health was never fetched, or whose report names no string word, is not offline. */
  lemma NoWordNotOffline(h: Option<Json>)
    requires h.None? || !(HealthState(h).Some? && HealthState(h).value.JStr?)
    ensures !IsOffline(h)
  {
  }

  /** A top-level `state` string decides alone; nested words are not read. */
  lemma TopLevelStateDecides(fields: map<string, Json>, s: string)
    requires "state" in fields && fields["state"] == JStr(s) && s != ""
    ensures IsOffline(Some(JObj(fields))) <==> OfflineWord(Upper(s))
  {
    var h := Some(JObj(fields));
    assert Field(h, "state") == Some(JStr(s));
    assert HealthState(h) == Some(JStr(s));
  }

  /** With no top-level word, a nested `device.state` string decides. */
  lemma NestedStateDecides(fields: map<string, Json>, inner: map<string, Json>, s: string)
    requires "state" !in fields && "deviceHealth" !in fields && "status" !in fields
    requires "device" in fields && fields["device"] == JObj(inner)
    requires "state" in inner && inner["state"] == JStr(s) && s != ""
    ensures IsOffline(Some(JObj(fields))) <==> OfflineWord(Upper(s))
  {
    var h := Some(JObj(fields));
    assert !JsonTruthy(StateField(h));
    assert Field(h, "device") == Some(JObj(inner));
    assert Field(Field(h, "device"), "state") == Some(JStr(s));
    assert HealthState(h) == Some(JStr(s));
  }

  /** The sub-type of a device that is neither a TV nor a temperature sensor, from its lower-cased name. */
  function SubType(l: string): (r: string)
    ensures r in {"light", "outlet", "fan", "sensor", "other"}
    ensures r == "light" <==> LightWord(l)
    ensures r == "outlet" <==> !LightWord(l) && OutletWord(l)
    ensures r == "fan" <==> !LightWord(l) && !OutletWord(l) && FanWord(l)
    ensures r == "sensor" <==> !LightWord(l) && !OutletWord(l) && !FanWord(l) && SensorWord(l)
    ensures r == "other" <==> !LightWord(l) && !OutletWord(l) && !FanWord(l) && !SensorWord(l)
  {
    if LightWord(l) then "light"
    else if OutletWord(l) then "outlet"
    else if FanWord(l) then "fan"
    else if SensorWord(l) then "sensor"
    else "other"
  }

  predicate LightWord(l: string) {
    Contains(l, "\U{043B}\U{0430}\U{043C}\U{043F}\U{0430}")  // "лампа"
    || Contains(l, "\U{043B}\U{0430}\U{043C}\U{043F}\U{043E}\U{0447}\U{043A}\U{0430}")  // "лампочка"
    || Contains(l, "bulb") || Contains(l, "light")
    || Contains(l, "\U{043B}\U{0435}\U{043D}\U{0442}\U{0430}")  // "лента"
    || Contains(l, "strip") || Contains(l, "led")
  }

  predicate OutletWord(l: string) {
    Contains(l, "\U{0440}\U{043E}\U{0437}\U{0435}\U{0442}\U{043A}\U{0430}")  // "розетка"
    || Contains(l, "outlet") || Contains(l, "socket") || Contains(l, "plug")
  }

  predicate FanWord(l: string) {
    Contains(l, "\U{0432}\U{0435}\U{043D}\U{0442}\U{0438}\U{043B}\U{044F}\U{0442}\U{043E}\U{0440}")  // "вентилятор"
    || Contains(l, "fan")
  }

  predicate SensorWord(l: string) {
    Contains(l, "\U{0434}\U{0430}\U{0442}\U{0447}\U{0438}\U{043A}")  // "датчик"
    || Contains(l, "sensor")
    || Contains(l, "\U{043A}\U{043E}\U{043D}\U{0442}\U{0430}\U{043A}\U{0442}")  // "контакт"
    || Contains(l, "contact")
  }

  /** One line of the report. */
  datatype Entry = Entry(deviceId: string, labelText: string, lastSeen: Option<int>, subType: Option<string>)

  datatype Report = Report(tvs: seq<Entry>, sensors: seq<Entry>, other: seq<Entry>, total: nat)

  datatype Group = TvGroup | SensorGroup | OtherGroup

  /** The stored type, or neither TV nor sensor when none is stored. */
  function TypeOf(types: map<string, DeviceType>, id: string): DeviceType {
    if id in types then types[id] else DeviceType(false, false)
  }

  function HealthOf(health: map<string, Json>, id: string): Option<Json> {
    if id in health then Some(health[id]) else None
  }

  /** `lastSeen || null`. */
  function LastSeenOf(lastSeen: map<string, int>, id: string): Option<int> {
    if id in lastSeen && lastSeen[id] != 0 then Some(lastSeen[id]) else None
  }

  /** TV before temperature sensor before the rest. */
  function GroupOf(t: DeviceType): (g: Group)
    ensures g == TvGroup <==> t.isTV
    ensures g == SensorGroup <==> !t.isTV && t.isTemperatureSensor
  {
    if t.isTV then TvGroup else if t.isTemperatureSensor then SensorGroup else OtherGroup
  }

  /** The line a device gets, in its group. */
  function EntryOf(d: Device, types: map<string, DeviceType>, lastSeen: map<string, int>): Entry {
    var labelText := LabelOr(d, DefaultLabel);
    var sub := if GroupOf(TypeOf(types, d.deviceId)) == OtherGroup then Some(SubType(Lower(labelText))) else None;
    Entry(d.deviceId, labelText, LastSeenOf(lastSeen, d.deviceId), sub)
  }

  /** Whether a device makes the report. */
  predicate Listed(d: Device, hidden: seq<string>, health: map<string, Json>) {
    d.deviceId !in hidden && IsOffline(HealthOf(health, d.deviceId))
  }

  function Place(d: Device, types: map<string, DeviceType>, lastSeen: map<string, int>, r: Report): Report {
    var e := EntryOf(d, types, lastSeen);
    match GroupOf(TypeOf(types, d.deviceId))
    case TvGroup => Report([e] + r.tvs, r.sensors, r.other, r.total + 1)
    case SensorGroup => Report(r.tvs, [e] + r.sensors, r.other, r.total + 1)
    case OtherGroup => Report(r.tvs, r.sensors, [e] + r.other, r.total + 1)
  }

  /** `GET /api/offline-devices`. */
  function OfflineReport(devices: seq<Device>, hidden: seq<string>, health: map<string, Json>,
                         types: map<string, DeviceType>, lastSeen: map<string, int>): (r: Report)
    ensures r.total == |r.tvs| + |r.sensors| + |r.other| <= |devices|
    // only offline devices that are not hidden are listed, each in the group its type picks
    ensures forall e :: e in r.tvs ==> exists d :: d in devices && Listed(d, hidden, health) && e == EntryOf(d, types, lastSeen) && TypeOf(types, d.deviceId).isTV
    ensures forall e :: e in r.sensors ==> exists d :: (d in devices && Listed(d, hidden, health) && e == EntryOf(d, types, lastSeen)
              && !TypeOf(types, d.deviceId).isTV && TypeOf(types, d.deviceId).isTemperatureSensor)
    ensures forall e :: e in r.other ==> exists d :: (d in devices && Listed(d, hidden, health) && e == EntryOf(d, types, lastSeen)
              && GroupOf(TypeOf(types, d.deviceId)) == OtherGroup)
    decreases |devices|
  {
    if |devices| == 0 then Report([], [], [], 0)
    else
      var rest := OfflineReport(devices[1..], hidden, health, types, lastSeen);
      assert forall d :: d in devices ==> d == devices[0] || d in devices[1..];
      assert forall d :: d in devices[1..] ==> d in devices;
      if Listed(devices[0], hidden, health) then Place(devices[0], types, lastSeen, rest) else rest
  }

  /** Every offline device that is not hidden is listed, in the group its type picks. */
  lemma {:induction false} OfflineReportComplete(devices: seq<Device>, hidden: seq<string>, health: map<string, Json>,
                                                 types: map<string, DeviceType>, lastSeen: map<string, int>, d: Device)
    requires d in devices && Listed(d, hidden, health)
    ensures var r := OfflineReport(devices, hidden, health, types, lastSeen);
      match GroupOf(TypeOf(types, d.deviceId))
      case TvGroup => EntryOf(d, types, lastSeen) in r.tvs
      case SensorGroup => EntryOf(d, types, lastSeen) in r.sensors
      case OtherGroup => EntryOf(d, types, lastSeen) in r.other
    decreases |devices|
  {
    if d != devices[0] {
      assert d in devices[1..];
      OfflineReportComplete(devices[1..], hidden, health, types, lastSeen, d);
    }
  }

  // ---------------------------------------------------------------------
  // Hidden devices

  datatype Reply = BadRequest | Saved(hidden: seq<string>)

  /** `POST /api/device/hide`: a missing or empty id is refused; a new id is appended. */
  function Hide(hidden: seq<string>, deviceId: Option<string>): (r: Reply)
    ensures r.BadRequest? <==> deviceId.None? || deviceId.value == ""
    ensures r.Saved? ==> deviceId.value in r.hidden
    ensures r.Saved? ==> forall x :: x in r.hidden <==> x in hidden || x == deviceId.value
    ensures r.Saved? && deviceId.value in hidden ==> r.hidden == hidden
  {
    if deviceId.None? || deviceId.value == "" then BadRequest
    else if deviceId.value in hidden then Saved(hidden)
    else Saved(hidden + [deviceId.value])
  }

  /** `indexOf`: the first position of `x`. */
  function FirstIndex(xs: seq<string>, x: string): (i: Option<nat>)
    ensures i.Some? ==> i.value < |xs| && xs[i.value] == x && x !in xs[..i.value]
    ensures i.None? <==> x !in xs
    decreases |xs|
  {
    if |xs| == 0 then None
    else if xs[0] == x then Some(0)
    else match FirstIndex(xs[1..], x)
      case None => None
      case Some(j) => assert xs[..j + 1] == [xs[0]] + xs[1..][..j]; Some(j + 1)
  }

  /** `POST /api/device/show`: a missing or empty id is refused; otherwise the first occurrence is spliced out. */
  function Show(hidden: seq<string>, deviceId: Option<string>): (r: Reply)
    ensures r.BadRequest? <==> deviceId.None? || deviceId.value == ""
    ensures r.Saved? && deviceId.value !in hidden ==> r.hidden == hidden
    ensures r.Saved? && deviceId.value in hidden ==> |r.hidden| == |hidden| - 1
    ensures r.Saved? ==> forall x :: x != deviceId.value ==> (x in r.hidden <==> x in hidden)
  {
    if deviceId.None? || deviceId.value == "" then BadRequest
    else match FirstIndex(hidden, deviceId.value)
      case None => Saved(hidden)
      case Some(i) =>
        var r := hidden[..i] + hidden[i + 1..];
        assert forall x :: x in hidden ==> x in hidden[..i] || x == hidden[i] || x in hidden[i + 1..] by {
          assert hidden == hidden[..i] + [hidden[i]] + hidden[i + 1..];
        }
        Saved(r)
  }

  /** Hiding a device and showing it again restores the list. */
  lemma HideShowRoundTrip(hidden: seq<string>, id: string)
    requires id != "" && id !in hidden
    ensures Show(Hide(hidden, Some(id)).hidden, Some(id)) == Saved(hidden)
  {
    var h := hidden + [id];
    var i := FirstIndex(h, id);
    assert h[|hidden|] == id;
    assert forall k :: 0 <= k < |hidden| ==> h[k] == hidden[k];
    assert i.Some? && i.value == |hidden|;
    assert h[..|hidden|] == hidden;
  }

  /** Hiding is idempotent. */
  lemma HideIdempotent(hidden: seq<string>, id: string)
    requires id != ""
    ensures Hide(Hide(hidden, Some(id)).hidden, Some(id)) == Hide(hidden, Some(id))
  {
  }

  /** A hidden device never appears in the offline report. */
  lemma HiddenNotReported(devices: seq<Device>, hidden: seq<string>, id: string, health: map<string, Json>,
                          types: map<string, DeviceType>, lastSeen: map<string, int>)
    requires id != ""
    ensures var r := OfflineReport(devices, Hide(hidden, Some(id)).hidden, health, types, lastSeen);
      forall e :: e in r.tvs + r.sensors + r.other ==> e.deviceId != id
  {
    var hh := Hide(hidden, Some(id)).hidden;
    var r := OfflineReport(devices, hh, health, types, lastSeen);
    forall e | e in r.tvs + r.sensors + r.other ensures e.deviceId != id {
      assert e in r.tvs || e in r.sensors || e in r.other;
    }
  }
}

=== FILE: optional.dfy ===
/** The JavaScript `undefined`/`null`-or-value shape used throughout the dashboard. */
module Optional {

  datatype Option<+T> = None | Some(value: T) {

    /** `x || fallback` for a value that is either present or absent. */
    function GetOr(fallback: T): (r: T)
      ensures Some? ==> r == value
      ensures None? ==> r == fallback
    {
      match this
      case Some(v) => v
      case None => fallback
    }
  }
}

=== FILE: refresh_queue.dfy ===
/**
 * The light-refresh queue: the ordered device ids of the directory, a
 * round-robin cursor into them and the priority set of ids that just
 * received a command (a JavaScript `Set`, so insertion-ordered and free of
 * duplicates).
 */
module RefreshQueue {
  import opened Arith

  datatype Queue = Queue(ids: seq<string>, cursor: nat, priority: seq<string>)

  /** Batch size the light refresh asks for. */
  const StatusRefreshBatchSize: int := 6

  predicate Distinct(s: seq<string>) {
    forall i, j :: 0 <= i < j < |s| ==> s[i] != s[j]
  }

  /** The cursor points into the queue, and is 0 for an empty queue. */
  predicate CursorInRange(q: Queue) {
    if |q.ids| == 0 then q.cursor == 0 else q.cursor < |q.ids|
  }

  /** What the source keeps of the queue between calls. */
  predicate Valid(q: Queue) {
    CursorInRange(q) && Distinct(q.priority) && "" !in q.priority
  }

  /** `r` is `xs` with some entries left out, the rest in their order (matched greedily from the end). */
  predicate Subsequence(r: seq<string>, xs: seq<string>)
    decreases |xs|
  {
    |r| == 0 || (|xs| > 0 &&
      if r[|r| - 1] == xs[|xs| - 1] then Subsequence(r[..|r| - 1], xs[..|xs| - 1])
      else Subsequence(r, xs[..|xs| - 1]))
  }

  /** The ids of `xs` that are in `ids`, in the order of `xs`. */
  function Known(xs: seq<string>, ids: seq<string>): (r: seq<string>)
    ensures |r| <= |xs|
    ensures forall x :: x in r <==> x in xs && x in ids
    ensures Subsequence(r, xs)
    decreases |xs|
  {
    if |xs| == 0 then []
    else
      var k := Known(xs[..|xs| - 1], ids);
      var last := xs[|xs| - 1];
      if last in ids then
        assert (k + [last])[..|k|] == k;
        k + [last]
      else
        assert |k| > 0 ==> k[|k| - 1] in k;
        k
  }

  /** `count` ids taken cyclically from position `c`. */
  function Window(ids: seq<string>, c: nat, count: nat): (r: seq<string>)
    requires |ids| > 0
    ensures |r| == count
    ensures forall i :: 0 <= i < count ==> r[i] == ids[(c + i) % |ids|]
  {
    seq(count, i requires 0 <= i < count => ids[(c + i) % |ids|])
  }

  /**
   * `updateDeviceRefreshQueue`: rebuild the id list from the directory and
   * bring the cursor back into range.
   */
  function Update(q: Queue, ids: seq<string>): (r: Queue)
    ensures r.ids == ids && r.priority == q.priority
    ensures CursorInRange(r)
    ensures |ids| > 0 ==> r.cursor % |ids| == q.cursor % |ids|
    ensures q.cursor < |ids| ==> r.cursor == q.cursor
  {
    if |ids| == 0 then Queue(ids, 0, q.priority)
    else if q.cursor >= |ids| then Queue(ids, q.cursor % |ids|, q.priority)
    else Queue(ids, q.cursor, q.priority)
  }

  /** `markDeviceAsPriority`: a non-empty id joins the priority set. */
  function MarkPriority(q: Queue, id: string): (r: Queue)
    ensures r.ids == q.ids && r.cursor == q.cursor
    ensures |r.priority| >= |q.priority| && r.priority[..|q.priority|] == q.priority
    ensures forall x :: x in r.priority <==> x in q.priority || (x == id && id != "")
    ensures Valid(q) ==> Valid(r)
  {
    if id != "" && id !in q.priority then Queue(q.ids, q.cursor, q.priority + [id]) else q
  }

  /** Marking the same id twice is marking it once. */
  lemma MarkPriorityIdempotent(q: Queue, id: string)
    ensures MarkPriority(MarkPriority(q, id), id) == MarkPriority(q, id)
  {
  }

  /** `(c + i) % n` without the modulus, for `c < n` and `i <= n`. */
  lemma ModWrap(c: nat, i: nat, n: nat)
    requires c < n && i <= n
    ensures (c + i) % n == if c + i < n then c + i else c + i - n
  {
    if c + i >= n {
      assert c + i == 1 * n + (c + i - n);
    }
  }

  /** Positions of one lap from a cursor are pairwise different. */
  lemma ModDistinct(c: nat, i: nat, a: nat, n: nat)
    requires c < n && i < a < n
    ensures (c + i) % n != (c + a) % n
  {
    ModWrap(c, i, n);
    ModWrap(c, a, n);
  }

  /** Advancing a cursor `(c + a) % n` by one step. */
  lemma ModSucc(c: nat, a: nat, n: nat)
    requires c < n && a < n
    ensures ((c + a) % n + 1) % n == (c + a + 1) % n
  {
    ModWrap(c, a, n);
    ModWrap(c, a + 1, n);
    var p := (c + a) % n;
    if p + 1 == n { assert (p + 1) % n == 0; } else { assert (p + 1) % n == p + 1; }
    if c + a + 1 == 2 * n { assert (c + a + 1) % n == 0; }
  }

  /** Less than a lap of a queue of distinct ids never repeats an id. */
  lemma WindowStep(ids: seq<string>, c: nat, a: nat)
    requires Distinct(ids) && c < |ids| && a < |ids|
    ensures ids[(c + a) % |ids|] !in Window(ids, c, a)
    ensures Window(ids, c, a + 1) == Window(ids, c, a) + [ids[(c + a) % |ids|]]
  {
    var w := Window(ids, c, a);
    forall i | 0 <= i < a ensures w[i] != ids[(c + a) % |ids|] {
      ModDistinct(c, i, a, |ids|);
    }
  }

  /**
   * First phase of `getDeviceBatchForLightRefresh`: visit the priority set in
   * insertion order until the batch is full; each visited id is selected if
   * it is still queued. `k` is how many ids were visited.
   */
  method TakePriority(prio: seq<string>, ids: seq<string>, batchSize: int) returns (selected: seq<string>, k: nat)
    requires Distinct(prio)
    ensures k <= |prio|
    ensures selected == Known(prio[..k], ids)
    ensures Distinct(selected)
    ensures |selected| <= if batchSize < 0 then 0 else batchSize
    ensures k < |prio| ==> |selected| >= batchSize
  {
    selected := [];
    k := 0;
    while k < |prio|
      invariant 0 <= k <= |prio|
      invariant selected == Known(prio[..k], ids)
      invariant Distinct(selected)
      invariant forall x :: x in selected ==> x in prio[..k]
      invariant |selected| <= if batchSize < 0 then 0 else batchSize
    {
      if |selected| >= batchSize {
        return;
      }
      assert prio[..k + 1][..k] == prio[..k];
      assert prio[k] !in selected;
      if prio[k] in ids {
        selected := selected + [prio[k]];
      }
      k := k + 1;
    }
  }

  /**
   * Second phase: fill the batch from the cursor, skipping blank ids and ids
   * already selected, for at most two laps of the queue. Returns the grown
   * batch and the cursor after the last position looked at.
   */
  method FillFromCursor(ids: seq<string>, cursor: nat, start: seq<string>, batchSize: int)
    returns (selected: seq<string>, pos: nat)
    requires |ids| > 0 && cursor < |ids|
    requires Distinct(start) && |start| <= (if batchSize < 0 then 0 else batchSize)
    requires forall x :: x in start ==> x in ids
    ensures pos < |ids|
    ensures Distinct(selected)
    ensures forall x :: x in selected ==> x in ids
    ensures |selected| <= if batchSize < 0 then 0 else batchSize
    ensures |start| <= |selected| && selected[..|start|] == start
    ensures start == [] && Distinct(ids) && "" !in ids && 0 <= batchSize <= |ids|
            ==> selected == Window(ids, cursor, batchSize as nat) && pos == (cursor + batchSize) % |ids|
  {
    ghost var rr := start == [] && Distinct(ids) && "" !in ids && 0 <= batchSize <= |ids|;
    var n := |ids|;
    var maxAttempts := n * 2;
    var attempts := 0;
    selected := start;
    pos := cursor;
    while |selected| < batchSize && attempts < maxAttempts
      invariant 0 <= attempts <= maxAttempts
      invariant pos < n
      invariant Distinct(selected)
      invariant forall x :: x in selected ==> x in ids
      invariant |selected| <= if batchSize < 0 then 0 else batchSize
      invariant |start| <= |selected| && selected[..|start|] == start
      invariant rr ==> attempts <= batchSize && pos == (cursor + attempts) % n
                       && selected == Window(ids, cursor, attempts)
      decreases maxAttempts - attempts
    {
      var candidate := ids[pos];
      if rr {
        ModSucc(cursor, attempts, n);
        WindowStep(ids, cursor, attempts);
        assert candidate in ids && candidate !in selected;
      }
      pos := (pos + 1) % n;
      attempts := attempts + 1;
      if candidate == "" || candidate in selected {
        continue;
      }
      selected := selected + [candidate];
    }
  }

  /**
   * `getDeviceBatchForLightRefresh`: the priority phase, then the
   * round-robin fill. The priority set loses exactly the ids it visited.
   */
  method NextBatch(q: Queue, batchSize: int) returns (selected: seq<string>, r: Queue)
    requires Distinct(q.priority) && CursorInRange(q)
    ensures |q.ids| == 0 ==> selected == [] && r == q
    ensures |selected| <= if batchSize < 0 then 0 else batchSize
    ensures Distinct(selected)
    ensures forall x :: x in selected ==> x in q.ids
    ensures r.ids == q.ids
    ensures CursorInRange(r)
    ensures Distinct(r.priority) && forall x :: x in r.priority ==> x in q.priority
    // The visited prefix of the priority set leaves it; its ids that are
    // still queued lead the batch in insertion order; the rest stay pending
    // only because the batch filled up.
    ensures exists k :: (0 <= k <= |q.priority| && r.priority == q.priority[k..]
      && (|q.ids| > 0 ==> (|Known(q.priority[..k], q.ids)| <= |selected|
                           && selected[..|Known(q.priority[..k], q.ids)|] == Known(q.priority[..k], q.ids)))
      && (k < |q.priority| ==> (|q.ids| == 0 || |Known(q.priority[..k], q.ids)| >= batchSize)))
    // Without priority ids, a batch over distinct non-blank ids is the next
    // `batchSize` ids cyclically from the cursor.
    ensures |q.priority| == 0 && Distinct(q.ids) && "" !in q.ids && 0 <= batchSize <= |q.ids| && |q.ids| > 0
            ==> selected == Window(q.ids, q.cursor, batchSize as nat)
                && r.cursor == (q.cursor + batchSize) % |q.ids|
  {
    if |q.ids| == 0 {
      return [], q;
    }
    var known, k := TakePriority(q.priority, q.ids, batchSize);
    var pos;
    selected, pos := FillFromCursor(q.ids, q.cursor, known, batchSize);
    r := Queue(q.ids, pos, q.priority[k..]);
    assert q.priority[..0] == [];
  }

  /** Two consecutive windows are one longer window. */
  lemma ConsecutiveWindows(ids: seq<string>, c: nat, a: nat, b: nat)
    requires |ids| > 0
    ensures Window(ids, c, a) + Window(ids, (c + a) % |ids|, b) == Window(ids, c, a + b)
  {
    var n := |ids|;
    var w := Window(ids, c, a) + Window(ids, (c + a) % n, b);
    forall i | a <= i < a + b ensures w[i] == ids[(c + i) % n] {
      ModAdd(c + a, i - a, n);
    }
  }

  lemma ModAdd(x: nat, y: nat, n: nat)
    requires n > 0
    ensures (x % n + y) % n == (x + y) % n
  {
    var qx := x / n;
    var q1 := (x % n + y) / n;
    var r1 := (x % n + y) % n;
    assert x == qx * n + x % n;
    assert x % n + y == q1 * n + r1;
    assert x + y == (qx + q1) * n + r1;
    assert x + y == n * (qx + q1) + r1;
    DivUnique(x + y, n, qx + q1, r1);
  }

  /**
   * Round-robin fairness: one lap of batches from any cursor selects every
   * queued id, and none of them twice.
   */
  lemma LapCoversQueue(ids: seq<string>, c: nat)
    requires Distinct(ids) && 0 < |ids| && c < |ids|
    ensures Distinct(Window(ids, c, |ids|))
    ensures forall x :: x in ids ==> x in Window(ids, c, |ids|)
  {
    var n := |ids|;
    var w := Window(ids, c, n);
    forall i, j | 0 <= i < j < n ensures w[i] != w[j] {
      ModDistinct(c, i, j, n);
    }
    forall x | x in ids ensures x in w {
      var p :| 0 <= p < n && ids[p] == x;
      var i := if p >= c then p - c else p + n - c;
      ModWrap(c, i, n);
      assert w[i] == x;
    }
  }
}

=== FILE: scenes.dfy ===
/**
 * The dashboard's scenes page: the four built-in scenes run in the browser,
 * stored scenes run on the server, and the forms that create schedules and
 * automations and switch them on and off.
 */
module Scenes {
  import opened Optional
  import opened Text
  import opened DeviceState
  import opened Automation

  // ---------------------------------------------------------------------
  // Running a scene

  predicate BuiltIn(sceneId: string) {
    sceneId == "home" || sceneId == "night" || sceneId == "wake" || sceneId == "away"
  }

  predicate HomeWord(l: string) {
    Contains(l, "лампа") || Contains(l, "свет") || Contains(l, "лента") || Contains(l, "pc") || Contains(l, "пк")
  }

  predicate AwayWord(l: string) {
    Contains(l, "outlet") || Contains(l, "лампа") || Contains(l, "свет")
  }

  /** The command a built-in scene gives one device with a switch, from its lower-cased label. */
  function SceneCommand(sceneId: string, l: string): Option<string> {
    if sceneId == "home" then (if HomeWord(l) then Some("on") else None)
    else if sceneId == "night" then Some("off")
    else if sceneId == "away" then (if AwayWord(l) then Some("off") else None)
    else None
  }

  /** The commands of a built-in scene over the device list, in list order. */
  function BuiltInCommands(sceneId: string, devices: seq<Device>, states: StateMap): (r: seq<Control>)
    ensures forall c :: c in r ==> exists d :: (d in devices && d.deviceId == c.deviceId
                                                && HasCap(StateOf(states, d.deviceId), "switch")
                                                && SceneCommand(sceneId, Lower(LabelOr(d, ""))) == Some(c.command))
    ensures forall d :: d in devices && HasCap(StateOf(states, d.deviceId), "switch")
                        && SceneCommand(sceneId, Lower(LabelOr(d, ""))).Some?
                        ==> Control(d.deviceId, SceneCommand(sceneId, Lower(LabelOr(d, ""))).value) in r
    decreases |devices|
  {
    if |devices| == 0 then []
    else
      var d := devices[0];
      var rest := BuiltInCommands(sceneId, devices[1..], states);
      assert forall x :: x in devices <==> x == d || x in devices[1..];
      var cmd := SceneCommand(sceneId, Lower(LabelOr(d, "")));
      if HasCap(StateOf(states, d.deviceId), "switch") && cmd.Some?
      then [Control(d.deviceId, cmd.value)] + rest
      else rest
  }

  /** What running a scene does: commands from the browser, a request to the server, or nothing. */
  datatype Run = Commands(controls: seq<Control>) | EmitScene(sceneId: string) | NoRun

  /**
   * `executeScene(sceneId)`: a built-in scene controls switch devices
   * directly; any other id is sent to the server only when it names a
   * scene stored in the browser and the socket is connected.
   */
  function ExecuteScene(sceneId: string, devices: seq<Device>, states: StateMap,
                        localScenes: seq<Scene>, connected: bool): (r: Run)
    ensures BuiltIn(sceneId) <==> r.Commands?
    ensures r.EmitScene? <==> !BuiltIn(sceneId) && FindBy(localScenes, SceneId, sceneId).Some? && connected
    ensures r.EmitScene? ==> r.sceneId == sceneId
    // a built-in scene sends exactly its per-device commands to the switch devices it names
    ensures r.Commands? ==> r.controls == BuiltInCommands(sceneId, devices, states)
    ensures r.Commands? ==>
      forall d :: d in devices && HasCap(StateOf(states, d.deviceId), "switch")
                  && SceneCommand(sceneId, Lower(LabelOr(d, ""))).Some?
                  ==> Control(d.deviceId, SceneCommand(sceneId, Lower(LabelOr(d, ""))).value) in r.controls
  {
    if BuiltIn(sceneId) then Commands(BuiltInCommands(sceneId, devices, states))
    else
      match FindBy(localScenes, SceneId, sceneId)
      case Some(sc) => if connected then EmitScene(sc.id) else NoRun
      case None => NoRun
  }

  /** `night` turns off every device with a switch and nothing else; `wake` does nothing. */
  lemma NightAndWake(devices: seq<Device>, states: StateMap)
    ensures forall c :: c in BuiltInCommands("night", devices, states) ==> c.command == "off"
    ensures forall d :: d in devices && HasCap(StateOf(states, d.deviceId), "switch")
                        ==> Control(d.deviceId, "off") in BuiltInCommands("night", devices, states)
    ensures BuiltInCommands("wake", devices, states) == []
  {
    WakeIsEmpty(devices, states);
  }

  lemma {:induction false} WakeIsEmpty(devices: seq<Device>, states: StateMap)
    ensures BuiltInCommands("wake", devices, states) == []
    decreases |devices|
  {
    if |devices| > 0 {
      WakeIsEmpty(devices[1..], states);
    }
  }

  /**
   * `home` only switches on and `away` only switches off, and every lamp or
   * light `home` switches on, `away` switches off again.
   */
  lemma HomeAwayLights(devices: seq<Device>, states: StateMap, d: Device)
    requires d in devices && HasCap(StateOf(states, d.deviceId), "switch")
    requires Contains(Lower(LabelOr(d, "")), "лампа") || Contains(Lower(LabelOr(d, "")), "свет")
    ensures Control(d.deviceId, "on") in BuiltInCommands("home", devices, states)
    ensures Control(d.deviceId, "off") in BuiltInCommands("away", devices, states)
    ensures forall c :: c in BuiltInCommands("home", devices, states) ==> c.command == "on"
    ensures forall c :: c in BuiltInCommands("away", devices, states) ==> c.command == "off"
  {
  }

  // ---------------------------------------------------------------------
  // Day names

  /** `daysNames[d - 1]`, `undefined` outside 1..7. */
  function DayName(d: int): (r: Option<string>)
    ensures r.Some? <==> 1 <= d <= 7
  {
    var names := ["Пн", "Вт", "Ср", "Чт", "Пт", "Сб", "Вс"];
    if 1 <= d <= 7 then Some(names[d - 1]) else None
  }

  /** Day numbers 1..7 show as Monday..Sunday, each with its own name. */
  lemma DayNamesDistinct(a: int, b: int)
    requires 1 <= a <= 7 && 1 <= b <= 7 && a != b
    ensures DayName(a) != DayName(b)
    ensures DayName(1) == Some("Пн") && DayName(7) == Some("Вс")
  {
  }

  // ---------------------------------------------------------------------
  // Creating a schedule

  datatype FormError = NoName | NoTime | NoDays | BadTemperature | NoSensorState

  datatype Created<T> = Refused(error: FormError) | Created(item: T)

  /**
   * `saveSchedule`: the trimmed name, the time and at least one day are
   * required, checked in that order. The new schedule is enabled, switches
   * the chosen device, and takes the clock's reading as its id.
   */
  function NewSchedule(name: string, time: string, days: seq<int>, deviceId: string, action: string, now: nat): (r: Created<Schedule>)
    ensures r.Refused? && r.error == NoName <==> Trim(name) == ""
    ensures r.Refused? && r.error == NoTime <==> Trim(name) != "" && time == ""
    ensures r.Refused? && r.error == NoDays <==> Trim(name) != "" && time != "" && |days| == 0
    ensures r.Created? <==> Trim(name) != "" && time != "" && |days| > 0
    ensures r.Created? ==> r.item.enabled && r.item.capability == Some("switch")
                           && r.item.time == time && r.item.days == days && |r.item.days| > 0
                           && r.item.deviceId == deviceId && r.item.command == action
                           && r.item.id == NatToString(now)
  {
    if Trim(name) == "" then Refused(NoName)
    else if time == "" then Refused(NoTime)
    else if |days| == 0 then Refused(NoDays)
    else Created(Schedule(NatToString(now), true, time, days, deviceId, action, Some("switch")))
  }

  /**
   * A schedule made from a time input gets a cron pattern firing at that
   * hour and minute on exactly the chosen days.
   */
  lemma NewScheduleCron(name: string, h: nat, m: nat, days: seq<int>, deviceId: string, action: string, now: nat)
    requires h < 24 && m < 60
    requires NewSchedule(name, TimeText(h, m), days, deviceId, action, now).Created?
    ensures var s := NewSchedule(name, TimeText(h, m), days, deviceId, action, now).item;
      var f := CronFields(ScheduleCronPattern(s));
      && ScheduleTaskFor(s) == Some(Task(ScheduleCronPattern(s), ScheduleTask))
      && |f| == 5 && ParseInt(f[0]) == Some(m) && ParseInt(f[1]) == Some(h)
      && Split(f[4], ',') == DayTexts(days)
  {
    var s := NewSchedule(name, TimeText(h, m), days, deviceId, action, now).item;
    ScheduleCronRoundTrip(s, h, m);
  }

  // ---------------------------------------------------------------------
  // Creating an automation

  function EmptyCondition(): Condition {
    Condition("", "", "", None, "", None)
  }

  /**
   * `saveAutomation`. The name is required. A time condition needs a time;
   * a sensor condition reads the sensor's snapshot (a missing one throws,
   * and nothing is saved): a contact sensor waits for the chosen state, a
   * thermometer needs a number (`parseFloat` gave NaN is refused). A sensor
   * with neither, or an unknown condition type, keeps the empty condition.
   */
  function NewAutomation(name: string, conditionType: string, time: string, conditionDevice: string, state: string,
                         sensorId: string, states: StateMap, comparison: string, temperature: Option<real>,
                         actionDevice: string, action: string, now: nat): (r: Created<Rule>)
    ensures r.Refused? && r.error == NoName <==> Trim(name) == ""
    ensures r.Refused? && r.error == NoTime <==> Trim(name) != "" && conditionType == "time" && time == ""
    ensures r.Refused? && r.error == BadTemperature <==>
              Trim(name) != "" && conditionType == "sensor" && Main(StateOf(states, sensorId)).Some?
              && !HasCap(StateOf(states, sensorId), "contactSensor")
              && HasCap(StateOf(states, sensorId), "temperatureMeasurement") && temperature.None?
    ensures r.Refused? && r.error == NoSensorState <==>
              Trim(name) != "" && conditionType == "sensor" && Main(StateOf(states, sensorId)).None?
    // saved exactly when none of the refusals applies
    ensures r.Created? <==>
              Trim(name) != "" && !(conditionType == "time" && time == "")
              && !(conditionType == "sensor" && Main(StateOf(states, sensorId)).None?)
              && !(conditionType == "sensor" && !HasCap(StateOf(states, sensorId), "contactSensor")
                   && HasCap(StateOf(states, sensorId), "temperatureMeasurement") && temperature.None?)
    ensures r.Created? ==> r.item.enabled && r.item.id == NatToString(now)
                           && r.item.action == Action(actionDevice, action, Some("switch"))
    ensures r.Created? && conditionType == "time" ==> r.item.condition.ctype == "time" && TimeOf(r.item.condition) == Some(time)
    ensures r.Created? && r.item.condition.ctype == "sensor" && r.item.condition.sensorType == "temperature"
            ==> temperature.Some? && r.item.condition.value == Some(Num(temperature.value))
    // a device condition waits for the chosen switch state of the chosen device
    ensures r.Created? && conditionType == "device" ==>
              IsDeviceCondition(r.item.condition) && r.item.condition.deviceId == conditionDevice
              && r.item.condition.state == Some(Str(state))
    // a contact sensor waits for the chosen contact state; a thermometer compares with the entered number
    ensures r.Created? && conditionType == "sensor" && HasCap(StateOf(states, sensorId), "contactSensor") ==>
              IsContactCondition(r.item.condition) && r.item.condition.deviceId == sensorId
              && r.item.condition.state == Some(Str(state))
    ensures r.Created? && conditionType == "sensor" && !HasCap(StateOf(states, sensorId), "contactSensor")
            && HasCap(StateOf(states, sensorId), "temperatureMeasurement") ==>
              IsTemperatureCondition(r.item.condition) && r.item.condition.deviceId == sensorId
              && r.item.condition.comparison == comparison
    // a sensor with neither capability, or an unknown condition type, keeps the empty condition
    ensures r.Created? && conditionType != "time" && conditionType != "device"
            && !(conditionType == "sensor" && (HasCap(StateOf(states, sensorId), "contactSensor")
                                               || HasCap(StateOf(states, sensorId), "temperatureMeasurement")))
            ==> r.item.condition == EmptyCondition()
  {
    if Trim(name) == "" then Refused(NoName)
    else
      var condition: Created<Condition> :=
        if conditionType == "time" then
          (if time == "" then Refused(NoTime) else Created(Condition("time", "", "", None, "", Some(Str(time)))))
        else if conditionType == "device" then
          Created(Condition("device", conditionDevice, "", Some(Str(state)), "", None))
        else if conditionType == "sensor" then
          var st := StateOf(states, sensorId);
          if Main(st).None? then Refused(NoSensorState)
          else if HasCap(st, "contactSensor") then
            Created(Condition("sensor", sensorId, "contact", Some(Str(state)), "", None))
          else if HasCap(st, "temperatureMeasurement") then
            (if temperature.None? then Refused(BadTemperature)
             else Created(Condition("sensor", sensorId, "temperature", None, comparison, Some(Num(temperature.value)))))
          else Created(EmptyCondition())
        else Created(EmptyCondition());
      match condition
      case Refused(e) => Refused(e)
      case Created(c) => Created(Rule(NatToString(now), true, c, Action(actionDevice, action, Some("switch"))))
  }

  /**
   * A temperature automation made by the form holds on the server exactly
   * when the thermometer reads strictly past the entered number.
   */
  lemma NewTemperatureRuleHolds(name: string, sensorId: string, states: StateMap, comparison: string, x: real,
                                actionDevice: string, action: string, now: nat, t: real)
    requires Trim(name) != ""
    requires HasCap(StateOf(states, sensorId), "temperatureMeasurement") && !HasCap(StateOf(states, sensorId), "contactSensor")
    requires TemperatureValue(StateOf(states, sensorId)) == Some(Num(t))
    ensures var r := NewAutomation(name, "sensor", "", "", "", sensorId, states, comparison, Some(x), actionDevice, action, now);
      r.Created? && (CheckConditions(r.item.condition, states) <==> if comparison == "above" then t > x else t < x)
  {
    var st := StateOf(states, sensorId);
    var c := Condition("sensor", sensorId, "temperature", None, comparison, Some(Num(x)));
    assert Main(st).Some?;
    assert NewAutomation(name, "sensor", "", "", "", sensorId, states, comparison, Some(x), actionDevice, action, now)
           == Created(Rule(NatToString(now), true, c, Action(actionDevice, action, Some("switch"))));
    assert IsTemperatureCondition(c) && c.deviceId == sensorId;
  }

  /**
   * A device automation made by the form holds on the server exactly when
   * the chosen device's switch reports the chosen state (or the device has
   * no switch).
   */
  lemma NewDeviceRuleHolds(name: string, deviceId: string, state: string, states: StateMap,
                           actionDevice: string, action: string, now: nat)
    requires Trim(name) != ""
    ensures var r := NewAutomation(name, "device", "", deviceId, state, "", states, "", None, actionDevice, action, now);
      r.Created? && (CheckConditions(r.item.condition, states) <==>
        (HasCap(StateOf(states, deviceId), "switch") ==> SwitchValue(StateOf(states, deviceId)) == Some(Str(state))))
  {
    var r := NewAutomation(name, "device", "", deviceId, state, "", states, "", None, actionDevice, action, now);
    assert r.item.condition == Condition("device", deviceId, "", Some(Str(state)), "", None);
  }

  /** A time automation made from a time input is scheduled every day at that hour and minute. */
  lemma NewTimeRuleCron(name: string, h: nat, m: nat, actionDevice: string, action: string, now: nat, states: StateMap)
    requires Trim(name) != "" && h < 24 && m < 60
    ensures var r := NewAutomation(name, "time", TimeText(h, m), "", "", "", states, "", None, actionDevice, action, now);
      r.Created? && RuleTaskFor(r.item) == Some(Task(AutomationCronPattern(TimeText(h, m)), AutomationTask))
  {
    var t := TimeText(h, m);
    assert t != "" by { assert |t| == 5; }
  }

  // ---------------------------------------------------------------------
  // Switching a schedule or automation on and off

  /** `toggleSchedule(id, enabled)`: the stored schedule with the flag changed, posted back whole. */
  function ToggleSchedule(schedules: seq<Schedule>, id: string, enabled: bool): (r: Option<Schedule>)
    ensures r.None? <==> FindBy(schedules, ScheduleId, id).None?
    ensures r.Some? ==> r.value == FindBy(schedules, ScheduleId, id).value.(enabled := enabled)
  {
    match FindBy(schedules, ScheduleId, id)
    case Some(s) => Some(s.(enabled := enabled))
    case None => None
  }

  /** `toggleAutomation(id, enabled)`. */
  function ToggleAutomation(rules: seq<Rule>, id: string, enabled: bool): (r: Option<Rule>)
    ensures r.None? <==> FindBy(rules, RuleId, id).None?
    ensures r.Some? ==> r.value == FindBy(rules, RuleId, id).value.(enabled := enabled)
  {
    match FindBy(rules, RuleId, id)
    case Some(a) => Some(a.(enabled := enabled))
    case None => None
  }

  /** Switching a running schedule off from the dashboard leaves its cron task live on the server as written. */
  lemma ToggleOffKeepsScheduleRunning(e: Engine, id: string)
    requires Consistent(e)
    requires FindBy(e.schedules, ScheduleId, id).Some? && FindBy(e.schedules, ScheduleId, id).value.enabled
    ensures var s := ToggleSchedule(e.schedules, id, false).value;
      var r := PostSchedule(e, s);
      id in r.tasks && !Consistent(r)
  {
    var s := FindBy(e.schedules, ScheduleId, id).value;
    DisabledScheduleKeepsTask(e, s);
  }

  /** With the corrected route, switching a schedule off stops its task. */
  lemma ToggleOffStopsScheduleFixed(e: Engine, id: string)
    requires FindBy(e.schedules, ScheduleId, id).Some?
    ensures var r := PostScheduleFixed(e, ToggleSchedule(e.schedules, id, false).value);
      id !in r.tasks
  {
  }

  /** Switching a running time automation off leaves its task live as written. */
  lemma ToggleOffKeepsAutomationRunning(e: Engine, id: string)
    requires Consistent(e) && FindBy(e.schedules, ScheduleId, id).None?
    requires FindBy(e.rules, RuleId, id).Some? && RuleTaskFor(FindBy(e.rules, RuleId, id).value).Some?
    ensures var r := PostRule(e, ToggleAutomation(e.rules, id, false).value);
      id in r.tasks && !Consistent(r)
  {
    var a := FindBy(e.rules, RuleId, id).value;
    DisabledRuleKeepsTask(e, a);
  }
}

=== FILE: settings.dfy ===
/**
 * The dashboard's settings page: the system-information panel, sensor
 * calibration and the screen-sleep delay.
 */
module Settings {
  import opened Optional
  import opened Text
  import opened Arith

  // ---------------------------------------------------------------------
  // System information

  /** One network interface as Node's `os.networkInterfaces()` reports it. */
  datatype Iface = Iface(family: string, internal: bool, address: string)

  const UnknownAddress := "Не определен"

  /** `Object.values(ip).flat()`: the interfaces of every adapter, in order. */
  function Flatten(adapters: seq<seq<Iface>>): (r: seq<Iface>)
    ensures forall x :: x in r <==> exists k :: 0 <= k < |adapters| && x in adapters[k]
    decreases |adapters|
  {
    if |adapters| == 0 then []
    else
      var rest := Flatten(adapters[1..]);
      assert forall k :: 1 <= k < |adapters| ==> adapters[k] == adapters[1..][k - 1];
      assert forall x :: x in rest ==> exists k :: 0 <= k < |adapters| && x in adapters[k] by {
        forall x | x in rest ensures exists k :: 0 <= k < |adapters| && x in adapters[k] {
          var k :| 0 <= k < |adapters[1..]| && x in adapters[1..][k];
          assert x in adapters[k + 1];
        }
      }
      adapters[0] + rest
  }

  predicate External4(i: Iface) {
    i.family == "IPv4" && !i.internal
  }

  /** `find(iface => iface.family === 'IPv4' && !iface.internal)`. */
  function FirstExternal4(ifaces: seq<Iface>): (r: Option<nat>)
    ensures r.Some? ==> r.value < |ifaces| && External4(ifaces[r.value])
    ensures r.Some? ==> forall j :: 0 <= j < r.value ==> !External4(ifaces[j])
    ensures r.None? <==> forall j :: 0 <= j < |ifaces| ==> !External4(ifaces[j])
    decreases |ifaces|
  {
    if |ifaces| == 0 then None
    else if External4(ifaces[0]) then Some(0)
    else
      var rest := FirstExternal4(ifaces[1..]);
      if rest.Some? then Some(rest.value + 1) else None
  }

  /** The address shown: the first external IPv4 address, or "not determined". */
  function IpAddress(ip: Option<seq<seq<Iface>>>): (r: string)
    ensures ip.None? ==> r == UnknownAddress
    ensures ip.Some? && FirstExternal4(Flatten(ip.value)).Some?
            ==> r == Flatten(ip.value)[FirstExternal4(Flatten(ip.value)).value].address
    ensures ip.Some? && FirstExternal4(Flatten(ip.value)).None? ==> r == UnknownAddress
  {
    if ip.None? then UnknownAddress
    else
      var all := Flatten(ip.value);
      match FirstExternal4(all)
      case Some(i) => all[i].address
      case None => UnknownAddress
  }

  /** Without any external IPv4 interface on any adapter, the address is not determined. */
  lemma NoExternalUnknown(adapters: seq<seq<Iface>>)
    requires forall k, x :: 0 <= k < |adapters| && x in adapters[k] ==> !External4(x)
    ensures IpAddress(Some(adapters)) == UnknownAddress
  {
    var all := Flatten(adapters);
    forall j | 0 <= j < |all| ensures !External4(all[j]) {
      assert all[j] in all;
    }
  }

  /** JavaScript `a % b` for a positive divisor: the remainder takes the sign of `a`. */
  function JsRem(a: int, b: int): (r: int)
    requires b > 0
    ensures a >= 0 ==> r == a % b
  {
    if a >= 0 then a % b else -((-a) % b)
  }

  datatype Uptime = Uptime(hours: int, minutes: int, seconds: int)

  /** `Math.floor(uptime)` split into hours, minutes and seconds the way the panel does it. */
  function SplitUptime(uptime: real): (r: Uptime)
    ensures uptime >= 0.0 ==> r.hours * 3600 + r.minutes * 60 + r.seconds == uptime.Floor
    ensures uptime >= 0.0 ==> 0 <= r.minutes < 60 && 0 <= r.seconds < 60 && r.hours >= 0
  {
    var total := uptime.Floor;
    var h := total / 3600;
    var m := JsRem(total, 3600) / 60;
    var s := JsRem(total, 60);
    if total >= 0 then
      SplitIdentity(total);
      Uptime(h, m, s)
    else Uptime(h, m, s)
  }

  /** `h * 3600 + m * 60 + s == n` for the floor-division split of a non-negative `n`. */
  lemma SplitIdentity(n: int)
    requires n >= 0
    ensures (n / 3600) * 3600 + ((n % 3600) / 60) * 60 + n % 60 == n
    ensures 0 <= (n % 3600) / 60 < 60
  {
    var r := n % 3600;
    assert n == (n / 3600) * 3600 + r;
    assert r == (r / 60) * 60 + r % 60;
    assert n % 60 == r % 60 by {
      assert n == 60 * ((n / 3600) * 60) + r;
      ModShift(r, (n / 3600) * 60, 60);
    }
  }

  /** `value || fallback` for a string that may be missing. */
  function OrDefault(v: Option<string>, fallback: string): (r: string)
    ensures v.Some? && v.value != "" ==> r == v.value
    ensures v.None? || v.value == "" ==> r == fallback
  {
    if v.Some? && v.value != "" then v.value else fallback
  }

  datatype SystemInfo = SystemInfo(address: string, uptime: Uptime, version: string, nodeVersion: string)

  /** `renderSystemInfo(data)`: a missing version reads `1.0.0`, a missing Node version `N/A`. */
  function RenderSystemInfo(ip: Option<seq<seq<Iface>>>, uptime: real, version: Option<string>, nodeVersion: Option<string>): (r: SystemInfo)
    ensures r.address == IpAddress(ip) && r.uptime == SplitUptime(uptime)
    ensures r.version == OrDefault(version, "1.0.0") && r.nodeVersion == OrDefault(nodeVersion, "N/A")
  {
    SystemInfo(IpAddress(ip), SplitUptime(uptime), OrDefault(version, "1.0.0"), OrDefault(nodeVersion, "N/A"))
  }

  // ---------------------------------------------------------------------
  // Calibration and screen sleep

  /**
   * The body `updateSensorCalibration(deviceId, type, value)` posts: one
   * device, one offset key, and the parsed number or 0 when `parseFloat`
   * gives NaN (None).
   */
  function CalibrationBody(deviceId: string, kind: string, value: Option<real>): (r: map<string, map<string, real>>)
    ensures r.Keys == {deviceId}
    ensures kind == "temp" ==> r[deviceId].Keys == {"tempOffset"}
    ensures kind != "temp" ==> r[deviceId].Keys == {"humidityOffset"}
    ensures forall k :: k in r[deviceId] ==> r[deviceId][k] == (if value.Some? then value.value else 0.0)
  {
    var key := if kind == "temp" then "tempOffset" else "humidityOffset";
    map[deviceId := map[key := if value.Some? then value.value else 0.0]]
  }

  /** Device id to its offsets, as the calibration file stores them. */
  type Calibration = map<string, map<string, real>>

  /** A device's stored offsets, or both offsets 0 for a device seen for the first time. */
  function StoredOffsets(all: Calibration, deviceId: string): map<string, real> {
    if deviceId in all then all[deviceId] else map["tempOffset" := 0.0, "humidityOffset" := 0.0]
  }

  /**
   * The merge of `POST /api/sensor-calibration`: every posted device takes
   * the posted keys over its stored offsets (`{...stored, ...posted}`);
   * other devices keep theirs.
   */
  function MergeCalibration(all: Calibration, posted: Calibration): (r: Calibration)
    ensures r.Keys == all.Keys + posted.Keys
    ensures forall d :: d in all && d !in posted ==> r[d] == all[d]
    ensures forall d, k :: d in posted && k in posted[d] ==> k in r[d] && r[d][k] == posted[d][k]
    ensures forall d, k :: d in posted && k !in posted[d] ==>
              (k in r[d] <==> k in StoredOffsets(all, d)) && (k in r[d] ==> r[d][k] == StoredOffsets(all, d)[k])
  {
    map d | d in all.Keys + posted.Keys :: if d in posted then StoredOffsets(all, d) + posted[d] else all[d]
  }

  /**
   * A calibration change reads back: the changed offset is the entered
   * number (or 0), the device's other offset is what it was (0 for a new
   * device), and every other device is untouched.
   */
  lemma CalibrationReadBack(all: Calibration, deviceId: string, kind: string, value: Option<real>)
    ensures var r := MergeCalibration(all, CalibrationBody(deviceId, kind, value));
      var key := if kind == "temp" then "tempOffset" else "humidityOffset";
      var other := if kind == "temp" then "humidityOffset" else "tempOffset";
      && deviceId in r && key in r[deviceId]
      && r[deviceId][key] == (if value.Some? then value.value else 0.0)
      && (deviceId !in all ==> other in r[deviceId] && r[deviceId][other] == 0.0)
      && (deviceId in all ==> (other in r[deviceId] <==> other in all[deviceId])
                              && (other in all[deviceId] ==> r[deviceId][other] == all[deviceId][other]))
      && forall d :: d in all && d != deviceId ==> d in r && r[d] == all[d]
  {
    var body := CalibrationBody(deviceId, kind, value);
    var other := if kind == "temp" then "humidityOffset" else "tempOffset";
    assert other !in body[deviceId];
  }

  /** `timeInput ? parseInt(timeInput.value) || 10 : 10`: minutes before the screen sleeps. */
  function ScreenSleepMinutes(input: Option<string>): (r: int)
    ensures r != 0
    ensures input.None? ==> r == 10
    ensures input.Some? && (ParseInt(input.value).None? || ParseInt(input.value) == Some(0)) ==> r == 10
    ensures input.Some? && ParseInt(input.value).Some? && ParseInt(input.value).value != 0 ==> r == ParseInt(input.value).value
  {
    if input.None? then 10
    else
      var p := ParseInt(input.value);
      if p.Some? && p.value != 0 then p.value else 10
  }

  /** A positive number of minutes typed into the field is kept as it is. */
  lemma ScreenSleepReadsBack(n: nat)
    requires n > 0
    ensures ScreenSleepMinutes(Some(NatToString(n))) == n
  {
    ParseIntNatToString(n);
  }
}

=== FILE: state_diff.dfy ===
/**
 * `processDeviceStateUpdates`: after a refresh, compare each device's new
 * snapshot with the one kept from the previous pass, log its readings,
 * raise the away-mode door alert, fire the automations whose watched value
 * changed, and keep the new snapshot for the next pass.
 *
 * The pass is pure here: its output is the events to log, the alerts to
 * emit and the commands to send, in order.
 */
module StateDiff {
  import opened Optional
  import opened DeviceState
  import opened EventLog
  import opened Automation

  /** The away-mode alert for a door of the given device. */
  datatype Alert = DoorOpenWhileAway(deviceId: string)

  datatype Effects = Effects(events: seq<Event>, alerts: seq<Alert>, commands: seq<Command>)

  const NoEffects := Effects([], [], [])

  function Concat(a: Effects, b: Effects): Effects {
    Effects(a.events + b.events, a.alerts + b.alerts, a.commands + b.commands)
  }

  /** A reading event, when the snapshot reports that attribute. */
  function ReadingEvent(id: string, st: Option<Status>, kind: string, cap: string, attr: string, now: int): (r: seq<Event>)
    ensures AttrPresent(st, cap, attr) ==> r == [Event(kind, id, Attr(st, cap, attr), "", "", now)]
    ensures !AttrPresent(st, cap, attr) ==> r == []
  {
    if AttrPresent(st, cap, attr) then [Event(kind, id, Attr(st, cap, attr), "", "", now)] else []
  }

  /** The temperature, humidity and power readings of one snapshot, in that order. */
  function Readings(id: string, st: Option<Status>, now: int): (r: seq<Event>)
    ensures |r| <= 3
    ensures forall e :: e in r ==> e.deviceId == id && e.timestamp == now
    ensures forall e :: e in r ==> e.kind in {"temperature", "humidity", "power"}
    ensures Main(st).None? ==> r == []
  {
    ReadingEvent(id, st, "temperature", "temperatureMeasurement", "temperature", now)
    + ReadingEvent(id, st, "humidity", "relativeHumidityMeasurement", "humidity", now)
    + ReadingEvent(id, st, "power", "powerMeter", "power", now)
  }

  /** The door alert fires on the change to "open" from a truthy earlier contact. */
  predicate DoorAlert(awayMode: bool, prev: Option<Status>, cur: Option<Status>) {
    awayMode && HasCap(cur, "contactSensor")
    && Truthy(ContactValue(prev))
    && ContactValue(cur) != ContactValue(prev)
    && ContactValue(cur) == Some(Str("open"))
  }

  /**
   * Whether the value an automation watches differs between the two
   * snapshots under `!==`: `null` and a missing attribute (`undefined`)
   * differ from each other.
   */
  predicate WatchedValueChanged(c: Condition, prev: Option<Status>, cur: Option<Status>) {
    if IsDeviceCondition(c) then Observe(prev, "switch", "switch") != Observe(cur, "switch", "switch")
    else if IsContactCondition(c) then Observe(prev, "contactSensor", "contact") != Observe(cur, "contactSensor", "contact")
    else if IsTemperatureCondition(c)
    then Observe(prev, "temperatureMeasurement", "temperature") != Observe(cur, "temperatureMeasurement", "temperature")
    else false
  }

  /** An automation fires for device `id` on this pass. */
  predicate Fires(a: Rule, id: string, prev: Option<Status>, cur: Option<Status>, states: StateMap) {
    a.enabled
    && (a.condition.ctype == "device" || a.condition.ctype == "sensor")
    && a.condition.deviceId == id
    && prev.Some? && cur.Some?
    && WatchedValueChanged(a.condition, prev, cur)
    && CheckConditions(a.condition, states)
  }

  /** The commands of the automations that fire, in list order. */
  function Triggered(rules: seq<Rule>, id: string, prev: Option<Status>, cur: Option<Status>, states: StateMap): (r: seq<Command>)
    ensures |r| <= |rules|
    decreases |rules|
  {
    if |rules| == 0 then []
    else (if Fires(rules[0], id, prev, cur, states) then [Dispatch(rules[0].action)] else [])
         + Triggered(rules[1..], id, prev, cur, states)
  }

  /** A command is sent exactly for the automations that fire, each one its automation's action. */
  lemma {:induction false} TriggeredMembers(rules: seq<Rule>, id: string, prev: Option<Status>, cur: Option<Status>, states: StateMap)
    ensures forall c :: c in Triggered(rules, id, prev, cur, states)
                        ==> exists a :: a in rules && Fires(a, id, prev, cur, states) && c == Dispatch(a.action)
    ensures forall a :: a in rules && Fires(a, id, prev, cur, states) ==> Dispatch(a.action) in Triggered(rules, id, prev, cur, states)
    decreases |rules|
  {
    if |rules| > 0 {
      TriggeredMembers(rules[1..], id, prev, cur, states);
      assert forall a :: a in rules[1..] ==> a in rules;
      assert forall a :: a in rules ==> a == rules[0] || a in rules[1..];
    }
  }

  /** The positions of the automations that fire, ascending. */
  function FiringIndices(rules: seq<Rule>, id: string, prev: Option<Status>, cur: Option<Status>, states: StateMap): (idx: seq<int>)
    ensures forall j :: 0 <= j < |idx| ==> 0 <= idx[j] < |rules| && Fires(rules[idx[j]], id, prev, cur, states)
    ensures forall j, k :: 0 <= j < k < |idx| ==> idx[j] < idx[k]
    ensures forall i :: 0 <= i < |rules| && Fires(rules[i], id, prev, cur, states) ==> i in idx
    decreases |rules|
  {
    if |rules| == 0 then []
    else
      var n := |rules| - 1;
      var front := FiringIndices(rules[..n], id, prev, cur, states);
      assert forall i :: 0 <= i < n ==> rules[..n][i] == rules[i];
      front + (if Fires(rules[n], id, prev, cur, states) then [n] else [])
  }

  /** The pass over a list of automations is the pass over its parts, concatenated. */
  lemma {:induction false} TriggeredAppend(a: seq<Rule>, b: seq<Rule>, id: string, prev: Option<Status>, cur: Option<Status>, states: StateMap)
    ensures Triggered(a + b, id, prev, cur, states) == Triggered(a, id, prev, cur, states) + Triggered(b, id, prev, cur, states)
    decreases |a|
  {
    if |a| > 0 {
      assert (a + b)[1..] == a[1..] + b;
      assert (a + b)[0] == a[0];
      TriggeredAppend(a[1..], b, id, prev, cur, states);
    } else {
      assert a + b == b;
    }
  }

  /**
   * One command per firing automation, in list order: the `j`-th command
   * is the action of the `j`-th automation that fires.
   */
  lemma {:induction false} TriggeredInOrder(rules: seq<Rule>, id: string, prev: Option<Status>, cur: Option<Status>, states: StateMap)
    ensures var r := Triggered(rules, id, prev, cur, states);
      var idx := FiringIndices(rules, id, prev, cur, states);
      |r| == |idx| && forall j :: 0 <= j < |r| ==> r[j] == Dispatch(rules[idx[j]].action)
    decreases |rules|
  {
    if |rules| > 0 {
      var n := |rules| - 1;
      var front := rules[..n];
      TriggeredInOrder(front, id, prev, cur, states);
      TriggeredSnoc(rules, id, prev, cur, states);
      var fires := Fires(rules[n], id, prev, cur, states);
      var r := Triggered(rules, id, prev, cur, states);
      var idx := FiringIndices(rules, id, prev, cur, states);
      var tf := Triggered(front, id, prev, cur, states);
      var idf := FiringIndices(front, id, prev, cur, states);
      assert idx == idf + (if fires then [n] else []);
      forall j | 0 <= j < |r|
        ensures r[j] == Dispatch(rules[idx[j]].action)
      {
        if j < |tf| {
          assert r[j] == tf[j] && idx[j] == idf[j];
          assert rules[idf[j]] == front[idf[j]];
        } else {
          assert r[j] == Dispatch(rules[n].action) && idx[j] == n;
        }
      }
    }
  }

  /** The pass over a non-empty list is the pass over all but its last automation, then the last one's command if it fires. */
  lemma TriggeredSnoc(rules: seq<Rule>, id: string, prev: Option<Status>, cur: Option<Status>, states: StateMap)
    requires |rules| > 0
    ensures Triggered(rules, id, prev, cur, states)
            == Triggered(rules[..|rules| - 1], id, prev, cur, states)
               + (if Fires(rules[|rules| - 1], id, prev, cur, states) then [Dispatch(rules[|rules| - 1].action)] else [])
  {
    var n := |rules| - 1;
    assert rules == rules[..n] + [rules[n]];
    TriggeredAppend(rules[..n], [rules[n]], id, prev, cur, states);
    assert [rules[n]][1..] == [];
  }

  /** The pass over one device id. */
  function ProcessOne(devices: seq<Device>, states: StateMap, previous: StateMap, rules: seq<Rule>,
                      awayMode: bool, now: int, id: string): (r: (StateMap, Effects))
    ensures FindDevice(devices, id).None? ==> r.0 == previous - {id} && r.1 == NoEffects
    ensures FindDevice(devices, id).Some? ==> r.0 == previous[id := StateOf(states, id)]
    ensures forall k :: k != id ==> (k in r.0 <==> k in previous) && (k in previous ==> r.0[k] == previous[k])
    // the door alert: raised exactly on a change to "open" from a truthy earlier contact while away
    ensures FindDevice(devices, id).Some? ==>
      ((r.1.alerts != []) <==> (awayMode && HasCap(StateOf(states, id), "contactSensor")
        && Truthy(ContactValue(StateOf(previous, id)))
        && ContactValue(StateOf(states, id)) == Some(Str("open"))
        && ContactValue(StateOf(previous, id)) != Some(Str("open"))))
    // edge triggering: a watched change with the condition holding now fires the automation
    ensures FindDevice(devices, id).Some? ==>
      forall a :: (a in rules && a.enabled && a.condition.deviceId == id
        && (IsDeviceCondition(a.condition) || IsContactCondition(a.condition) || IsTemperatureCondition(a.condition))
        && StateOf(previous, id).Some? && StateOf(states, id).Some?
        && WatchedValueChanged(a.condition, StateOf(previous, id), StateOf(states, id))
        && CheckConditions(a.condition, states)) ==> Dispatch(a.action) in r.1.commands
  {
    if FindDevice(devices, id).None? then (previous - {id}, NoEffects)
    else
      var cur := StateOf(states, id);
      var prev := StateOf(previous, id);
      var alerts := if DoorAlert(awayMode, prev, cur) then [DoorOpenWhileAway(id)] else [];
      TriggeredMembers(rules, id, prev, cur, states);
      (previous[id := cur], Effects(Readings(id, cur, now), alerts, Triggered(rules, id, prev, cur, states)))
  }

  /** `processDeviceStateUpdates(deviceIds)`: the ids in order. */
  function ProcessAll(devices: seq<Device>, states: StateMap, previous: StateMap, rules: seq<Rule>,
                      awayMode: bool, now: int, ids: seq<string>): (r: (StateMap, Effects))
    // ids outside the pass keep their kept snapshot
    ensures forall k :: k !in ids ==> (k in r.0 <==> k in previous) && (k in previous ==> r.0[k] == previous[k])
    decreases |ids|
  {
    if |ids| == 0 then (previous, NoEffects)
    else
      var one := ProcessOne(devices, states, previous, rules, awayMode, now, ids[0]);
      var rest := ProcessAll(devices, states, one.0, rules, awayMode, now, ids[1..]);
      assert forall k :: k !in ids ==> k !in ids[1..] && k != ids[0];
      (rest.0, Concat(one.1, rest.1))
  }

  /** After a pass, every processed known device's kept snapshot is its current one, and unknown ones are forgotten. */
  lemma {:induction false} ProcessAllKeeps(devices: seq<Device>, states: StateMap, previous: StateMap, rules: seq<Rule>,
                                          awayMode: bool, now: int, ids: seq<string>, k: string)
    requires k in ids
    ensures var r := ProcessAll(devices, states, previous, rules, awayMode, now, ids).0;
      (FindDevice(devices, k).Some? ==> k in r && r[k] == StateOf(states, k))
      && (FindDevice(devices, k).None? ==> k !in r)
    decreases |ids|
  {
    var one := ProcessOne(devices, states, previous, rules, awayMode, now, ids[0]);
    if k in ids[1..] {
      ProcessAllKeeps(devices, states, one.0, rules, awayMode, now, ids[1..], k);
    } else {
      assert k == ids[0];
    }
  }

  /** Only a watched change triggers: a command of the pass came from some automation whose value changed. */
  lemma CommandsNeedChange(devices: seq<Device>, states: StateMap, previous: StateMap, rules: seq<Rule>,
                           awayMode: bool, now: int, id: string, c: Command)
    requires c in ProcessOne(devices, states, previous, rules, awayMode, now, id).1.commands
    ensures exists a :: (a in rules && a.enabled && a.condition.deviceId == id && c == Dispatch(a.action)
      && StateOf(previous, id).Some? && WatchedValueChanged(a.condition, StateOf(previous, id), StateOf(states, id)))
  {
    var prev := StateOf(previous, id);
    var cur := StateOf(states, id);
    TriggeredMembers(rules, id, prev, cur, states);
    var a :| a in rules && Fires(a, id, prev, cur, states) && c == Dispatch(a.action);
  }

  /**
   * `null !== undefined`: a switch reported as `null` and then missing from
   * the next snapshot is a watched change, so a device automation on it
   * whose condition holds fires.
   */
  lemma NullThenMissingFires(devices: seq<Device>, states: StateMap, previous: StateMap, rules: seq<Rule>,
                             awayMode: bool, now: int, id: string, a: Rule)
    requires FindDevice(devices, id).Some?
    requires a in rules && a.enabled && IsDeviceCondition(a.condition) && a.condition.deviceId == id
    requires AttrPresent(StateOf(previous, id), "switch", "switch") && SwitchValue(StateOf(previous, id)).None?
    requires StateOf(states, id).Some? && !HasCap(StateOf(states, id), "switch")
    ensures Dispatch(a.action) in ProcessOne(devices, states, previous, rules, awayMode, now, id).1.commands
  {
    assert Observe(StateOf(states, id), "switch", "switch") == Undefined;
  }

  /** Processing the same snapshots twice: the second pass fires nothing and raises no alert. */
  lemma {:induction false} NoRefire(devices: seq<Device>, states: StateMap, previous: StateMap, rules: seq<Rule>,
                                    awayMode: bool, now: int, id: string)
    ensures var first := ProcessOne(devices, states, previous, rules, awayMode, now, id);
      var second := ProcessOne(devices, states, first.0, rules, awayMode, now, id);
      second.1.commands == [] && second.1.alerts == []
  {
    var first := ProcessOne(devices, states, previous, rules, awayMode, now, id);
    if FindDevice(devices, id).Some? {
      var cur := StateOf(states, id);
      assert StateOf(first.0, id) == cur;
      NothingChanged(rules, id, cur, states);
    }
  }

  lemma {:induction false} NothingChanged(rules: seq<Rule>, id: string, cur: Option<Status>, states: StateMap)
    ensures Triggered(rules, id, cur, cur, states) == []
    decreases |rules|
  {
    if |rules| > 0 {
      NothingChanged(rules[1..], id, cur, states);
      assert !WatchedValueChanged(rules[0].condition, cur, cur);
    }
  }

  /** With no current snapshot no automation fires. */
  lemma {:induction false} NoSnapshotNothingFires(rules: seq<Rule>, id: string, prev: Option<Status>, states: StateMap)
    ensures Triggered(rules, id, prev, None, states) == []
    decreases |rules|
  {
    if |rules| > 0 {
      NoSnapshotNothingFires(rules[1..], id, prev, states);
    }
  }

  /** A device coming back from `null` (offline, or first seen) fires nothing and raises no alert. */
  lemma BackFromNull(devices: seq<Device>, states: StateMap, previous: StateMap, rules: seq<Rule>,
                     awayMode: bool, now: int, id: string)
    requires StateOf(previous, id).None?
    ensures var r := ProcessOne(devices, states, previous, rules, awayMode, now, id).1;
      r.commands == [] && r.alerts == []
  {
    var r := ProcessOne(devices, states, previous, rules, awayMode, now, id).1;
    if r.commands != [] {
      CommandsNeedChange(devices, states, previous, rules, awayMode, now, id, r.commands[0]);
    }
  }

  /** Away mode off: no alert, whatever the doors do. */
  lemma {:induction false} NoAlertAtHome(devices: seq<Device>, states: StateMap, previous: StateMap, rules: seq<Rule>,
                                         awayMode: bool, now: int, ids: seq<string>)
    ensures !awayMode ==> ProcessAll(devices, states, previous, rules, awayMode, now, ids).1.alerts == []
    decreases |ids|
  {
    if |ids| > 0 {
      var one := ProcessOne(devices, states, previous, rules, awayMode, now, ids[0]);
      NoAlertAtHome(devices, states, one.0, rules, awayMode, now, ids[1..]);
    }
  }

  /** The readings logged for a known device are exactly the attributes its snapshot reports. */
  lemma ReadingsLogged(devices: seq<Device>, states: StateMap, previous: StateMap, rules: seq<Rule>,
                       awayMode: bool, now: int, id: string)
    requires FindDevice(devices, id).Some?
    ensures var r := ProcessOne(devices, states, previous, rules, awayMode, now, id).1;
      var st := StateOf(states, id);
      && ((exists e :: e in r.events && e.kind == "temperature") <==> AttrPresent(st, "temperatureMeasurement", "temperature"))
      && ((exists e :: e in r.events && e.kind == "humidity") <==> AttrPresent(st, "relativeHumidityMeasurement", "humidity"))
      && ((exists e :: e in r.events && e.kind == "power") <==> AttrPresent(st, "powerMeter", "power"))
  {
    var st := StateOf(states, id);
    var t := ReadingEvent(id, st, "temperature", "temperatureMeasurement", "temperature", now);
    var h := ReadingEvent(id, st, "humidity", "relativeHumidityMeasurement", "humidity", now);
    var p := ReadingEvent(id, st, "power", "powerMeter", "power", now);
    assert ProcessOne(devices, states, previous, rules, awayMode, now, id).1.events == t + h + p;
    KindIn(t, h, p, "temperature", AttrPresent(st, "temperatureMeasurement", "temperature"));
    KindIn(h, t, p, "humidity", AttrPresent(st, "relativeHumidityMeasurement", "humidity"));
    KindIn(p, t, h, "power", AttrPresent(st, "powerMeter", "power"));
  }

  /**
   * An event of kind `k` occurs in three concatenated reading lists exactly
   * when it occurs in `mine`, the only one that can hold that kind.
   */
  lemma KindIn(mine: seq<Event>, a: seq<Event>, b: seq<Event>, k: string, present: bool)
    requires present ==> |mine| == 1 && mine[0].kind == k
    requires !present ==> mine == []
    requires forall e :: e in a ==> e.kind != k
    requires forall e :: e in b ==> e.kind != k
    ensures (exists e :: e in mine + a + b && e.kind == k) <==> present
    ensures (exists e :: e in a + mine + b && e.kind == k) <==> present
    ensures (exists e :: e in a + b + mine && e.kind == k) <==> present
  {
    if present {
      assert mine[0] in mine + a + b && mine[0] in a + mine + b && mine[0] in a + b + mine;
    }
  }
}

=== FILE: statistics.dfy ===
/**
 * The statistics page's event list: the logged events, newest first, at
 * most fifty of them, each turned into one line of text.
 */
module Statistics {
  import opened Optional
  import opened DeviceState
  import opened EventLog

  const ListLimit: nat := 50
  const NoEventsText := "Нет событий"

  // ---------------------------------------------------------------------
  // Ordering

  /** Newest first: no event is followed by a newer one. */
  predicate NewestFirst(s: seq<Event>) {
    forall i, j :: 0 <= i < j < |s| ==> s[i].timestamp >= s[j].timestamp
  }

  /**
   * Places `x` before the first event that is not newer than it, so `x`
   * stays ahead of the events of equal time that came after it in the input.
   */
  function Insert(x: Event, s: seq<Event>): (r: seq<Event>)
    requires NewestFirst(s)
    ensures NewestFirst(r)
    ensures multiset(r) == multiset(s) + multiset{x}
    ensures |r| == |s| + 1
    ensures r[0] == x || (|s| > 0 && r[0] == s[0])
    decreases |s|
  {
    if |s| == 0 then [x]
    else if s[0].timestamp <= x.timestamp then [x] + s
    else
      var t := Insert(x, s[1..]);
      assert s == [s[0]] + s[1..];
      [s[0]] + t
  }

  /** `events.slice().sort((a, b) => b.timestamp - a.timestamp)`: a stable sort, newest first. */
  function SortNewestFirst(s: seq<Event>): (r: seq<Event>)
    ensures NewestFirst(r)
    ensures multiset(r) == multiset(s)
    ensures |r| == |s|
    decreases |s|
  {
    if |s| == 0 then []
    else
      assert s == [s[0]] + s[1..];
      Insert(s[0], SortNewestFirst(s[1..]))
  }

  /** The events stamped exactly `t`, in their order. */
  function AtTime(s: seq<Event>, t: int): (r: seq<Event>)
    ensures forall k :: 0 <= k < |r| ==> r[k].timestamp == t
    decreases |s|
  {
    if |s| == 0 then []
    else (if s[0].timestamp == t then [s[0]] else []) + AtTime(s[1..], t)
  }

  /** The events of time `t` in a list with one more event in front. */
  lemma AtTimeCons(y: Event, s: seq<Event>, t: int)
    ensures AtTime([y] + s, t) == (if y.timestamp == t then [y] else []) + AtTime(s, t)
  {
    assert ([y] + s)[1..] == s;
  }

  /** Inserting `x` puts it ahead of every event of its own time already in the list. */
  lemma {:induction false} InsertAtTime(x: Event, s: seq<Event>, t: int)
    requires NewestFirst(s)
    ensures AtTime(Insert(x, s), t) == (if x.timestamp == t then [x] else []) + AtTime(s, t)
    decreases |s|
  {
    if |s| == 0 {
      AtTimeCons(x, [], t);
    } else if s[0].timestamp <= x.timestamp {
      AtTimeCons(x, s, t);
    } else {
      var rest := s[1..];
      assert NewestFirst(rest);
      var tail := Insert(x, rest);
      assert Insert(x, s) == [s[0]] + tail;
      AtTimeCons(s[0], tail, t);
      InsertAtTime(x, rest, t);
      assert s == [s[0]] + rest;
      AtTimeCons(s[0], rest, t);
    }
  }

  /**
   * The sort is stable: the events of any one time come out in the order
   * they went in. With `NewestFirst` and the multiset equality this fixes
   * the result completely.
   */
  lemma {:induction false} SortKeepsOrderWithinTime(s: seq<Event>, t: int)
    ensures AtTime(SortNewestFirst(s), t) == AtTime(s, t)
    decreases |s|
  {
    if |s| > 0 {
      SortKeepsOrderWithinTime(s[1..], t);
      InsertAtTime(s[0], SortNewestFirst(s[1..]), t);
    }
  }

  /** `.slice(0, 50)` of the sorted copy. */
  function Shown(events: seq<Event>): (r: seq<Event>)
    ensures |r| == if |events| < ListLimit then |events| else ListLimit
    ensures NewestFirst(r)
    ensures multiset(r) <= multiset(events)
  {
    var sorted := SortNewestFirst(events);
    var n := if |sorted| < ListLimit then |sorted| else ListLimit;
    assert sorted == sorted[..n] + sorted[n..];
    sorted[..n]
  }

  /**
   * Every event left off the list is no newer than any listed one: the
   * fifty shown are the fifty newest.
   */
  lemma ShownAreNewest(events: seq<Event>, e: Event)
    requires multiset(events)[e] > multiset(Shown(events))[e]
    ensures forall k :: 0 <= k < |Shown(events)| ==> Shown(events)[k].timestamp >= e.timestamp
  {
    var sorted := SortNewestFirst(events);
    var n := |Shown(events)|;
    assert Shown(events) == sorted[..n];
    SplitMultiset(sorted, n);
    assert multiset(sorted[n..])[e] > 0;
    TailNotNewer(sorted, n, e);
  }

  /** Cutting a list in two splits its multiset. */
  lemma SplitMultiset(s: seq<Event>, n: nat)
    requires n <= |s|
    ensures multiset(s) == multiset(s[..n]) + multiset(s[n..])
  {
    assert s == s[..n] + s[n..];
  }

  /** In a newest-first list, what lies past position `n` is no newer than anything before it. */
  lemma TailNotNewer(sorted: seq<Event>, n: nat, e: Event)
    requires NewestFirst(sorted) && n <= |sorted|
    requires e in multiset(sorted[n..])
    ensures forall k :: 0 <= k < n ==> sorted[k].timestamp >= e.timestamp
  {
    var j :| 0 <= j < |sorted[n..]| && sorted[n..][j] == e;
    assert sorted[n + j] == e;
  }

  /** Fifty or fewer events are all listed, none lost and none repeated. */
  lemma ShortListComplete(events: seq<Event>)
    requires |events| <= ListLimit
    ensures multiset(Shown(events)) == multiset(events)
  {
    assert Shown(events) == SortNewestFirst(events)[..|events|];
    assert SortNewestFirst(events)[..|events|] == SortNewestFirst(events);
  }

  // ---------------------------------------------------------------------
  // Text of one event

  /** `command === 'on' ? 'включено' : command === 'off' ? 'выключено' : command`. */
  function CommandText(command: string): (r: string)
    ensures command == "on" <==> r == "включено" && command != "включено"
    ensures command == "off" <==> r == "выключено" && command != "выключено"
    ensures command != "on" && command != "off" ==> r == command
  {
    if command == "on" then "включено"
    else if command == "off" then "выключено"
    else command
  }

  /**
   * The name a device-control event shows: for a device in the current
   * list, its custom name, else its label, else its id; for any other id,
   * the id itself.
   */
  function DeviceName(id: string, devices: seq<Device>, settings: map<string, DeviceSettings>): (r: string)
    ensures FindDevice(devices, id).None? ==> r == id
    ensures FindDevice(devices, id).Some? && SettingsOf(settings, id).customName != ""
            ==> r == SettingsOf(settings, id).customName
    ensures FindDevice(devices, id).Some? && SettingsOf(settings, id).customName == ""
            ==> r == LabelOr(FindDevice(devices, id).value, id)
  {
    match FindDevice(devices, id)
    case None => id
    case Some(d) =>
      var custom := SettingsOf(settings, id).customName;
      if custom != "" then custom else LabelOr(d, id)
  }

  /** A device missing from the current list always shows its id, whatever the settings say. */
  lemma UnknownDeviceShowsId(id: string, devices: seq<Device>, settings: map<string, DeviceSettings>)
    requires id !in IdsOf(devices)
    ensures DeviceName(id, devices, settings) == id
  {
    InIdsOf(devices, id);
  }

  /** A listed device with no custom name and no label also falls back to its id. */
  lemma UnlabelledDeviceShowsId(d: Device, devices: seq<Device>, settings: map<string, DeviceSettings>)
    requires d in devices && d.deviceLabel.None?
    requires forall e :: e in devices && e.deviceId == d.deviceId ==> e == d
    requires SettingsOf(settings, d.deviceId).customName == ""
    ensures DeviceName(d.deviceId, devices, settings) == d.deviceId
  {
  }

  /** One line of the list, by event type; any other type is shown as its JSON. */
  datatype Line =
    | ControlLine(name: string, commandText: string)
    | TemperatureLine(value: Option<Value>)
    | HumidityLine(value: Option<Value>)
    | PowerLine(value: Option<Value>)
    | RawLine(event: Event)

  function LineOf(e: Event, devices: seq<Device>, settings: map<string, DeviceSettings>): (r: Line)
    ensures r.ControlLine? <==> e.kind == "device-control"
    ensures r.ControlLine? ==> r == ControlLine(DeviceName(e.deviceId, devices, settings), CommandText(e.command))
    ensures r.TemperatureLine? <==> e.kind == "temperature"
    ensures r.HumidityLine? <==> e.kind == "humidity"
    ensures r.PowerLine? <==> e.kind == "power"
    ensures r.TemperatureLine? || r.HumidityLine? || r.PowerLine? ==> r.value == e.value
    ensures r.RawLine? ==> r.event == e
  {
    if e.kind == "device-control" then ControlLine(DeviceName(e.deviceId, devices, settings), CommandText(e.command))
    else if e.kind == "temperature" then TemperatureLine(e.value)
    else if e.kind == "humidity" then HumidityLine(e.value)
    else if e.kind == "power" then PowerLine(e.value)
    else RawLine(e)
  }

  // ---------------------------------------------------------------------
  // The list

  datatype EventsList = NoEvents(message: string) | Listed(events: seq<Event>, lines: seq<Line>)

  /** `renderEventsList(events)` with the page's current devices and settings. */
  function RenderEvents(events: seq<Event>, devices: seq<Device>, settings: map<string, DeviceSettings>): (r: EventsList)
    ensures r.NoEvents? <==> |events| == 0
    ensures r.NoEvents? ==> r.message == NoEventsText
    ensures r.Listed? ==> r.events == Shown(events) && |r.lines| == |r.events|
    ensures r.Listed? ==> forall i :: 0 <= i < |r.lines| ==> r.lines[i] == LineOf(r.events[i], devices, settings)
  {
    if |events| == 0 then NoEvents(NoEventsText)
    else
      var shown := Shown(events);
      Listed(shown, seq(|shown|, i requires 0 <= i < |shown| => LineOf(shown[i], devices, settings)))
  }

  /** A non-empty log always lists something: between one and fifty lines. */
  lemma NonEmptyLogListed(events: seq<Event>, devices: seq<Device>, settings: map<string, DeviceSettings>)
    requires |events| > 0
    ensures RenderEvents(events, devices, settings).Listed?
    ensures 0 < |RenderEvents(events, devices, settings).lines| <= ListLimit
  {
  }
}

=== FILE: text.dfy ===
/**
 * String helpers with the JavaScript meaning the dashboard relies on:
 * `includes`, `toLowerCase`/`toUpperCase` (Latin and Cyrillic letters),
 * `trim`, `split` on one character, `join`, decimal printing of numbers and
 * the digit scanners behind `Number`, `parseInt` and the `\d+` of a regex.
 */
module Text {
  import opened Optional

  predicate StartsWith(s: string, p: string) {
    |p| <= |s| && s[..|p|] == p
  }

  /** `s.includes(p)`. */
  predicate Contains(s: string, p: string)
    decreases |s|
  {
    StartsWith(s, p) || (|s| > 0 && Contains(s[1..], p))
  }

  /** A match at index `i` is a containment. */
  lemma {:induction false} ContainsAt(s: string, p: string, i: nat)
    requires i + |p| <= |s| && s[i..i + |p|] == p
    ensures Contains(s, p)
  {
    if i > 0 {
      assert s[1..][i - 1..i - 1 + |p|] == s[i..i + |p|];
      ContainsAt(s[1..], p, i - 1);
    } else {
      assert s[..|p|] == p;
    }
  }

  /** A slice of a match is the same slice of the matched text. */
  lemma SliceWithin(s: string, i: nat, w: string, a: nat, b: nat)
    requires i + |w| <= |s| && s[i..i + |w|] == w && a <= b <= |w|
    ensures s[i + a..i + b] == w[a..b]
  {
    forall k | 0 <= k < b - a ensures s[i + a..i + b][k] == w[a..b][k] {
      assert s[i..i + |w|][a + k] == s[i + a + k];
    }
  }

  /** A containment has a witness index. */
  lemma {:induction false} ContainsWitness(s: string, p: string) returns (i: nat)
    requires Contains(s, p)
    ensures i + |p| <= |s| && s[i..i + |p|] == p
  {
    if StartsWith(s, p) {
      i := 0;
    } else {
      var j := ContainsWitness(s[1..], p);
      assert s[1..][j..j + |p|] == s[j + 1..j + 1 + |p|];
      i := j + 1;
    }
  }

  /** The empty string is contained in every string. */
  lemma ContainsEmpty(s: string)
    ensures Contains(s, "")
  {
    assert s[..0] == "";
  }

  /**
   * A string in which the first two characters of `p` never occur next to
   * each other does not contain `p`.
   */
  lemma {:induction false} NotContainsBigram(s: string, p: string)
    requires |p| > 1
    requires forall i :: 0 <= i < |s| - 1 ==> s[i] != p[0] || s[i + 1] != p[1]
    ensures !Contains(s, p)
  {
    if |s| > 0 {
      assert !StartsWith(s, p) by {
        if |p| <= |s| {
          assert s[..|p|][0] == s[0] && s[..|p|][1] == s[1];
        }
      }
      NotContainsBigram(s[1..], p);
    }
  }

  // ---------------------------------------------------------------------
  // Case mapping

  /** `toLowerCase` on one character: Latin A-Z, Cyrillic Ѐ-Я; other characters unchanged. */
  function LowerChar(c: char): char {
    if 'A' <= c <= 'Z' then (c as int + 32) as char
    else if 'А' <= c <= 'Я' then (c as int + 32) as char
    else if 'Ѐ' <= c <= 'Џ' then (c as int + 80) as char
    else c
  }

  /** `toUpperCase` on one character: Latin a-z, Cyrillic а-џ; other characters unchanged. */
  function UpperChar(c: char): char {
    if 'a' <= c <= 'z' then (c as int - 32) as char
    else if 'а' <= c <= 'я' then (c as int - 32) as char
    else if 'ѐ' <= c <= 'џ' then (c as int - 80) as char
    else c
  }

  function Lower(s: string): (r: string)
    ensures |r| == |s|
    ensures forall i :: 0 <= i < |s| ==> r[i] == LowerChar(s[i])
  {
    seq(|s|, i requires 0 <= i < |s| => LowerChar(s[i]))
  }

  function Upper(s: string): (r: string)
    ensures |r| == |s|
    ensures forall i :: 0 <= i < |s| ==> r[i] == UpperChar(s[i])
  {
    seq(|s|, i requires 0 <= i < |s| => UpperChar(s[i]))
  }

  predicate IsLowerCase(s: string) {
    forall i :: 0 <= i < |s| ==> LowerChar(s[i]) == s[i]
  }

  /** Lower-casing is idempotent. */
  lemma LowerIdempotent(s: string)
    ensures Lower(Lower(s)) == Lower(s)
    ensures IsLowerCase(Lower(s))
  {
  }

  // ---------------------------------------------------------------------
  // White space (`\s` in a regex and what `trim` removes)

  predicate IsSpace(c: char) {
    c == ' ' || c == '\t' || c == '\n' || c == '\r' || c == '\U{000B}' || c == '\U{000C}'
    || c == '\U{00A0}' || c == '\U{1680}' || ('\U{2000}' <= c <= '\U{200A}')
    || c == '\U{2028}' || c == '\U{2029}' || c == '\U{202F}' || c == '\U{205F}'
    || c == '\U{3000}' || c == '\U{FEFF}'
  }

  function TrimStart(s: string): (r: string)
    ensures |r| <= |s| && r == s[|s| - |r|..]
    ensures |r| > 0 ==> !IsSpace(r[0])
    ensures forall i :: 0 <= i < |s| - |r| ==> IsSpace(s[i])
  {
    if |s| > 0 && IsSpace(s[0]) then TrimStart(s[1..]) else s
  }

  function TrimEnd(s: string): (r: string)
    ensures |r| <= |s| && r == s[..|r|]
    ensures |r| > 0 ==> !IsSpace(r[|r| - 1])
    ensures forall i :: |r| <= i < |s| ==> IsSpace(s[i])
  {
    if |s| > 0 && IsSpace(s[|s| - 1]) then TrimEnd(s[..|s| - 1]) else s
  }

  /** `s.trim()`. */
  function Trim(s: string): string {
    TrimEnd(TrimStart(s))
  }

  /** A trimmed string is empty exactly when the input is all white space. */
  lemma TrimEmptyIff(s: string)
    ensures Trim(s) == "" <==> forall i :: 0 <= i < |s| ==> IsSpace(s[i])
  {
    if Trim(s) == "" {
      assert TrimStart(s) == "";
    }
  }

  // ---------------------------------------------------------------------
  // Split and join on a single character

  /** `s.split(sep)` for a one-character separator; never returns an empty list. */
  function Split(s: string, sep: char): (r: seq<string>)
    ensures |r| > 0
    ensures forall k :: 0 <= k < |r| ==> sep !in r[k]
    decreases |s|
  {
    if |s| == 0 then [""]
    else
      var rest := Split(s[1..], sep);
      if s[0] == sep then [""] + rest
      else [[s[0]] + rest[0]] + rest[1..]
  }

  /** `parts.join(sep)`. */
  function Join(parts: seq<string>, sep: string): string
    decreases |parts|
  {
    if |parts| == 0 then ""
    else if |parts| == 1 then parts[0]
    else parts[0] + sep + Join(parts[1..], sep)
  }

  /** Splitting a joined list gives the list back when no part contains the separator. */
  lemma {:induction false} SplitJoin(parts: seq<string>, sep: char)
    requires |parts| > 0
    requires forall k :: 0 <= k < |parts| ==> sep !in parts[k]
    ensures Split(Join(parts, [sep]), sep) == parts
    decreases |parts|, |parts[0]|
  {
    if |parts| == 1 {
      SplitNoSep(parts[0], sep);
    } else if |parts[0]| == 0 {
      assert Join(parts, [sep]) == [sep] + Join(parts[1..], [sep]);
      SplitJoin(parts[1..], sep);
      assert Join(parts, [sep])[1..] == Join(parts[1..], [sep]);
    } else {
      var tail := [parts[0][1..]] + parts[1..];
      assert tail[1..] == parts[1..];
      assert Join(tail, [sep]) == parts[0][1..] + [sep] + Join(parts[1..], [sep]);
      assert forall k :: 0 <= k < |tail| ==> sep !in tail[k] by {
        assert forall c :: c in parts[0][1..] ==> c in parts[0];
      }
      SplitJoin(tail, sep);
      var j := Join(parts, [sep]);
      assert j[0] == parts[0][0] && j[0] != sep;
      assert j[1..] == Join(tail, [sep]);
      assert [parts[0][0]] + parts[0][1..] == parts[0];
    }
  }

  /** A separator-free prefix and a separator split off as the first part. */
  lemma {:induction false} SplitCons(a: string, sep: char, rest: string)
    requires sep !in a
    ensures Split(a + [sep] + rest, sep) == [a] + Split(rest, sep)
    decreases |a|
  {
    var s := a + [sep] + rest;
    if |a| == 0 {
      assert s == [sep] + rest;
      assert s[1..] == rest;
    } else {
      assert s[1..] == a[1..] + [sep] + rest;
      assert sep !in a[1..] by { assert forall c :: c in a[1..] ==> c in a; }
      SplitCons(a[1..], sep, rest);
      assert [a[0]] + a[1..] == a;
    }
  }

  lemma {:induction false} SplitNoSep(s: string, sep: char)
    requires sep !in s
    ensures Split(s, sep) == [s]
    decreases |s|
  {
    if |s| > 0 {
      assert sep !in s[1..] by { assert forall c :: c in s[1..] ==> c in s; }
      SplitNoSep(s[1..], sep);
      assert [s[0]] + s[1..] == s;
    }
  }

  // ---------------------------------------------------------------------
  // Decimal digits

  predicate IsDigit(c: char) {
    '0' <= c <= '9'
  }

  predicate AllDigits(s: string) {
    forall i :: 0 <= i < |s| ==> IsDigit(s[i])
  }

  function DigitChar(d: nat): char
    requires d < 10
  {
    ('0' as int + d) as char
  }

  /** The decimal numeral of `n` as JavaScript prints it (`${n}`). */
  function NatToString(n: nat): (r: string)
    ensures |r| > 0 && AllDigits(r)
    ensures |r| > 1 ==> r[0] != '0'
    decreases n
  {
    if n < 10 then [DigitChar(n)] else NatToString(n / 10) + [DigitChar(n % 10)]
  }

  /** `${i}` for an integer. */
  function IntToString(i: int): (r: string)
    ensures |r| > 0
  {
    if i < 0 then "-" + NatToString(-i) else NatToString(i)
  }

  /** The value of a string of decimal digits. */
  function DigitsValue(s: string): nat
    requires AllDigits(s)
    decreases |s|
  {
    if |s| == 0 then 0 else DigitsValue(s[..|s| - 1]) * 10 + (s[|s| - 1] as int - '0' as int)
  }

  /** Reading back a printed numeral gives the number. */
  lemma {:induction false} DigitsValueNatToString(n: nat)
    ensures DigitsValue(NatToString(n)) == n
    decreases n
  {
    if n >= 10 {
      var s := NatToString(n);
      assert s[..|s| - 1] == NatToString(n / 10);
      DigitsValueNatToString(n / 10);
    }
  }

  /** Length of the longest all-digit prefix of `s`. */
  function DigitRun(s: string): (k: nat)
    ensures k <= |s| && AllDigits(s[..k])
    ensures k < |s| ==> !IsDigit(s[k])
    decreases |s|
  {
    if |s| > 0 && IsDigit(s[0]) then
      var k := 1 + DigitRun(s[1..]);
      assert s[..k] == [s[0]] + s[1..][..k - 1];
      k
    else 0
  }

  /** A numeral followed by a non-digit is exactly the digit run. */
  lemma {:induction false} DigitRunOfNumeral(d: string, rest: string)
    requires AllDigits(d)
    requires |rest| > 0 ==> !IsDigit(rest[0])
    ensures DigitRun(d + rest) == |d|
    decreases |d|
  {
    if |d| > 0 {
      assert (d + rest)[1..] == d[1..] + rest;
      DigitRunOfNumeral(d[1..], rest);
    }
  }

  /**
   * JavaScript `Number(s)` for the shapes the dashboard produces: blank gives
   * 0, a run of decimal digits gives its value, anything else is NaN (None).
   */
  function JsNumber(s: string): (r: Option<nat>)
    ensures AllDigits(Trim(s)) ==> r == Some(DigitsValue(Trim(s)))
    ensures !AllDigits(Trim(s)) ==> r == None
  {
    var t := Trim(s);
    if AllDigits(t) then Some(DigitsValue(t)) else None
  }

  /**
   * JavaScript `parseInt(s)` (base 10): leading white space, an optional sign
   * and the longest digit prefix; no digits gives NaN (None).
   */
  function ParseInt(s: string): Option<int> {
    var t := TrimStart(s);
    var neg := |t| > 0 && t[0] == '-';
    var u := if |t| > 0 && (t[0] == '-' || t[0] == '+') then t[1..] else t;
    var k := DigitRun(u);
    if k == 0 then None
    else
      var v: int := DigitsValue(u[..k]);
      Some(if neg then -v else v)
  }

  /** `parseInt` reads a printed natural number back. */
  lemma ParseIntNatToString(n: nat)
    ensures ParseInt(NatToString(n)) == Some(n)
  {
    var s := NatToString(n);
    assert s == s + "";
    DigitRunOfNumeral(s, "");
    DigitsValueNatToString(n);
    assert s[..|s|] == s;
  }

  /** A leading zero does not change the value of a numeral. */
  lemma {:induction false} DigitsValueLeadingZero(s: string)
    requires AllDigits(s)
    ensures AllDigits("0" + s) && DigitsValue("0" + s) == DigitsValue(s)
    decreases |s|
  {
    if |s| > 0 {
      var t := "0" + s;
      assert t[..|t| - 1] == "0" + s[..|s| - 1];
      DigitsValueLeadingZero(s[..|s| - 1]);
    }
  }

  /** A string of digits is its own trim. */
  lemma TrimDigits(s: string)
    requires AllDigits(s)
    ensures Trim(s) == s
  {
    if |s| > 0 {
      assert !IsSpace(s[0]);
      assert TrimStart(s) == s;
      assert !IsSpace(s[|s| - 1]);
    }
  }

  /** A number below 100 printed with two digits, as a time input shows it. */
  function Pad2(n: nat): (r: string)
    requires n < 100
    ensures |r| == 2 && AllDigits(r)
  {
    if n < 10 then "0" + NatToString(n)
    else
      assert NatToString(n) == NatToString(n / 10) + [DigitChar(n % 10)];
      NatToString(n)
  }

  /** `Number` reads a two-digit field back. */
  lemma JsNumberPad2(n: nat)
    requires n < 100
    ensures JsNumber(Pad2(n)) == Some(n)
  {
    TrimDigits(Pad2(n));
    DigitsValueNatToString(n);
    if n < 10 {
      DigitsValueLeadingZero(NatToString(n));
    }
  }

  /** `parseInt` reads a non-empty run of digits as its value. */
  lemma ParseIntDigits(s: string)
    requires |s| > 0 && AllDigits(s)
    ensures ParseInt(s) == Some(DigitsValue(s))
  {
    assert !IsSpace(s[0]);
    assert TrimStart(s) == s;
    assert s == s + "";
    DigitRunOfNumeral(s, "");
    assert s[..|s|] == s;
  }

  /** `parseInt` reads a two-digit field back. */
  lemma ParseIntPad2(n: nat)
    requires n < 100
    ensures ParseInt(Pad2(n)) == Some(n)
  {
    ParseIntDigits(Pad2(n));
    DigitsValueNatToString(n);
    if n < 10 {
      DigitsValueLeadingZero(NatToString(n));
    }
  }

  /** A time input's value, "HH:MM". */
  function TimeText(h: nat, m: nat): string
    requires h < 100 && m < 100
  {
    Pad2(h) + ":" + Pad2(m)
  }

  lemma SplitTime(h: nat, m: nat)
    requires h < 100 && m < 100
    ensures Split(TimeText(h, m), ':') == [Pad2(h), Pad2(m)]
  {
    var parts := [Pad2(h), Pad2(m)];
    assert Join(parts, [':']) == Pad2(h) + [':'] + Join(parts[1..], [':']);
    assert TimeText(h, m) == Join(parts, [':']);
    SplitJoin(parts, ':');
  }
}

=== FILE: voice.dfy ===
/**
 * Voice control on the dashboard: matching a heard phrase against the
 * user's command list, the daily listening window, and editing the list.
 */
module Voice {
  import opened Optional
  import opened Text
  import opened DeviceState

  /** A stored voice command: phrase, target device and `on`/`off` (or anything else). */
  datatype VoiceCommand = VoiceCommand(text: string, deviceId: string, action: string)

  /** The effect of one recognised phrase: the remembered device and the command sent, if any. */
  datatype Heard = Heard(lastDeviceId: Option<string>, control: Option<Control>)

  // ---------------------------------------------------------------------
  // Matching

  /** The phrase of a command matches when its lowercased text occurs in the transcript. */
  predicate Matches(c: VoiceCommand, transcript: string) {
    Contains(transcript, Lower(c.text))
  }

  /** Index of the first command, in list order, that matches. */
  function FirstMatch(cmds: seq<VoiceCommand>, transcript: string): (r: Option<nat>)
    ensures r.Some? ==> r.value < |cmds| && Matches(cmds[r.value], transcript)
    ensures r.Some? ==> forall j :: 0 <= j < r.value ==> !Matches(cmds[j], transcript)
    ensures r.None? <==> forall j :: 0 <= j < |cmds| ==> !Matches(cmds[j], transcript)
    decreases |cmds|
  {
    if |cmds| == 0 then None
    else if Matches(cmds[0], transcript) then Some(0)
    else
      var rest := FirstMatch(cmds[1..], transcript);
      if rest.Some? then Some(rest.value + 1) else None
  }

  /**
   * `processVoiceCommand(command)` on a transcript the recogniser has already
   * lowercased: the first matching command remembers its device and, for
   * `on`/`off`, sends that command; nothing happens without a match.
   */
  function Process(cmds: seq<VoiceCommand>, transcript: string, lastDeviceId: Option<string>): (r: Heard)
    ensures FirstMatch(cmds, transcript).None? ==> r == Heard(lastDeviceId, None)
    ensures FirstMatch(cmds, transcript).Some? ==>
              var c := cmds[FirstMatch(cmds, transcript).value];
              r.lastDeviceId == Some(c.deviceId)
              && (r.control.Some? <==> c.action == "on" || c.action == "off")
              && (r.control.Some? ==> r.control.value == Control(c.deviceId, c.action))
  {
    match FirstMatch(cmds, transcript)
    case None => Heard(lastDeviceId, None)
    case Some(i) =>
      var c := cmds[i];
      if c.action == "on" then Heard(Some(c.deviceId), Some(Control(c.deviceId, "on")))
      else if c.action == "off" then Heard(Some(c.deviceId), Some(Control(c.deviceId, "off")))
      else Heard(Some(c.deviceId), None)
  }

  /** `rec.onresult`: the last transcript is lowercased before matching. */
  function OnResult(cmds: seq<VoiceCommand>, transcript: string, lastDeviceId: Option<string>): (r: Heard)
    ensures r == Process(cmds, Lower(transcript), lastDeviceId)
    ensures r.control.Some? ==> r.control.value.command in {"on", "off"}
  {
    Process(cmds, Lower(transcript), lastDeviceId)
  }

  /** Containment is transitive. */
  lemma ContainsTrans(s: string, p: string, q: string)
    requires Contains(s, p) && Contains(p, q)
    ensures Contains(s, q)
  {
    var i := ContainsWitness(s, p);
    var j := ContainsWitness(p, q);
    SliceWithin(s, i, p, j, j + |q|);
    ContainsAt(s, q, i + j);
  }

  /**
   * A command whose phrase contains the phrase of an earlier command never
   * wins: whenever it would match, the earlier one matches first.
   */
  lemma ShadowedNeverWins(cmds: seq<VoiceCommand>, i: nat, j: nat, transcript: string)
    requires i < j < |cmds|
    requires Contains(Lower(cmds[j].text), Lower(cmds[i].text))
    ensures FirstMatch(cmds, transcript) != Some(j)
  {
    if Matches(cmds[j], transcript) {
      ContainsTrans(transcript, Lower(cmds[j].text), Lower(cmds[i].text));
      assert Matches(cmds[i], transcript);
    }
  }

  /** A command with an empty phrase matches every transcript. */
  lemma EmptyPhraseMatchesAll(c: VoiceCommand, transcript: string)
    requires c.text == ""
    ensures Matches(c, transcript)
  {
    ContainsEmpty(transcript);
  }

  // ---------------------------------------------------------------------
  // Listening window

  /** `parseInt(p[0]) * 60 + parseInt(p[1])` for an `HH:MM` split; NaN (None) if either part is. */
  function WindowMinutes(parts: seq<string>): Option<int>
    requires |parts| == 2
  {
    var h := ParseInt(parts[0]);
    var m := ParseInt(parts[1]);
    if h.Some? && m.Some? then Some(h.value * 60 + m.value) else None
  }

  datatype Start = Refused | Outside | Listening

  /**
   * Starting voice control at minute-of-day `now`: refused unless both
   * times split into exactly two parts, listening iff `start <= now <= end`
   * (a NaN bound compares false).
   */
  function StartAt(start: string, end: string, now: int): (r: Start)
    ensures r.Refused? <==> |Split(start, ':')| != 2 || |Split(end, ':')| != 2
    ensures r.Listening? <==>
              |Split(start, ':')| == 2 && |Split(end, ':')| == 2
              && WindowMinutes(Split(start, ':')).Some? && WindowMinutes(Split(end, ':')).Some?
              && WindowMinutes(Split(start, ':')).value <= now <= WindowMinutes(Split(end, ':')).value
  {
    var sp := Split(start, ':');
    var ep := Split(end, ':');
    if |sp| != 2 || |ep| != 2 then Refused
    else
      var s := WindowMinutes(sp);
      var e := WindowMinutes(ep);
      if s.Some? && e.Some? && s.value <= now && now <= e.value then Listening else Outside
  }

  /** A window that ends before it starts is never active: there is no wrap past midnight. */
  lemma NoWrapAround(start: string, end: string, now: int)
    requires |Split(start, ':')| == 2 && |Split(end, ':')| == 2
    requires WindowMinutes(Split(start, ':')).Some? && WindowMinutes(Split(end, ':')).Some?
    requires WindowMinutes(Split(start, ':')).value > WindowMinutes(Split(end, ':')).value
    ensures StartAt(start, end, now) == Outside
  {
  }

  lemma WindowMinutesOf(a: string, b: string, x: int, y: int)
    requires ParseInt(a) == Some(x) && ParseInt(b) == Some(y)
    ensures WindowMinutes([a, b]) == Some(x * 60 + y)
  {
  }

  /** A time input reads back as its minute of the day. */
  lemma TimeInputMinutes(h: nat, m: nat)
    requires h < 24 && m < 60
    ensures |Split(TimeText(h, m), ':')| == 2
    ensures WindowMinutes(Split(TimeText(h, m), ':')) == Some(h * 60 + m)
  {
    SplitTime(h, m);
    ParseIntPad2(h);
    ParseIntPad2(m);
    WindowMinutesOf(Pad2(h), Pad2(m), h, m);
  }

  /** Between two well-formed time inputs, the window holds exactly the minutes from start to end. */
  lemma WindowOfTimeInputs(sh: nat, sm: nat, eh: nat, em: nat, now: int)
    requires sh < 24 && sm < 60 && eh < 24 && em < 60
    ensures StartAt(TimeText(sh, sm), TimeText(eh, em), now).Listening?
            <==> sh * 60 + sm <= now <= eh * 60 + em
  {
    TimeInputMinutes(sh, sm);
    TimeInputMinutes(eh, em);
  }

  // ---------------------------------------------------------------------
  // Editing the list

  datatype Saved = Blank | Saved(cmds: seq<VoiceCommand>)

  /** `saveVoiceCommand`: a blank phrase is refused; otherwise the trimmed phrase is appended. */
  function AddCommand(cmds: seq<VoiceCommand>, text: string, deviceId: string, action: string): (r: Saved)
    ensures r.Blank? <==> forall i :: 0 <= i < |text| ==> IsSpace(text[i])
    ensures r.Saved? ==> |r.cmds| == |cmds| + 1 && r.cmds[..|cmds|] == cmds
    ensures r.Saved? ==> r.cmds[|cmds|] == VoiceCommand(Trim(text), deviceId, action)
  {
    TrimEmptyIff(text);
    var t := Trim(text);
    if t == "" then Blank else Saved(cmds + [VoiceCommand(t, deviceId, action)])
  }

  /** `list.slice().splice(index, 1)`, with JavaScript's reading of a negative or too-large index. */
  function DeleteAt<T>(xs: seq<T>, index: int): (r: seq<T>)
    ensures 0 <= index < |xs| ==> |r| == |xs| - 1 && r == xs[..index] + xs[index + 1..]
    ensures index >= |xs| ==> r == xs
    ensures index < 0 && |xs| + index >= 0 ==> r == xs[..|xs| + index] + xs[|xs| + index + 1..]
    ensures index < 0 && |xs| + index < 0 && |xs| > 0 ==> r == xs[1..]
  {
    var k := if index < 0 then (if |xs| + index < 0 then 0 else |xs| + index) else index;
    if k < |xs| then xs[..k] + xs[k + 1..] else xs
  }

  /** Deleting the command just added restores the list. */
  lemma AddDeleteRoundTrip(cmds: seq<VoiceCommand>, text: string, deviceId: string, action: string)
    requires AddCommand(cmds, text, deviceId, action).Saved?
    ensures DeleteAt(AddCommand(cmds, text, deviceId, action).cmds, |cmds|) == cmds
    ensures DeleteAt(AddCommand(cmds, text, deviceId, action).cmds, -1) == cmds
  {
    var r := AddCommand(cmds, text, deviceId, action).cmds;
    assert r[..|cmds|] + r[|cmds| + 1..] == cmds;
  }

  /** A newly added command is heard on its own phrase unless an earlier command already matches. */
  lemma AddedCommandHeard(cmds: seq<VoiceCommand>, text: string, deviceId: string, action: string)
    requires AddCommand(cmds, text, deviceId, action).Saved?
    requires forall j :: 0 <= j < |cmds| ==> !Matches(cmds[j], Lower(Trim(text)))
    ensures FirstMatch(AddCommand(cmds, text, deviceId, action).cmds, Lower(Trim(text))) == Some(|cmds|)
  {
    var r := AddCommand(cmds, text, deviceId, action).cmds;
    var t := Lower(Trim(text));
    assert Matches(r[|cmds|], t) by {
      assert t[..|t|] == t;
    }
    assert forall j :: 0 <= j < |cmds| ==> r[j] == cmds[j];
  }
}

=== FILE: weather.dfy ===
/**
 * The dashboard's weather animation: the set of pause reasons, the choice of
 * animation type and intensity from the forecast, and the particle counts.
 */
module Weather {
  import opened Optional
  import opened Text

  // ---------------------------------------------------------------------
  // Pausing

  /** A pause reason: any string, or `null` when a caller passes it explicitly. */
  datatype Reason = NullReason | Named(name: string)

  /** The argument of `pause`/`resume`: left out, `null`, or a string. */
  datatype Arg = Missing | Null | Given(name: string)

  const ManualReason := Named("manual")

  /** `pauseWeatherAnimation(reason = 'manual')`: the default replaces only a missing argument. */
  function Pause(reasons: set<Reason>, a: Arg): (r: set<Reason>)
    ensures a.Missing? ==> r == reasons + {ManualReason}
    ensures a.Null? ==> r == reasons + {NullReason}
    ensures a.Given? ==> r == reasons + {Named(a.name)}
  {
    match a
    case Missing => reasons + {ManualReason}
    case Null => reasons + {NullReason}
    case Given(s) => reasons + {Named(s)}
  }

  /**
   * `resumeWeatherAnimation(reason = 'manual')`: `null` clears every reason;
   * otherwise only that reason goes. A missing argument has already become
   * `'manual'`, so the `undefined` test never clears.
   */
  function Resume(reasons: set<Reason>, a: Arg): (r: set<Reason>)
    ensures a.Null? ==> r == {}
    ensures a.Missing? ==> r == reasons - {ManualReason}
    ensures a.Given? ==> r == reasons - {Named(a.name)}
  {
    match a
    case Missing => reasons - {ManualReason}
    case Null => {}
    case Given(s) => reasons - {Named(s)}
  }

  predicate Paused(reasons: set<Reason>) {
    |reasons| > 0
  }

  /** After any pause the animation is paused, and pausing twice is pausing once. */
  lemma PauseIdempotent(reasons: set<Reason>, a: Arg)
    ensures Paused(Pause(reasons, a))
    ensures Pause(Pause(reasons, a), a) == Pause(reasons, a)
  {
    var r := Pause(reasons, a);
    match a
    case Missing => assert ManualReason in r;
    case Null => assert NullReason in r;
    case Given(s) => assert Named(s) in r;
  }

  /** Resuming one reason leaves the animation paused while another reason remains. */
  lemma ResumeKeepsOthers(reasons: set<Reason>, a: Arg, other: Reason)
    requires !a.Null?
    requires other in reasons
    requires a.Missing? ==> other != ManualReason
    requires a.Given? ==> other != Named(a.name)
    ensures other in Resume(reasons, a) && Paused(Resume(reasons, a))
  {
  }

  /** `resume(s)` undoes `pause(s)` for a reason that was not already there. */
  lemma PauseResumeRoundTrip(reasons: set<Reason>, a: Arg)
    requires !a.Null?
    requires a.Missing? ==> ManualReason !in reasons
    requires a.Given? ==> Named(a.name) !in reasons
    ensures Resume(Pause(reasons, a), a) == reasons
  {
  }

  /** `resume(null)` unpauses whatever was paused. */
  lemma ResumeNullUnpauses(reasons: set<Reason>)
    ensures !Paused(Resume(reasons, Null))
  {
  }

  // ---------------------------------------------------------------------
  // Choosing the animation

  datatype Kind = NoAnimation | Snow | Rain | Sunlight

  datatype Animation = Animation(kind: Kind, level: int)

  /** A JavaScript string that may be `undefined`: truthy when present and non-empty. */
  predicate Present(s: Option<string>) {
    s.Some? && s.value != ""
  }

  predicate PresentContaining(s: Option<string>, word: string) {
    Present(s) && Contains(s.value, word)
  }

  predicate StormIcon(icon: Option<string>) {
    icon == Some("09d") || icon == Some("09n") || icon == Some("11d") || icon == Some("11n")
  }

  predicate ClearIcon(icon: Option<string>) {
    icon == Some("01d") || icon == Some("02d")
  }

  predicate Morning(hour: int) {
    6 <= hour <= 11
  }

  predicate RainyMain(main: string) {
    Contains(main, "rain") || Contains(main, "drizzle") || Contains(main, "shower") || Contains(main, "thunderstorm")
  }

  predicate HeavyDescription(desc: string) {
    Contains(desc, "heavy") || Contains(desc, "shower") || Contains(desc, "thunderstorm")
  }

  predicate LightDescription(desc: string) {
    Contains(desc, "light") || Contains(desc, "drizzle")
  }

  /** Level of a rain animation chosen from the forecast's main group. */
  function RainLevel(icon: Option<string>, description: Option<string>): (level: int)
    ensures level == 3 <==> StormIcon(icon) || HeavyDescription(Lower(description.GetOr("")))
    ensures level == 1 <==> !StormIcon(icon) && !HeavyDescription(Lower(description.GetOr("")))
                            && LightDescription(Lower(description.GetOr("")))
    ensures 1 <= level <= 3
  {
    var desc := Lower(description.GetOr(""));
    if StormIcon(icon) then 3
    else if HeavyDescription(desc) then 3
    else if LightDescription(desc) then 1
    else 2
  }

  /**
   * `autoSetWeatherAnimation(iconCode, weatherMain, description)` at the
   * given local hour. With a main group, snow wins over rain, rain over
   * clear; without one, the icon code decides.
   */
  function AutoAnimation(icon: Option<string>, main: Option<string>, description: Option<string>, hour: int): (r: Animation)
    ensures 1 <= r.level <= 3
    ensures r.kind != Rain ==> r.level == 2
    ensures PresentContaining(main, "snow") ==> r == Animation(Snow, 2)
    ensures r.kind == Sunlight <==> ClearIcon(icon) && Morning(hour)
                                    && (Present(main) ==> (!Contains(main.value, "snow") && !RainyMain(main.value)
                                                           && (Contains(main.value, "clear") || Contains(main.value, "sun"))))
    ensures Present(main) && !Contains(main.value, "snow") && RainyMain(main.value)
            ==> r == Animation(Rain, RainLevel(icon, description))
    ensures !Present(main) && StormIcon(icon) ==> r == Animation(Rain, 3)
    // without a main group, a snow icon gives snow, and a rain icon (10d/10n) light-to-medium rain
    ensures !Present(main) && (PresentContaining(icon, "snow") || icon == Some("13d") || icon == Some("13n"))
            ==> r == Animation(Snow, 2)
    ensures !Present(main) && (icon == Some("10d") || icon == Some("10n")) ==> r == Animation(Rain, 2)
  {
    if Present(main) then
      var m := main.value;
      if Contains(m, "snow") then Animation(Snow, 2)
      else if RainyMain(m) then Animation(Rain, RainLevel(icon, description))
      else if Contains(m, "clear") || Contains(m, "sun") then
        if ClearIcon(icon) && Morning(hour) then Animation(Sunlight, 2) else Animation(NoAnimation, 2)
      else Animation(NoAnimation, 2)
    else if PresentContaining(icon, "snow") || icon == Some("13d") || icon == Some("13n") then Animation(Snow, 2)
    else if StormIcon(icon) then Animation(Rain, 3)
    else if icon == Some("10d") || icon == Some("10n") then Animation(Rain, 2)
    else if ClearIcon(icon) && Morning(hour) then Animation(Sunlight, 2)
    else Animation(NoAnimation, 2)
  }

  /** The outcome of one forecast update: the pair now applied and whether it was re-applied. */
  datatype Applied = Applied(last: Animation, redrawn: bool)

  /** The animation is rebuilt only when the (type, level) pair changes. */
  function Update(last: Animation, icon: Option<string>, main: Option<string>, description: Option<string>, hour: int): (r: Applied)
    ensures r.last == AutoAnimation(icon, main, description, hour)
    ensures r.redrawn <==> last != r.last
  {
    var next := AutoAnimation(icon, main, description, hour);
    Applied(next, last != next)
  }

  /** The same forecast twice in a row redraws at most once. */
  lemma UpdateTwiceRedrawsOnce(last: Animation, icon: Option<string>, main: Option<string>, description: Option<string>, hour: int)
    ensures !Update(Update(last, icon, main, description, hour).last, icon, main, description, hour).redrawn
  {
  }

  // ---------------------------------------------------------------------
  // Rendering parameters

  /** `['', 'light', 'medium', 'heavy'][level]`; `undefined` outside the list. */
  function LevelName(level: int): (r: Option<string>)
    ensures r.Some? <==> 0 <= level <= 3
    ensures 1 <= level <= 3 ==> r.Some? && r.value != ""
  {
    var levels := ["", "light", "medium", "heavy"];
    if 0 <= level < |levels| then Some(levels[level]) else None
  }

  /** Snowflakes for a level: 40, 70, otherwise 100. */
  function SnowCount(level: int): nat {
    if level == 1 then 40 else if level == 2 then 70 else 100
  }

  /** Raindrops for a level: 25, 50, otherwise 80. */
  function RainCount(level: int): nat {
    if level == 1 then 25 else if level == 2 then 50 else 80
  }

  /** Every chosen animation has a named level, and a heavier level draws more particles. */
  lemma CountsGrowWithLevel(a: int, b: int)
    requires 1 <= a < b <= 3
    ensures SnowCount(a) < SnowCount(b) && RainCount(a) < RainCount(b)
    ensures LevelName(a) != LevelName(b)
  {
  }
}

=== FILE: widgets.dfy ===
/**
 * The dashboard's device widgets: which devices are shown, the room-like
 * group each falls into, the widget drawn for it, and the "turn off all"
 * button of a group.
 */
module Widgets {
  import opened Optional
  import opened Text
  import opened DeviceState

  // ---------------------------------------------------------------------
  // Visibility

  /** Listed devices with `outlet` in the label, or hidden in the settings, are not shown. */
  predicate Visible(d: Device, settings: map<string, DeviceSettings>) {
    !Contains(Lower(LabelOr(d, "")), "outlet") && !SettingsOf(settings, d.deviceId).hidden
  }

  /** `currentDevices.filter(...)`, in list order. */
  function VisibleDevices(devices: seq<Device>, settings: map<string, DeviceSettings>): (r: seq<Device>)
    ensures forall d :: d in r <==> d in devices && Visible(d, settings)
    ensures |r| <= |devices|
    decreases |devices|
  {
    if |devices| == 0 then []
    else
      var rest := VisibleDevices(devices[1..], settings);
      assert forall d :: d in devices <==> d == devices[0] || d in devices[1..];
      if Visible(devices[0], settings) then [devices[0]] + rest else rest
  }

  // ---------------------------------------------------------------------
  // Groups

  datatype Group = Lighting | Energy | Security | Comfort

  /** The heading of a group, in the order the groups are drawn. */
  function GroupName(g: Group): string {
    match g
    case Lighting => "Освещение"
    case Energy => "Энергия"
    case Security => "Безопасность"
    case Comfort => "Комфорт"
  }

  predicate LightWord(l: string) {
    Contains(l, "лампа") || Contains(l, "свет") || Contains(l, "лента")
  }

  predicate EnergyWord(l: string) {
    Contains(l, "tv") || Contains(l, "аристон") || Contains(l, "samsung")
  }

  predicate FanWord(l: string) {
    Contains(l, "вентилятор") || Contains(l, "fan")
  }

  predicate SecurityCaps(st: Option<Status>) {
    HasCap(st, "contactSensor") || HasCap(st, "lock") || HasCap(st, "presenceSensor")
  }

  predicate LightCaps(st: Option<Status>) {
    HasCap(st, "switchLevel") || HasCap(st, "colorControl")
  }

  /**
   * The group `renderAllWidgets` puts a device in, from its label (already
   * defaulted to "Устройство") and its snapshot. A light keyword only counts
   * for a device with a switch.
   */
  function RenderGroup(name: string, st: Option<Status>): (g: Group)
    ensures g == Lighting <==> LightCaps(st) || (HasCap(st, "switch") && LightWord(Lower(name)))
    ensures g == Security <==> !(g == Lighting) && !HasCap(st, "powerMeter") && !EnergyWord(Lower(name)) && SecurityCaps(st)
    ensures g == Energy && !HasCap(st, "switch") ==> HasCap(st, "powerMeter") || EnergyWord(Lower(name))
  {
    var l := Lower(name);
    if LightCaps(st) || (HasCap(st, "switch") && LightWord(l)) then Lighting
    else if HasCap(st, "powerMeter") || EnergyWord(l) then Energy
    else if SecurityCaps(st) then Security
    else if HasCap(st, "switch") then (if FanWord(l) then Comfort else Energy)
    else Comfort
  }

  /**
   * The group `turnOffGroup` computes for a device with a switch, from the
   * label defaulted to the empty string.
   */
  function OffGroup(name: string, st: Option<Status>): Group {
    var l := Lower(name);
    if LightCaps(st) || LightWord(l) then Lighting
    else if HasCap(st, "powerMeter") || EnergyWord(l) then Energy
    else if SecurityCaps(st) then Security
    else if FanWord(l) then Comfort
    else Energy
  }

  /** A string that lacks one character of `p` does not contain `p`. */
  lemma {:induction false} NotContainsChar(s: string, p: string, k: nat)
    requires k < |p| && p[k] !in s
    ensures !Contains(s, p)
    decreases |s|
  {
    if |p| <= |s| {
      assert s[..|p|][k] == s[k];
    }
    if |s| > 0 {
      assert forall c :: c in s[1..] ==> c in s;
      NotContainsChar(s[1..], p, k);
    }
  }

  /** The default label, lower-cased. */
  lemma LowerDefaultLabel()
    ensures Lower(DefaultLabel) == "устройство"
  {
    var l := Lower(DefaultLabel);
    assert |l| == 10;
    assert l[0] == LowerChar('У');
  }

  /** The default label carries none of the grouping keywords. */
  lemma DefaultLabelHasNoKeyword()
    ensures !LightWord(Lower(DefaultLabel)) && !EnergyWord(Lower(DefaultLabel)) && !FanWord(Lower(DefaultLabel))
  {
    LowerDefaultLabel();
    NoLightWord("устройство");
    NoEnergyWord("устройство");
    NoFanWord("устройство");
  }

  lemma NoLightWord(l: string)
    requires l == "устройство"
    ensures !LightWord(l)
  {
    NotContainsChar(l, "лампа", 0);
    NotContainsChar(l, "свет", 2);
    NotContainsChar(l, "лента", 0);
  }

  lemma NoEnergyWord(l: string)
    requires l == "устройство"
    ensures !EnergyWord(l)
  {
    NotContainsChar(l, "tv", 0);
    NotContainsChar(l, "аристон", 0);
    NotContainsChar(l, "samsung", 0);
  }

  lemma NoFanWord(l: string)
    requires l == "устройство"
    ensures !FanWord(l)
  {
    NotContainsChar(l, "вентилятор", 1);
    NotContainsChar(l, "fan", 0);
  }

  /** The empty label carries none of the grouping keywords. */
  lemma EmptyLabelHasNoKeyword()
    ensures !LightWord(Lower("")) && !EnergyWord(Lower("")) && !FanWord(Lower(""))
  {
  }

  /**
   * For every device with a switch, the group the button uses is the group
   * the device is drawn in, although the two read the label with different
   * defaults and test the switch in different places.
   */
  lemma GroupsAgree(d: Device, st: Option<Status>)
    requires HasCap(st, "switch")
    ensures RenderGroup(LabelOr(d, DefaultLabel), st) == OffGroup(LabelOr(d, ""), st)
  {
    if d.deviceLabel.None? || d.deviceLabel.value == "" {
      DefaultLabelHasNoKeyword();
      EmptyLabelHasNoKeyword();
    }
  }

  // ---------------------------------------------------------------------
  // Group ids

  /** `s.replace(/\s+/g, '-')`: every run of white space becomes one dash. */
  function DashSpaces(s: string): (r: string)
    ensures (forall i :: 0 <= i < |s| ==> !IsSpace(s[i])) ==> r == s
    decreases |s|
  {
    if |s| == 0 then ""
    else if IsSpace(s[0]) then
      var t := TrimStart(s);
      assert |t| < |s| by {
        assert |t| == |s| ==> t == s;
      }
      "-" + DashSpaces(t)
    else [s[0]] + DashSpaces(s[1..])
  }

  /** The id a group's button passes: `groupName.toLowerCase().replace(/\s+/g, '-')`. */
  function GroupId(name: string): string {
    DashSpaces(Lower(name))
  }

  /** `word.charAt(0).toUpperCase() + word.slice(1)`. */
  function Capitalize(w: string): (r: string)
    ensures |r| == |w|
  {
    if |w| == 0 then "" else [UpperChar(w[0])] + w[1..]
  }

  function CapitalizeAll(ws: seq<string>): (r: seq<string>)
    ensures |r| == |ws|
    ensures forall i :: 0 <= i < |ws| ==> r[i] == Capitalize(ws[i])
  {
    seq(|ws|, i requires 0 <= i < |ws| => Capitalize(ws[i]))
  }

  /** The group name `turnOffGroup` rebuilds from an id. */
  function NameOfId(groupId: string): string {
    Join(CapitalizeAll(Split(groupId, '-')), " ")
  }

  /** Lower-casing never produces a dash or white space from a letter. */
  lemma LowerKeepsPunctuation(c: char)
    ensures LowerChar(c) == '-' <==> c == '-'
    ensures IsSpace(LowerChar(c)) <==> IsSpace(c)
  {
  }

  /**
   * A one-word name with a capital first letter and a lower-case rest
   * survives the trip to an id and back.
   */
  lemma {:induction false} NameIdRoundTrip(name: string)
    requires |name| > 0
    requires forall i :: 0 <= i < |name| ==> !IsSpace(name[i]) && name[i] != '-'
    requires UpperChar(LowerChar(name[0])) == name[0]
    requires forall i :: 1 <= i < |name| ==> LowerChar(name[i]) == name[i]
    ensures NameOfId(GroupId(name)) == name
  {
    var l := Lower(name);
    forall i | 0 <= i < |l| ensures !IsSpace(l[i]) && l[i] != '-' {
      LowerKeepsPunctuation(name[i]);
    }
    assert GroupId(name) == l;
    SplitNoSep(l, '-');
    assert CapitalizeAll([l]) == [Capitalize(l)];
    assert Capitalize(l) == name;
  }

  /** Each group's button names its own group again. */
  lemma GroupIdRoundTrip(g: Group)
    ensures NameOfId(GroupId(GroupName(g))) == GroupName(g)
  {
    var n := GroupName(g);
    assert forall i :: 0 <= i < |n| ==> !IsSpace(n[i]) && n[i] != '-';
    assert forall i :: 1 <= i < |n| ==> LowerChar(n[i]) == n[i];
    NameIdRoundTrip(n);
  }

  // ---------------------------------------------------------------------
  // Drawing and turning off

  /** The devices drawn under a group, in list order: visible, with a snapshot that has `main`. */
  function Members(devices: seq<Device>, states: StateMap, settings: map<string, DeviceSettings>, g: Group): (r: seq<Device>)
    ensures forall d :: d in r <==>
              (d in devices && Visible(d, settings) && Main(StateOf(states, d.deviceId)).Some?
               && RenderGroup(LabelOr(d, DefaultLabel), StateOf(states, d.deviceId)) == g)
    decreases |devices|
  {
    if |devices| == 0 then []
    else
      var d := devices[0];
      var rest := Members(devices[1..], states, settings, g);
      assert forall x :: x in devices <==> x == d || x in devices[1..];
      if Visible(d, settings) && Main(StateOf(states, d.deviceId)).Some?
         && RenderGroup(LabelOr(d, DefaultLabel), StateOf(states, d.deviceId)) == g
      then [d] + rest else rest
  }

  /** `turnOffGroup(groupId)`: the devices sent `off`, in list order. */
  function TurnOffGroup(groupId: string, devices: seq<Device>, states: StateMap, settings: map<string, DeviceSettings>): (r: seq<string>)
    ensures |r| <= |devices|
    ensures forall id :: id in r ==> exists d :: (d in devices && d.deviceId == id && Visible(d, settings)
              && HasCap(StateOf(states, id), "switch") && SwitchValue(StateOf(states, id)) == Some(Str("on"))
              && GroupName(OffGroup(LabelOr(d, ""), StateOf(states, id))) == NameOfId(groupId))
    decreases |devices|
  {
    if |devices| == 0 then []
    else
      var d := devices[0];
      var st := StateOf(states, d.deviceId);
      var rest := TurnOffGroup(groupId, devices[1..], states, settings);
      assert forall x :: x in devices[1..] ==> x in devices;
      if Visible(d, settings) && HasCap(st, "switch")
         && GroupName(OffGroup(LabelOr(d, ""), st)) == NameOfId(groupId)
         && SwitchValue(st) == Some(Str("on"))
      then [d.deviceId] + rest else rest
  }

  lemma GroupNameInjective(a: Group, b: Group)
    ensures GroupName(a) == GroupName(b) <==> a == b
  {
    if a != b {
      assert |GroupName(a)| != |GroupName(b)| || GroupName(a)[0] != GroupName(b)[0];
    }
  }

  /**
   * The button of a drawn group turns off exactly the devices drawn in it
   * that have a switch reading `on`.
   */
  lemma {:induction false} TurnOffDrawnGroup(g: Group, devices: seq<Device>, states: StateMap, settings: map<string, DeviceSettings>)
    ensures forall id :: id in TurnOffGroup(GroupId(GroupName(g)), devices, states, settings) <==>
              exists d :: d in Members(devices, states, settings, g) && d.deviceId == id
                          && HasCap(StateOf(states, id), "switch") && SwitchValue(StateOf(states, id)) == Some(Str("on"))
    decreases |devices|
  {
    GroupIdRoundTrip(g);
    if |devices| > 0 {
      var d := devices[0];
      var st := StateOf(states, d.deviceId);
      TurnOffDrawnGroup(g, devices[1..], states, settings);
      if HasCap(st, "switch") {
        GroupsAgree(d, st);
        GroupNameInjective(OffGroup(LabelOr(d, ""), st), g);
      }
      var r := TurnOffGroup(GroupId(GroupName(g)), devices, states, settings);
      var rest := TurnOffGroup(GroupId(GroupName(g)), devices[1..], states, settings);
      var m := Members(devices, states, settings, g);
      var mrest := Members(devices[1..], states, settings, g);
      assert forall x :: x in m <==> x in mrest || (x == d && d in m);
      assert forall id :: id in r <==> id in rest || (id == d.deviceId && d.deviceId in r);
    }
  }

  // ---------------------------------------------------------------------
  // Widget kinds

  datatype Kind = SwitchWidget | TemperatureWidget | HumidityWidget | ContactWidget | LockWidget

  /**
   * The widget as the drawing code assigns it, step by step: switch, then
   * temperature overwrites, humidity only into an empty slot, then contact
   * and lock overwrite.
   */
  function KindAsAssigned(st: Option<Status>): Option<Kind> {
    var w0: Option<Kind> := None;
    var w1 := if HasCap(st, "switch") then Some(SwitchWidget) else w0;
    var w2 := if HasCap(st, "temperatureMeasurement") then Some(TemperatureWidget) else w1;
    var w3 := if HasCap(st, "relativeHumidityMeasurement") && w2.None? then Some(HumidityWidget) else w2;
    var w4 := if HasCap(st, "contactSensor") then Some(ContactWidget) else w3;
    if HasCap(st, "lock") then Some(LockWidget) else w4
  }

  /** The capability each widget kind is drawn from. */
  function CapOf(k: Kind): string {
    match k
    case SwitchWidget => "switch"
    case TemperatureWidget => "temperatureMeasurement"
    case HumidityWidget => "relativeHumidityMeasurement"
    case ContactWidget => "contactSensor"
    case LockWidget => "lock"
  }

  /** Kinds from strongest to weakest. */
  const Precedence: seq<Kind> := [LockWidget, ContactWidget, TemperatureWidget, SwitchWidget, HumidityWidget]

  /** The first kind in `ks` whose capability the snapshot has. */
  function FirstPresent(ks: seq<Kind>, st: Option<Status>): (r: Option<Kind>)
    ensures r.Some? ==> r.value in ks && HasCap(st, CapOf(r.value))
    ensures r.None? <==> forall k :: k in ks ==> !HasCap(st, CapOf(k))
    decreases |ks|
  {
    if |ks| == 0 then None
    else if HasCap(st, CapOf(ks[0])) then Some(ks[0])
    else
      assert forall k :: k in ks ==> k == ks[0] || k in ks[1..];
      FirstPresent(ks[1..], st)
  }

  /** The drawn widget follows lock > contact > temperature > switch > humidity. */
  lemma KindPrecedence(st: Option<Status>)
    ensures KindAsAssigned(st) == FirstPresent(Precedence, st)
  {
    var p := Precedence;
    assert p[1..] == [ContactWidget, TemperatureWidget, SwitchWidget, HumidityWidget];
    assert p[2..] == [TemperatureWidget, SwitchWidget, HumidityWidget];
    assert p[3..] == [SwitchWidget, HumidityWidget];
    assert p[4..] == [HumidityWidget];
    assert p[5..] == [];
  }
}
